=== FILE: README.md ===
# MUnit generator: a Dafny model

MUnit-Generator reads a Mule XML configuration file and writes an MUnit test
suite for it. The Mule file is parsed line by line into `TagPair` records: a
lower-cased tag and an ordered attribute dictionary. The record stream is then
cut into flows. Each `choice ... /choice` block is collapsed into a
`choicePlaceholder` record, and a flow with a choice block is multiplied into
one test flow per `when`/`otherwise` branch. Each test flow is converted record
by record into MUnit records: mocks, verifications, payload assertions and
before/after suites. A dependency header and a closing `/mule` are wrapped
around the result, and the whole record list is written out as indented XML
text.

This project models that pipeline with immutable values. A `TagPair` is a tag
plus an association list with unique keys, and a `TagList` is a sequence of
`TagPair`s. Every stage is a pure function. Every Python exception the code can
raise on its input (`IndexError`, `KeyError`, `TypeError` from `None + 1`,
string concatenation with a non-string) becomes the failure case of a `Result`.

| file | module | models |
|---|---|---|
| wrappers.dfy | Wrappers | `Option`, `Result` |
| sequences.dfy | Sequences | three sequence facts |
| strings.dfy | Strings | `lower`, `strip`, `split`, `'\t' * n`, `str(n)`, `in` on strings |
| attributes.dfy | Attributes | `OrderedDict` of attribute values |
| tag_pairs.dfy | TagPairs | `TagPair` |
| tag_lists.dfy | TagLists | `TagList` |
| tokenizer.dfy | Tokenizer | `parseMuleFileLines` |
| segments.dfy | Segments | `_isolateFlows`, `_extractChoiceOperations` |
| choice_blocks.dfy | ChoiceBlocks | `_replaceChoiceBlocks` |
| expansion.dfy | Expansion | `_generateMUnitTestFlows` |
| nesting.dfy | Nesting | the nesting depth the writer tracks |
| walks.dfy | Walks | a loop over positions that threads a state and stops at the first failure |
| conversion.dfy | Conversion | `_convertMuletoMUnit` |
| pipeline.dfy | Pipeline | `_extractSpringInternals`, `_generateMUnitDependencies`, `createMUnitTests` |
| serializer.dfy | Serializer | `createMUnitSuiteFile` |

Some design points:

- **Attribute values.** An attribute value is `Text`, `Flag` or `Null`.
  - `Flag` is the boolean `closeAtEnd`.
  - `Null` is Python's `None`. The FTP handler stores it when it copies an
    absent attribute.
  - The writer fails with `NotText` when it has to concatenate a non-string
    value.
- **Shadowed records in `_replaceChoiceBlocks`.** The function iterates over a
  snapshot and calls `remove` on the live list, and `remove` deletes the first
  *structurally equal* record.
  - `ChoiceBlocks.ReplaceChoiceBlocks` models this exactly: each live record is
    tagged with its snapshot position, so the in-place `setTag` reaches the
    right object.
  - The rest of the pipeline uses the intended positional collapse,
    `ChoiceBlocks.CollapseChoiceBlocks`. The two are proved equal whenever no
    removed record equals a record kept before it (see Findings).
- **Conversion.** The conversion walk emits one `Emission` per record.
  `Conversion.Records` spells each emission out as MUnit records. This
  separates what each handler decides from the constant record blocks it
  writes.
- **`flowPairs.index(pair) + 1`.** The code reads the record after the *first*
  record equal to the current one, and `Conversion.NextTag` does the same.
- **Writing.** The writing loop threads `tagDepth`, `currentFlow` and
  `testNumber`.
  - It is proved equal to a definition by position: the indentation of record
    `k` is the nesting depth of the records before it, and its test number is
    the count of the same-named tests just before it.
  - As written, a first test whose name is the empty string is numbered 2,
    because `currentFlow` starts as `""`. The converter never produces such a
    name.
- **Malformed attribute tokens.** A token without `=` makes the whole parse
  fail, because `item.split('=')[1]` raises `IndexError` and nothing catches
  it.

## Model

| member | source | states |
|---|---|---|
| Attributes.Get | TagPair.py:73-77 | a key's lookup is defined exactly when the key is present, and then it is the value stored under it |
| Attributes.Put | TagPair.py:82-86 | after `d[k] = v`, `k` maps to `v` and every other key's lookup is unchanged; an existing key keeps its position, and a new key is appended at the end |
| Attributes.Delete | TagPair.py:89-91 | after `pop(k, None)`, `k` is absent and every other key's lookup is unchanged; an absent key leaves the dictionary as it was; the remaining entries are the old ones in their order, with the key's one entry cut out |
| Attributes.SameAsIffSameMap | TagPair.py:30-38 | the length check plus the key-by-key comparison loop holds exactly when the two dictionaries are equal as maps, whatever their insertion order |
| Attributes.SameAsGivesSameMap | TagPair.py:30-38 | a passing comparison loop means the same map |
| Attributes.SameMapGivesSameAs | TagPair.py:30-38 | the same map means the comparison loop passes |
| Attributes.PutKeys | TagPair.py:82-86 | `d[k] = v` keeps the key order: an existing key stays where it is, a new one is appended |
| Attributes.AddKeysAppend | src/MuleLines.py:126-140 | writing two runs of keys one after the other gives the key order of writing their concatenation |
| TagPairs.EqualIsStructural | TagPair.py:25-38 | two pairs are equal exactly when their tags match and their attribute dictionaries hold the same keys with the same values, independent of order |
| TagPairs.EqualReflexive | TagPair.py:25-38 | every pair equals itself |
| TagPairs.EqualSymmetric | TagPair.py:25-38 | equality of pairs is symmetric |
| TagPairs.EqualTransitive | TagPair.py:25-38 | equality of pairs is transitive |
| TagPairs.Equal | TagPair.py:25-38 | `__eq__`; what it means is stated by `TagPairs.EqualIsStructural`, and that it is an equivalence by `EqualReflexive`, `EqualSymmetric` and `EqualTransitive` |
| TagPairs.GetAttribute | TagPair.py:73-77 | the result is `Some(v)` exactly when `(name, v)` is an entry of the pair, and `None` when the name is absent |
| TagPairs.SetAttribute | TagPair.py:82-86 | the tag is kept, the name now maps to the text value, no other attribute changes, and the keys keep their order: an existing key stays where it was and a new one comes last |
| TagPairs.RemoveAttribute | TagPair.py:89-91 | the tag is kept, the name is absent afterwards, no other attribute changes, and the pair is unchanged when the name was absent; otherwise the name's one entry is cut out and the others keep their order |
| TagPairs.SetTag | TagPair.py:54-58 | the new tag is set and the attribute dictionary is the same one, in the same order |
| TagPairs.SelfClosing | src/MuleLines.py:93 | `pair.getAttribute('closeAtEnd')` read as a condition; stated by `Tokenizer.BareLineSelfClosing` for parsed bare tags and by `Conversion.SelfClosingRecord` for the records the converter builds |
| TagLists.Append | src/TagList.py:46-50 | the list grows by one, the pair is last, and the earlier elements are unchanged |
| TagLists.AppendContains | src/TagList.py:46-65 | after `append(p)` the list contains `t` exactly when it did before or `p` equals `t` |
| TagLists.Contains | src/TagList.py:58-65 | `contains`; stated by `TagLists.Index`, which finds a position exactly when the list contains the target, and by `TagLists.AppendContains` |
| TagLists.Index | src/TagList.py:92-98 | the result is the first position holding a pair equal to the target, and `None` exactly when no element equals it |
| TagLists.Remove | src/TagList.py:118-121 | an absent target leaves the list unchanged; otherwise the list shrinks by one |
| TagLists.RemoveDeletesFirstMatch | src/TagList.py:118-121 | `remove` deletes exactly the element at the position `index` finds: the list before it and the list after it are kept |
| TagLists.RemoveAll | src/TagList.py:124-128 | after the loop no element equals the target, and the result is the input with every equal element dropped and the rest in order |
| TagLists.WithoutRemove | src/TagList.py:118-128 | one `remove` before dropping all equal elements changes nothing: `removeAll`'s loop body keeps its result |
| TagLists.WithoutAppend | src/TagList.py:124-128 | dropping the equal elements distributes over concatenation, so the elements kept keep their relative order |
| TagLists.WithoutAbsent | src/TagList.py:124-126 | `removeAll` of an absent target changes nothing |
| TagLists.GetPair | src/TagList.py:84-89 | the result is `None` exactly when no pair carries the tag, and otherwise the first pair that does |
| TagLists.ContainsTagIffGetPair | src/TagList.py:68-89 | `containsTag(t)` holds exactly when `getPair(t)` finds a pair |
| TagLists.ContainsTagIffSome | src/TagList.py:68-73 | `containsTag(t)` holds exactly when some pair carries tag `t` |
| TagLists.ContainsTag | src/TagList.py:68-73 | `containsTag`; stated by `TagLists.ContainsTagIffSome` and `ContainsTagIffGetPair` |
| TagLists.InsertPosition | src/TagList.py:102-106 | the position `list.insert` uses: the index when it is in range; the length when it is past the end; index plus length for a negative index, clamped at 0 |
| TagLists.InsertAt | src/TagList.py:102-106 | the list grows by one, the value lands at the clamped position, and the elements before and after it keep their order |
| TagLists.Copy | src/TagList.py:76-81 | the copy equals the original under `__eq__`, and holds the same elements |
| TagLists.ListEqualSymmetric | src/TagList.py:20-29 | list equality is symmetric |
| TagLists.ListEqualTransitive | src/TagList.py:20-29 | list equality is transitive |
| TagLists.ListEqual | src/TagList.py:20-29 | `TagList.__eq__`: same length and pairwise equal; `TagLists.Copy` states a copy is equal, and `ListEqualSymmetric` and `ListEqualTransitive` that it is symmetric and transitive |
| Strings.Lower | src/MuleLines.py:142 | same length, each character lower-cased |
| Strings.LowerIsLower | src/MuleLines.py:142 | a lower-cased string holds no upper-case letter |
| Strings.StripLeft | src/MuleLines.py:142 | the result is a suffix of the input that does not start with the character, and only that character was removed |
| Strings.StripRight | src/MuleLines.py:151 | the result is a prefix of the input that does not end with the character, and only that character was removed |
| Strings.LeadingCount | src/MuleLines.py:142 | the count of leading copies of the character: they are all that character, and the next one is not |
| Strings.TrailingCount | src/MuleLines.py:151 | the count of trailing copies of the character: they are all that character, and the one before them is not |
| Strings.Strip | src/MuleLines.py:142 | the result is a slice of the input, every character outside that slice is the stripped character, and the result neither starts nor ends with it |
| Strings.StripOfUnique | src/MuleLines.py:142 | only one string is the input stripped of the character, so the contract of `Strip` fixes its result |
| Strings.Split | src/MuleLines.py:128 | at least one piece, and no piece holds the separator |
| Strings.SplitJoin | src/MuleLines.py:128 | joining the pieces with the separator gives back the string |
| Strings.Tabs | src/MuleLines.py:106-109 | `'\t' * n` has `n` tabs, and none for `n <= 0` |
| Strings.NatToString | src/MuleLines.py:86-87 | `str(n)` is a non-empty string of decimal digits with no leading zero, `"0"` for zero |
| Strings.NatToStringValue | src/MuleLines.py:86-87 | the digits of `str(n)` read back as `n` |
| Tokenizer.KeyAndValue | src/MuleLines.py:128-140 | a token without `=` fails; otherwise the key is the text before the first `=`, and the value is the text after it up to any second `=` |
| Tokenizer.AddToken | src/MuleLines.py:128-140 | adding one attribute token fails exactly when it has no `=` |
| Tokenizer.AddTokenEffect | src/MuleLines.py:130-140 | a value ending in `/>` is stored without those two characters and sets `closeAtEnd` to True; a value ending in `>` is stored without it and sets `closeAtEnd` to False; any other value is stored verbatim and leaves `closeAtEnd` alone |
| Tokenizer.AddTokens | src/MuleLines.py:126-140 | the attribute tokens add without error exactly when every one holds `=` |
| Tokenizer.AddTokensLookup | src/MuleLines.py:126-140 | after the tokens, each key holds its last write: a token's own key gets its value with a closing `/>` or `>` dropped, and `closeAtEnd` gets True or False from a value ending in `/>` or `>`; a key no token writes keeps its old lookup, so from a line's empty dictionary it is absent |
| Tokenizer.AddTokenKeys | src/MuleLines.py:130-140 | one token writes `closeAtEnd` first when its value ends in `>`, then its own key, and the key order changes accordingly |
| Tokenizer.AddTokenKeysClosing | src/MuleLines.py:130-136 | a token whose value ends in `>` adds `closeAtEnd` to the key order, then its own key |
| Tokenizer.AddTokensKeys | src/MuleLines.py:126-140 | the key order after the tokens is the old order, then each newly written key in the order of its first write |
| Tokenizer.AttributeLineTag | src/MuleLines.py:142 | the tag of a line with attributes is its first token lower-cased with `<` stripped from both ends, and it is lower case |
| Tokenizer.BareLineTag | src/MuleLines.py:151 | the tag of a bare tag line is its token lower-cased with `<` stripped, then `>` stripped, and it is lower case |
| Tokenizer.ParseLine | src/MuleLines.py:121-151 | a line not starting with `<`, or starting `<?` or `<!`, gives no record; a shorter line raises; a bare tag gives one record, tagged from its token, whose dictionary is exactly `closeAtEnd`, False exactly when the token starts `</`; a line with attributes parses exactly when each token holds `=`, and then gives one record tagged from its first token whose dictionary is the one its other tokens build |
| Tokenizer.BareLineSelfClosing | src/MuleLines.py:144-151 | a bare tag line gives a self-closing record exactly when its token does not start with `</` |
| Tokenizer.ParseLines | src/MuleLines.py:121-151 | the file parses exactly when every line does, into at most one lower-case record per line |
| Tokenizer.ParseLinesOne | src/MuleLines.py:121-151 | a file of one line gives that line's record, none, or its error |
| Tokenizer.ParseLinesSnoc | src/MuleLines.py:121-151 | the last line's record comes after the records of the lines before it |
| Tokenizer.ParseLinesAppend | src/MuleLines.py:121-151 | parsing two runs of lines is parsing each and joining the records in order, the first error winning; with `ParseLinesOne`, the records are those of the record-giving lines in file order |
| Tokenizer.JoinAssociative | src/MuleLines.py:121-151 | joining the records of three runs of lines does not depend on grouping |
| Segments.IsolateWalkNoClose | src/MuleLines.py:463-478 | with no closer left, the loop yields no more flows |
| Segments.IsolateWalkInFlow | src/MuleLines.py:463-477 | inside a flow, everything up to and including the next closer completes the current flow |
| Segments.IsolateWalkIdle | src/MuleLines.py:463-477 | outside a flow, records before the first opener are dropped, and the flow runs from that opener (or from the closer alone) to the closer |
| Segments.IsolateWalk | src/MuleLines.py:463-478 | the loop of `_isolateFlows` with `inFlow` and the current flow; stated by `Segments.IsolateWalkNoClose`, `IsolateWalkInFlow`, `IsolateWalkIdle` and `IsolateFlowsByPosition` |
| Segments.IsolateFlowsByPosition | src/MuleLines.py:458-478 | `_isolateFlows` equals the definition by position: one slice per closer, from the first opener after the previous closer |
| Segments.FlowCount | src/MuleLines.py:458-478 | there are as many flows as `/flow` and `/sub-flow` records |
| Segments.FlowByPositionIsSlice | src/MuleLines.py:458-478 | flow `k` by position is a contiguous, non-empty slice of the input ending in a closer |
| Segments.FlowsAreSlices | src/MuleLines.py:458-478 | each flow `_isolateFlows` returns is a contiguous slice of the input ending with a `/flow` or `/sub-flow` |
| Segments.IsolateFlows | src/MuleLines.py:458-478 | `_isolateFlows`; stated by `Segments.IsolateFlowsByPosition`, `FlowCount`, `FlowsAreSlices` and `OneFlow` |
| Segments.OneFlow | src/MuleLines.py:463-477 | records outside any flow before a flow are in no flow; the flow is returned whole, and the rest of the input is cut the same way |
| Segments.ExtractWalkInClause | src/MuleLines.py:367-377 | inside a branch, every record up to the next closer that is not an opener joins the branch |
| Segments.ExtractWalkIdle | src/MuleLines.py:367-377 | outside a branch, records before the first opener are skipped |
| Segments.ExtractWalk | src/MuleLines.py:367-377 | the loop of `_extractChoiceOperations` with `inChoiceClause` and the current branch; stated by `Segments.ExtractWalkInClause`, `ExtractWalkIdle` and `ExtractByPosition` |
| Segments.ExtractByPosition | src/MuleLines.py:360-379 | `_extractChoiceOperations` equals the definition by position: one branch per closer |
| Segments.BranchCount | src/MuleLines.py:360-379 | one branch per `/when` or `/otherwise` record |
| Segments.OneBranch | src/MuleLines.py:360-379 | a branch after records outside any branch holds exactly the records strictly between its opener and its closer, and the branches of the rest follow in source order |
| Segments.BranchesExcludeBoundaries | src/MuleLines.py:367-377 | no branch holds a `when`, `otherwise`, `/when` or `/otherwise` record |
| Segments.ExtractChoiceOperations | src/MuleLines.py:360-379 | `_extractChoiceOperations`; stated by `Segments.ExtractByPosition`, `BranchCount`, `OneBranch` and `BranchesExcludeBoundaries` |
| ChoiceBlocks.CollapseLeavesNoChoiceTags | src/MuleLines.py:487-497 | after collapsing, no `choice` or `/choice` record is left |
| ChoiceBlocks.CollapseWithoutChoice | src/MuleLines.py:487-499 | a list with no choice boundary is left unchanged |
| ChoiceBlocks.CollapseIdempotent | src/MuleLines.py:482-499 | collapsing twice is collapsing once |
| ChoiceBlocks.CollapseOneBlock | src/MuleLines.py:487-497 | a `choice ... /choice` run becomes its `/choice` record retagged `choicePlaceholder` with its attributes unchanged; the records before it keep their order, and the rest is collapsed the same way |
| ChoiceBlocks.CollapseChoiceBlocks | src/MuleLines.py:482-499 | the intended collapse; stated by `ChoiceBlocks.CollapseOneBlock`, `CollapseLeavesNoChoiceTags`, `CollapseWithoutChoice`, `CollapseIdempotent` and `CollapseDropsUnclosedChoice` |
| ChoiceBlocks.CollapseWalk | src/MuleLines.py:487-497 | the intended collapse loop with its `inChoice` flag; stated by `ChoiceBlocks.CollapseWalkDropsUnclosed`, `CollapseWalkUnclosed` and, through `CollapseChoiceBlocks`, `CollapseOneBlock` |
| ChoiceBlocks.CollapseWalkDropsUnclosed | src/MuleLines.py:487-497 | once inside a block, or at a `choice`, with no `/choice` ahead, the loop drops every remaining record |
| ChoiceBlocks.CollapseWalkUnclosed | src/MuleLines.py:487-497 | a `choice` at `k` with no later `/choice` cuts the loop's output to that of the records before `k` |
| ChoiceBlocks.CollapseDropsUnclosedChoice | src/MuleLines.py:482-499 | a `choice` that no `/choice` follows is dropped together with every record after it |
| ChoiceBlocks.RetagSlotAt | src/MuleLines.py:494 | `setTag` on a live record renames that record in place and nothing else |
| ChoiceBlocks.RemoveSlotAt | src/MuleLines.py:497 | `remove` deletes the current record when no earlier live record equals it |
| ChoiceBlocks.RetagSlot | src/MuleLines.py:494 | `setTag` on the live record with a given identity; stated by `ChoiceBlocks.RetagSlotAt` |
| ChoiceBlocks.RemoveSlot | src/MuleLines.py:497 | `remove` on the live list: the first structurally equal record goes; stated by `ChoiceBlocks.RemoveSlotAt` |
| ChoiceBlocks.ReplaceWalk | src/MuleLines.py:487-497 | the loop of `_replaceChoiceBlocks` over the snapshot, editing the live list; stated by `ChoiceBlocks.ReplaceStep`, `ReplaceWalkCollapses` and `ShadowingFlowReplaced` |
| ChoiceBlocks.ReplaceStep | src/MuleLines.py:487-497 | one loop step on a live list of kept records followed by the rest of the snapshot: the record is kept, retagged or deleted, as the positional collapse does |
| ChoiceBlocks.ReplaceWalkCollapses | src/MuleLines.py:487-497 | with no shadowing, the loop from any position equals the positional collapse of the rest |
| ChoiceBlocks.ReplaceIsCollapseWithoutShadowing | src/MuleLines.py:482-499 | when no removed record equals a record kept before it, the code as written equals the positional collapse |
| ChoiceBlocks.ReplaceWithoutChoice | src/MuleLines.py:482-499 | the code as written leaves a list with no choice boundary unchanged |
| ChoiceBlocks.ReplaceChoiceBlocks | src/MuleLines.py:482-499 | `_replaceChoiceBlocks` as written; stated by `ChoiceBlocks.ReplaceIsCollapseWithoutShadowing`, `ReplaceWithoutChoice` and `ShadowedRecordIsReordered` |
| ChoiceBlocks.ReplaceDropStep | src/MuleLines.py:487-497 | a loop step on a record inside a block deletes it and leaves the rest as the positional collapse has it |
| ChoiceBlocks.ReplaceKeepStep | src/MuleLines.py:487-497 | a loop step on a record outside a block keeps it, retagged when it is `/choice`, after the records kept before it |
| ChoiceBlocks.ShadowingFlowReplaced | src/MuleLines.py:487-497 | on the example flow, the code deletes the earlier equal `flow-ref` and keeps the branch's copy after the `logger` |
| ChoiceBlocks.ShadowingFlowCollapsed | src/MuleLines.py:482-499 | on the example flow, the intended collapse keeps the records before the block in place |
| ChoiceBlocks.ShadowingFlowShadows | src/MuleLines.py:497 | the example flow's branch repeats a record kept before the block |
| ChoiceBlocks.ShadowedRecordIsReordered | src/MuleLines.py:482-499 | the code as written and the intended collapse differ on the example flow |
| Expansion.PlaceholderIndex | src/MuleLines.py:446-447 | the position of the first `choicePlaceholder`, and `None` exactly when there is none |
| Expansion.InsertBranchShape | src/MuleLines.py:449-451 | inserting each branch record one past the previous position places the branch, in order, right after the placeholder |
| Expansion.InsertBranch | src/MuleLines.py:449-451 | the inner insertion loop; stated by `Expansion.InsertBranchShape` |
| Expansion.ExpandOne | src/MuleLines.py:444-452 | one test flow is the base with the branch inserted after the placeholder; with no placeholder it fails exactly when the branch has records |
| Expansion.GenerateTestFlows | src/MuleLines.py:438-454 | one output per branch, each that branch's expansion; the loop fails exactly when there is no placeholder and some branch has records |
| Expansion.TestFlowsShape | src/MuleLines.py:438-454 | with the first placeholder at `p`, `k` branches give `k` flows and flow `i` is `base[..p+1] + branch_i + base[p+1..]`, of length `|base| + |branch_i|` |
| Expansion.TestFlowsWithoutPlaceholder | src/MuleLines.py:438-454 | without a placeholder, empty branches each give back the base |
| Conversion.BeforeSuite | src/MuleLines.py:185-204 | a before-suite is three balanced records: `munit:before-suite` with the given name and the description `Start DB Server`, around a `dbserver:start-db-server` record with the given label; the FTP suite reuses both the tag and the description, as written |
| Conversion.UsesDatabase | src/MuleLines.py:177-183 | `flowContainsDatabase`; stated by `Conversion.UsesDatabaseIff` |
| Conversion.UsesDatabaseIff | src/MuleLines.py:177-183 | the database flag is set exactly when some record of the flow carries one of the seven database tags |
| Conversion.UsesFtp | src/MuleLines.py:193-195 | `flowContainsFTP`; stated by `Conversion.UsesFtpIff` |
| Conversion.UsesFtpIff | src/MuleLines.py:193-195 | the FTP flag is set exactly when some record of the flow is an `ftp:outbound-endpoint` |
| Conversion.DbAfterSuite | src/MuleLines.py:331-338 | the database after-suite is three balanced records, named after the flow with `-After_Suite_DB` |
| Conversion.FtpAfterSuite | src/MuleLines.py:343-349 | the FTP after-suite is three balanced records, named after the flow with `-After_Suite_FTP` |
| Conversion.BeforeSuites | src/MuleLines.py:178-204 | the before-suites are balanced, with three records for each of database and FTP |
| Conversion.AfterSuites | src/MuleLines.py:328-349 | the after-suites are balanced, with three records for each of database and FTP |
| Conversion.InitialPayload | src/MuleLines.py:241-243 | `munit:set` closes itself |
| Conversion.WithAttribute | src/MuleLines.py:254-260 | the `mock:with-attributes` block is three balanced records carrying the `whereValue` |
| Conversion.VerifySubFlowCall | src/MuleLines.py:251-261 | the verify block is five balanced records: `mock:verify-call` with `times="1"`, matching the sub-flow name |
| Conversion.ThenReturnProperties | src/MuleLines.py:274-282 | the `mock:then-return` block is five balanced records |
| Conversion.MockFlowCall | src/MuleLines.py:264-283 | the flow mock is ten balanced records: `mock:when` on `mule:flow`, matching the flow name |
| Conversion.MockSetPayload | src/MuleLines.py:308-322 | the payload mock is six balanced records: `mock:when` on `mule:set-payload` |
| Conversion.EmptyReturn | src/MuleLines.py:319-321 | the copied `mock:then-return` closes itself |
| Conversion.AssertPayload | src/MuleLines.py:303-305 | the assertion closes itself and expects the `value` |
| Conversion.FlowCall | src/MuleLines.py:217-219 | the placeholder's `flow-ref` closes itself and names the flow under test |
| Conversion.FtpFileCheck | src/MuleLines.py:286-289 | the FTP check copies `outputPattern` and `path`, as `None` when absent |
| Conversion.NextTag | src/MuleLines.py:237 | it fails only for want of a next record, and only past the end; when no earlier record equals the current one, it is the tag at the next position |
| Conversion.NextTagFirstEqual | src/MuleLines.py:237 | the tag read is the one after the first record equal to the current one, wherever that is, and a failure when that first record is last |
| Conversion.ShortTagEntryPoint | src/MuleLines.py:292 | a tag shorter than `inbound-endpoint` is an entry point only as `http:listener` |
| Conversion.IgnoredIffUnhandled | src/MuleLines.py:208-353 | a record is ignored exactly when its tag has no handler |
| Conversion.ShortTagIgnored | src/MuleLines.py:208-353 | `sub-flow`, `when` and the other short tags without a handler take the default branch |
| Conversion.HandlerFor | src/MuleLines.py:208-353 | the branch of the elif chain a tag takes; stated by `Conversion.IgnoredIffUnhandled`, `ShortTagIgnored` and `ShortTagEntryPoint` |
| Conversion.TestHeader | src/MuleLines.py:222-234 | `munit:test` opens a level and is named `name-test-`, or `UnitTestFlow` when the flow is unnamed |
| Conversion.OpenTestRecords | src/MuleLines.py:222-243 | the test opening is `munit:test`, then `munit:set` when asked for, one level open |
| Conversion.CloseTestRecords | src/MuleLines.py:324-349 | the test closing is `/munit:test`, then the balanced after-suites |
| Conversion.Records | src/MuleLines.py:208-353 | every emission other than a test's opening, a test's closing and `/mule` spells out balanced records |
| Conversion.FlowName | src/MuleLines.py:225-232 | a missing name gives no name, a text name gives that name, and any other value fails |
| Conversion.AfterChoiceAt | src/MuleLines.py:174-175 | the walk is past the choice block at record `k` exactly when it started there or a placeholder came before `k` |
| Conversion.Initial | src/MuleLines.py:160-175 | the walk starts with no flow name, before the choice block exactly when the flow holds a placeholder; stated by `Conversion.AfterChoiceAt` and `SetPayloadMode` |
| Conversion.Step | src/MuleLines.py:211-227 | a placeholder sets `afterChoiceBlock` and a named `flow` sets `muleFlowName`; stated by `Conversion.AfterChoiceAt` and `InRange` |
| Conversion.ConvertFrom | src/MuleLines.py:207-355 | the loop over `flowPairs`; stated by `Conversion.ConvertFromStep`, `ConvertFromIsRun` and `ConvertFromByPosition` |
| Conversion.ConvertFromStep | src/MuleLines.py:208-355 | one step of the loop: the record's emission, then the rest, and a failure of either stops it |
| Conversion.ConvertFromIsRun | src/MuleLines.py:207-355 | the loop over `flowPairs` is the generic loop over positions, with the record's handler and the state update at each |
| Conversion.InRange | src/MuleLines.py:207-355 | at a position inside the flow, the generic loop's handler and state update are the record's |
| Conversion.ConvertFromByPosition | src/MuleLines.py:207-355 | the walk succeeds exactly when every record's handler does in the state the walk reaches it in, and then it holds one emission per record: that handler's |
| Conversion.Emit | src/MuleLines.py:208-353 | the handler of one record; stated by `Conversion.FlowOpensTest`, `FlowRefBlock`, `SetPayloadEmits`, `EntryPointPayload`, `CloseFlowEndsTest`, `IgnoredEmitsNothing` and `EmitNoIndexError` |
| Conversion.ConvertFlow | src/MuleLines.py:155-355 | `_convertMuletoMUnit`; stated by `Conversion.ConvertFromByPosition`, `SingleFlowWalk`, `ConvertFlowBalanced` and `NoIndexError` |
| Walks.RunNext | src/MuleLines.py:207-355 | one turn of the loop: it succeeds exactly when the handler and the rest do, and then the handler's value comes first |
| Walks.RunSucceeds | src/MuleLines.py:207-355 | when every handler from `k` on succeeds in the state the loop reaches it in, the loop does, with one value per position |
| Walks.RunEmits | src/MuleLines.py:207-355 | in a successful loop, the value at each position is that position's handler's, and it succeeded |
| Walks.RunByPosition | src/MuleLines.py:207-355 | the loop succeeds exactly when every handler does in the state the loop reaches it in, and then holds one value per position: that handler's |
| Conversion.SetPayloadMode | src/MuleLines.py:174-175 | `set-payload` is asserted, when the flow has no placeholder or one came before it, with a missing `value` an error; otherwise it is mocked |
| Conversion.SetPayloadEmits | src/MuleLines.py:300-322 | in a given state, `set-payload` gives the mock before the choice block, and after it the assertion of its `value`, or an error when that is missing |
| Conversion.FlowRefBlock | src/MuleLines.py:246-283 | a missing or non-text `name` is an error; otherwise a `flow-ref` gives the sub-flow verification exactly when its lower-cased name contains a sub-flow marker, and the flow mock exactly when it does not |
| Conversion.FlowOpensTest | src/MuleLines.py:222-243 | a `flow` opens its test named from its `name`, with an initial payload decided by the next tag; it fails exactly when the name or the next record fails |
| Conversion.OpenTestRecordsNamed | src/MuleLines.py:222-243 | the opening is `munit:test` named `name-test-` or `UnitTestFlow`, followed by `munit:set` exactly when asked for |
| Conversion.CloseFlowEndsTest | src/MuleLines.py:324-349 | `/flow` closes the test and adds the after-suites the flow needs |
| Conversion.EntryPointPayload | src/MuleLines.py:291-297 | an entry point gets an empty initial payload exactly when the next record is not `set-payload`, and nothing when it is; it fails exactly when there is no next record |
| Conversion.IgnoredEmitsNothing | src/MuleLines.py:208-353 | a record without a handler emits no record |
| Conversion.InnerTagEmitsInner | src/MuleLines.py:208-353 | handlers other than `flow`, `/flow` and `/mule` emit balanced blocks |
| Conversion.TestBalanced | src/MuleLines.py:208-353 | an opening, inner emissions and a closing expand to balanced records |
| Conversion.SingleFlowWalk | src/MuleLines.py:208-355 | the walk over `flow`, inner records and `/flow` is, when it succeeds, one test: opening, inner emissions, closing |
| Conversion.ConvertFlowBalanced | src/MuleLines.py:155-355 | a flow that is a single flow once collapsed converts, when it succeeds, to balanced records |
| Conversion.SubFlowBoundariesInner | src/MuleLines.py:208-353 | `sub-flow` and `/sub-flow` match none of the handlers that open or close a test or end the suite |
| Conversion.SubFlowTagsInner | src/MuleLines.py:208-353 | every record of a single `sub-flow ... /sub-flow` carries such an inner tag |
| Conversion.SubFlowWalk | src/MuleLines.py:208-355 | the walk over a single sub-flow emits, when it succeeds, only inner emissions: a sub-flow opens no test |
| Conversion.ConvertSubFlowBalanced | src/MuleLines.py:155-355 | a flow that is a single sub-flow once collapsed converts, when it succeeds, to balanced records |
| Nesting.FlattenBalanced | src/MuleLines.py:104-113 | writing balanced record lists one after another leaves `tagDepth` back at zero after each and never below it |
| Conversion.EmitNoIndexError | src/MuleLines.py:237 | only `flow` and entry-point records look at the next record |
| Conversion.NoIndexError | src/MuleLines.py:237 | a flow whose last record is neither a `flow` nor an entry point never fails for want of a next record |
| Pipeline.MuleKeysDistinct | src/MuleLines.py:403-417 | the ten keys of the `mule` record differ pairwise |
| Pipeline.MunitConfig | src/MuleLines.py:421-422 | `munit:config` closes itself and is named `munit` |
| Pipeline.SpringImport | src/MuleLines.py:428-430 | `spring:import` closes itself and imports the tested file from the class path |
| Pipeline.SpringInternals | src/MuleLines.py:393-397 | the filter keeps exactly the records whose tag mentions `spring`, other than `spring:beans` and `/spring:beans` |
| Pipeline.IsSpringInternal | src/MuleLines.py:393-397 | the filter's test on a tag; stated by `Pipeline.SpringInternals` and `SpringInternalsKeepsAll` |
| Pipeline.SpringInternalsAppend | src/MuleLines.py:393-397 | the filter distributes over concatenation, so the kept records keep their file order |
| Pipeline.SpringInternalsKeepsAll | src/MuleLines.py:393-397 | the filter returns its input exactly when every record of it is a Spring record |
| Pipeline.SpringInternalsIdempotent | src/MuleLines.py:393-397 | filtering twice is filtering once |
| Pipeline.HeaderRecords | src/MuleLines.py:401-430 | the header is `mule` (ten attributes, version `EE-3.7.3`, left open), then the self-closing `munit:config`, `spring:beans`, and the import of the file |
| Pipeline.Dependencies | src/MuleLines.py:401-433 | `_generateMUnitDependencies`; stated by `Pipeline.HeaderRecords`, `SpringInternals`, `WrappedBeansRising` and `DependenciesRising` |
| Pipeline.WrappedBeansRising | src/MuleLines.py:418-433 | the header and the balanced Spring records wrapped in `spring:beans` leave one level open |
| Pipeline.DependenciesRising | src/MuleLines.py:401-433 | when the file's Spring records nest properly, the dependencies leave only `mule` open |
| Pipeline.ConvertTest | src/MuleLines.py:36 | converting one test flow succeeds exactly when the conversion does, with its records or its error |
| Pipeline.ConcatAll | src/MuleLines.py:28-43 | the loops appending each step's records in turn; stated by `Pipeline.ConcatAllSucceeds`, `ConcatAllFirstError` and `ConcatAllBalanced` |
| Pipeline.ConcatAllSucceeds | src/MuleLines.py:28-43 | the loop over flows succeeds exactly when every step does |
| Pipeline.ConcatAllFirstError | src/MuleLines.py:28-43 | a failure of the loop is that of its first failing step |
| Pipeline.ConcatAllBalanced | src/MuleLines.py:28-43 | balanced steps concatenate to balanced records |
| Pipeline.FlowTestsWithoutChoice | src/MuleLines.py:40-43 | a flow without choice blocks is converted once, as it is |
| Pipeline.FlowTestsPerBranch | src/MuleLines.py:30-38 | a flow whose collapsed form first holds the placeholder at `p` gives, in order, one converted test per branch, the branch inserted after `p` |
| Pipeline.FlowTestsOnlyConversionFails | src/MuleLines.py:30-43 | the `None + 1` of test-flow generation cannot stop the generator: only a conversion fails |
| Pipeline.FlowTestsBalancedWithoutChoice | src/MuleLines.py:40-43 | a single flow or sub-flow without choice blocks converts to balanced records |
| Pipeline.FlowTestsBalancedWithChoice | src/MuleLines.py:33-38 | a flow whose test flows are each a single flow or sub-flow converts to balanced records |
| Pipeline.FlowTests | src/MuleLines.py:29-43 | the loop body for one flow; stated by `Pipeline.FlowTestsWithoutChoice`, `FlowTestsPerBranch` and `FlowTestsOnlyConversionFails` |
| Pipeline.CreateTestsSucceeds | src/MuleLines.py:25-45 | the generator succeeds exactly when every flow's tests do |
| Pipeline.CreateTestsFirstError | src/MuleLines.py:25-45 | the generator fails only with a conversion error: that of the first flow whose tests fail |
| Pipeline.CreateTestsFrame | src/MuleLines.py:25-45 | on success the list is the dependencies, the tests of the flows in order, and `/mule` |
| Pipeline.CreateTestsBalanced | src/MuleLines.py:25-45 | with nested Spring records and balanced tests, every open record of the output is closed, `/mule` last |
| Pipeline.FrameBalanced | src/MuleLines.py:26-45 | the dependencies, balanced tests and `/mule` nest properly |
| Pipeline.CreateTests | src/MuleLines.py:25-45 | `createMUnitTests`; stated by `Pipeline.CreateTestsSucceeds`, `CreateTestsFirstError`, `CreateTestsFrame` and `CreateTestsBalanced` |
| Serializer.AttributesTextAppend | src/MuleLines.py:84-90 | the attributes are written in insertion order: the text of a concatenation is the texts in turn |
| Serializer.AttributesText | src/MuleLines.py:84-90 | the attribute loop of one line; stated by `Serializer.AttributesTextAppend`, `CloseAtEndNotWritten` and `AttributesIgnoreNumber` |
| Serializer.CloseAtEndNotWritten | src/MuleLines.py:89-90 | `closeAtEnd` is never written: the line is the same with it removed |
| Serializer.AttributesIgnoreNumber | src/MuleLines.py:85-90 | only a `munit:test` record's attributes depend on the test number |
| Serializer.LineIgnoresNumber | src/MuleLines.py:82-102 | only a `munit:test` line depends on the test number |
| Serializer.Line | src/MuleLines.py:82-102 | one record as a line; stated by `Serializer.CloseAtEndNotWritten`, `AttributesTextAppend` and `LineIgnoresNumber` |
| Serializer.Document | src/MuleLines.py:66-113 | the lines by position, the reference for the loop; stated by `Serializer.Render` |
| Serializer.CursorDepth | src/MuleLines.py:104-113 | the loop's `tagDepth` on reaching record `k` is the nesting depth of the records before it |
| Serializer.CursorNumbering | src/MuleLines.py:71-79 | the loop's `currentFlow` and `testNumber` count the tests of a name just before record `k` |
| Serializer.Renumber | src/MuleLines.py:71-79 | the update of `currentFlow` and `testNumber` on one record; stated by `Serializer.CursorNumbering`, `NumberAtTest` and `CursorStep` |
| Serializer.Move | src/MuleLines.py:104-113 | the update of `tagDepth` on one record; stated by `Serializer.CursorDepth` and `CursorStep` |
| Nesting.Delta | src/MuleLines.py:104-113 | the change of `tagDepth` a record makes: down for a `/` record, none when self-closing, otherwise up; stated by `Serializer.CursorDepth`, `Conversion.PlainOpens`, `PlainCloses`, `SelfClosingRecord` and `OpeningRecord` |
| Serializer.NumberAtTest | src/MuleLines.py:71-87 | the number the loop writes after a test's name is its number by position |
| Serializer.StepIndentation | src/MuleLines.py:104-113 | the tabs the loop writes are the indentation by position: the depth before an opener or self-closing record, one less for a closer |
| Serializer.CloseIndentation | src/MuleLines.py:104-110 | for a closer, the `tagDepth - 1` tabs the loop writes are the nesting depth of the records up to and including it, that of its opener |
| Serializer.CursorStep | src/MuleLines.py:71-113 | the loop's state after record `k` is the state on reaching `k` renumbered and moved by that record |
| Serializer.LoopLine | src/MuleLines.py:66-113 | one turn of the loop: the line it writes is record `k`'s line by position, tabs first, or the error that stops it |
| Serializer.Render | src/MuleLines.py:66-113 | the writing loop produces the lines by position, in order, and stops at the first failure |
| Serializer.PrecedingSkips | src/MuleLines.py:71-79 | records other than tests leave the numbering alone |
| Serializer.NumberingFollowsPrevious | src/MuleLines.py:71-79 | a test whose previous test has another name is number 1; one with the same name is the previous number plus one |
| Serializer.FirstTestNumber | src/MuleLines.py:66-79 | the first test is number 1, or 2 when its name is the empty string that `currentFlow` starts as |
| Serializer.BalancedIndentation | src/MuleLines.py:104-110 | a balanced list is never indented below the margin |
| Serializer.BalancedEndsAtMargin | src/MuleLines.py:104-113 | after a balanced list the loop is back at depth zero |
| Serializer.SuiteFile | src/MuleLines.py:48-65 | nothing is written for an empty list; otherwise the XML declaration, then the lines, or the error that stopped them |
| Serializer.GeneratedSuiteIsWritten | src/MuleLines.py:45-49 | after the generator succeeds there is always something to write |

## Left out

- File reading in `_extractMuleFileLines` (src/MuleLines.py:383-390): I/O. The tokenizer takes the trimmed lines as input, and `_extractMuleFileLines` is not part of this model.
- `shlex.split` (src/MuleLines.py:123): a foreign library. Each line carries the tokens a successful split produced. A line on which it raises `ValueError`, such as an unclosed quote in `<logger message=it's/>`, stops the parse in the source; such lines are outside this model.
- `os.path.basename` (src/MuleLines.py:119): the file name is a parameter of the generator.
- The file open, the writes, the prints and the error handling of `createMUnitSuiteFile` (src/MuleLines.py:50-62, 114): I/O. The model returns the text the file would hold. It does not model that a loop that raises midway leaves a partly written file.
- `str.lower`: modelled for ASCII letters only. Non-ASCII case mappings are not modelled.
- `TagPair.__str__`, `TagList.__str__`, `__del__`, `clear`, `isEmpty`, `pairs`, `tags`, `setAttributes` and `getAttributes`: display helpers, or accessors that the sequence and record types give directly.
- Object aliasing: the shallow `copy`, and the in-place `setTag` of `_replaceChoiceBlocks` on records shared with the Mule tag list. Values are immutable in the model, so a copy is independent of its original and appending to it cannot change the original.
- The `isinstance` checks that raise `TypeError`: Dafny's types make them vacuous.
- `_convertMuletoMUnit` calls `_replaceChoiceBlocks` again (src/MuleLines.py:158). Conversion.ConvertFlow models that call with the intended collapse. On a test flow without choice records it changes nothing (ChoiceBlocks.CollapseWithoutChoice). Nested choice blocks are the exception: a branch can then hold a `choice` with no `/choice`. The second collapse drops that record and everything after it, `/flow` included (ChoiceBlocks.CollapseDropsUnclosedChoice), so that test gets no closing `/munit:test`. No balance property is stated for such test flows.
- `muleFlowTagList.remove(pair)` at src/MuleLines.py:214 edits the list, not the snapshot the loop walks, so it has no effect on the output and is not modelled.
- `createMUnitTests` as written calls `_replaceChoiceBlocks` directly. The model uses the intended positional collapse instead; the as-written behaviour is under Findings.
- Nested choice blocks: the collapse follows the code's flag, which an inner `/choice` clears. Beyond ChoiceBlocks.CollapseDropsUnclosedChoice, the model states no property about nested blocks.
- Pipeline.CreateTestsBalanced: it assumes as a hypothesis that the Spring records of the file nest properly and that each flow's tests are balanced, because the generator copies Spring records and flow bodies from the input unchecked.
- Conversion.ConvertFlowBalanced: it is stated for flows that are a single `flow ... /flow` once collapsed, and Conversion.ConvertSubFlowBalanced for a single `sub-flow ... /sub-flow`. A flow holding `/mule` or a nested `flow` gives unbalanced output as written, and no property is stated for it.
- A `/` record at depth zero: the writer indents it with `'\t' * (tagDepth - 1)`, which writes no tabs, and the model does the same. It is proved only that balanced lists never go below the margin.

## Findings

| source | as written | input that shows it | evidently intended | confidence | as-written member | corrected member |
|---|---|---|---|---|---|---|
| src/MuleLines.py:487-497 | `_replaceChoiceBlocks` walks a snapshot and deletes each record inside a choice block with `list.remove`, which deletes the first structurally equal record of the live list, possibly one kept before the block | `flow-ref name="step"`, `logger`, `choice`, `flow-ref name="step"`, `/choice` becomes `logger`, `flow-ref`, `choicePlaceholder`: the earlier `flow-ref` is deleted, and the branch's copy takes its place after the logger | the block's own records are deleted, and the records before the block stay in place: `flow-ref`, `logger`, `choicePlaceholder` | not executed | ChoiceBlocks.ShadowedRecordIsReordered | ChoiceBlocks.ReplaceIsCollapseWithoutShadowing |

=== FILE: attributes.dfy ===
/** The ordered attribute dictionary of a tag: Python's `OrderedDict` from
    attribute name to value, as an association list whose keys are unique. */
module Attributes {
  import opened Wrappers

  /** A value held in an attribute dictionary. The markup supplies text, the
      generator stores the closing-style flag `closeAtEnd` as a boolean, and the
      FTP handler can store Python's `None` when an attribute it copies is absent. */
  datatype Value = Text(text: string) | Flag(flag: bool) | Null

  type Entry = (string, Value)

  predicate UniqueKeys(a: seq<Entry>)
  {
    forall i, j :: 0 <= i < j < |a| ==> a[i].0 != a[j].0
  }

  /** Short attribute lists written out with distinct keys. */
  lemma DistinctKeys2(a: seq<Entry>)
    requires |a| == 2 && a[0].0 != a[1].0
    ensures UniqueKeys(a)
  {
  }

  lemma DistinctKeys3(a: seq<Entry>)
    requires |a| == 3 && a[0].0 != a[1].0 && a[0].0 != a[2].0 && a[1].0 != a[2].0
    ensures UniqueKeys(a)
  {
  }

  lemma DistinctKeys4(a: seq<Entry>)
    requires |a| == 4 && a[0].0 != a[1].0 && a[0].0 != a[2].0 && a[0].0 != a[3].0
    requires a[1].0 != a[2].0 && a[1].0 != a[3].0 && a[2].0 != a[3].0
    ensures UniqueKeys(a)
  {
  }

  /** An `OrderedDict`: entries in insertion order, no key twice. */
  type Attrs = a: seq<Entry> | UniqueKeys(a) witness []

  function KeySet(a: seq<Entry>): set<string>
  {
    set i | 0 <= i < |a| :: a[i].0
  }

  /** Position of key `k`, if present. */
  function Find(a: seq<Entry>, k: string): (r: Option<nat>)
    ensures r.Some? ==> r.value < |a| && a[r.value].0 == k
    ensures r.Some? ==> forall j :: 0 <= j < r.value ==> a[j].0 != k
    ensures r.None? <==> k !in KeySet(a)
  {
    if a == [] then None
    else if a[0].0 == k then Some(0)
    else
      var rest := Find(a[1..], k);
      assert KeySet(a) == {a[0].0} + KeySet(a[1..]) by {
        forall x | x in KeySet(a) ensures x in {a[0].0} + KeySet(a[1..]) {
          var i :| 0 <= i < |a| && a[i].0 == x;
          if i > 0 { assert a[1..][i - 1].0 == x; }
        }
      }
      if rest.None? then None else Some(rest.value + 1)
  }

  /** `d.get(k)`: the value stored under `k`, or `None`. */
  function Get(a: Attrs, k: string): (r: Option<Value>)
    ensures r.Some? <==> k in KeySet(a)
    ensures forall i :: 0 <= i < |a| && a[i].0 == k ==> r == Some(a[i].1)
  {
    match Find(a, k)
    case None => None
    case Some(i) => Some(a[i].1)
  }

  /** A fresh key appended at the end leaves every other key's lookup alone. */
  lemma AppendFresh(a: Attrs, k: string, v: Value)
    requires k !in KeySet(a)
    ensures UniqueKeys(a + [(k, v)])
    ensures forall k' :: k' != k ==> Get(a + [(k, v)], k') == Get(a, k')
  {
    var r := a + [(k, v)];
    forall i | 0 <= i < |a| ensures a[i].0 != k {
      assert a[i].0 in KeySet(a);
    }
    forall k' | k' != k ensures Get(r, k') == Get(a, k') {
      if k' in KeySet(a) {
        var j :| 0 <= j < |a| && a[j].0 == k';
        assert r[j] == a[j];
      } else {
        forall j | 0 <= j < |r| ensures r[j].0 != k' {
          if j < |a| {
            assert r[j] == a[j];
          }
        }
      }
    }
  }

  /** A new value under the key at position `i` leaves every other key's lookup alone. */
  lemma UpdateAt(a: Attrs, i: nat, v: Value)
    requires i < |a|
    ensures UniqueKeys(a[i := (a[i].0, v)])
    ensures forall k' :: k' != a[i].0 ==> Get(a[i := (a[i].0, v)], k') == Get(a, k')
  {
    var r := a[i := (a[i].0, v)];
    assert forall j :: 0 <= j < |r| ==> r[j].0 == a[j].0;
    forall k' | k' != a[i].0 ensures Get(r, k') == Get(a, k') {
      if k' in KeySet(a) {
        var j :| 0 <= j < |a| && a[j].0 == k';
        assert r[j] == a[j];
      } else {
        forall j | 0 <= j < |r| ensures r[j].0 != k' {
          assert r[j].0 == a[j].0;
        }
      }
    }
  }

  /** `d[k] = v`: an existing key keeps its position and takes the new value;
      a new key is added at the end. */
  function Put(a: Attrs, k: string, v: Value): (r: Attrs)
    ensures Get(r, k) == Some(v)
    ensures forall k' :: k' != k ==> Get(r, k') == Get(a, k')
    ensures k in KeySet(a) ==> |r| == |a| && forall i :: 0 <= i < |a| ==> r[i].0 == a[i].0
    ensures k !in KeySet(a) ==> r == a + [(k, v)]
  {
    match Find(a, k)
    case None =>
      AppendFresh(a, k, v);
      var r: Attrs := a + [(k, v)];
      assert r[|a|] == (k, v);
      r
    case Some(i) =>
      UpdateAt(a, i, v);
      var r: Attrs := a[i := (k, v)];
      assert r[i] == (k, v);
      r
  }

  /** The entry at position `i` taken out; the others keep their order. */
  lemma DropAt(a: Attrs, i: nat)
    requires i < |a|
    ensures var r := a[..i] + a[i + 1..];
      && |r| == |a| - 1 && UniqueKeys(r)
      && (forall j :: 0 <= j < |r| ==> r[j].0 != a[i].0)
      && (forall e :: e in r <==> e in a && e.0 != a[i].0)
  {
    var r := a[..i] + a[i + 1..];
    assert forall j :: 0 <= j < |r| ==> r[j] == (if j < i then a[j] else a[j + 1]);
    forall e | e in a && e.0 != a[i].0 ensures e in r {
      var j :| 0 <= j < |a| && a[j] == e;
      if j < i { assert r[j] == e; } else { assert r[j - 1] == e; }
    }
  }

  /** Dropping the entry of a key leaves every other key's lookup alone. */
  lemma DropAtGet(a: Attrs, i: nat, k: string)
    requires i < |a| && k != a[i].0
    ensures Get(a[..i] + a[i + 1..], k) == Get(a, k)
  {
    DropAt(a, i);
    var r: Attrs := a[..i] + a[i + 1..];
    if k in KeySet(a) {
      var j :| 0 <= j < |a| && a[j].0 == k;
      if j < i {
        assert r[j] == a[j];
      } else {
        assert r[j - 1] == a[j];
      }
    } else {
      forall j | 0 <= j < |r| ensures r[j].0 != k {
        if j < i {
          assert r[j] == a[j];
        } else {
          assert r[j] == a[j + 1];
        }
      }
    }
  }

  /** The keys of a dictionary in insertion order. */
  function Keys(a: seq<Entry>): seq<string>
  {
    seq(|a|, i requires 0 <= i < |a| => a[i].0)
  }

  /** A key written into a key order: appended when new, otherwise left where it is. */
  function AddKey(ks: seq<string>, k: string): seq<string>
  {
    if k in ks then ks else ks + [k]
  }

  /** Keys written one after another into a key order. */
  function AddKeys(ks: seq<string>, ws: seq<string>): seq<string>
    decreases |ws|
  {
    if ws == [] then ks else AddKey(AddKeys(ks, ws[..|ws| - 1]), ws[|ws| - 1])
  }
  lemma AddKeysOne(ks: seq<string>, k: string)
    ensures AddKeys(ks, [k]) == AddKey(ks, k)
  {
    assert [k][..0] == [];
  }

  lemma AddKeysTwo(ks: seq<string>, k1: string, k2: string)
    ensures AddKeys(ks, [k1, k2]) == AddKey(AddKey(ks, k1), k2)
  {
    assert [k1, k2][..1] == [k1];
    AddKeysOne(ks, k1);
  }


  /** `d[k] = v` moves no key: a new one goes to the end. */
  lemma PutKeys(a: Attrs, k: string, v: Value)
    ensures Keys(Put(a, k, v)) == AddKey(Keys(a), k)
  {
    assert k in Keys(a) <==> k in KeySet(a) by {
      if k in Keys(a) {
        var i :| 0 <= i < |a| && Keys(a)[i] == k;
        assert a[i].0 == k;
      }
      if k in KeySet(a) {
        var i :| 0 <= i < |a| && a[i].0 == k;
        assert Keys(a)[i] == k;
      }
    }
  }

  /** Writing two runs of keys is writing their concatenation. */
  lemma {:induction false} AddKeysAppend(ks: seq<string>, ws1: seq<string>, ws2: seq<string>)
    ensures AddKeys(ks, ws1 + ws2) == AddKeys(AddKeys(ks, ws1), ws2)
    decreases |ws2|
  {
    if ws2 == [] {
      assert ws1 + ws2 == ws1;
    } else {
      var w := ws1 + ws2;
      assert w[..|w| - 1] == ws1 + ws2[..|ws2| - 1];
      assert w[|w| - 1] == ws2[|ws2| - 1];
      AddKeysAppend(ks, ws1, ws2[..|ws2| - 1]);
    }
  }

  /** `d.pop(k, None)`: the entry for `k` goes, if there is one; the others stay in order. */
  function Delete(a: Attrs, k: string): (r: Attrs)
    ensures Get(r, k) == None
    ensures forall k' :: k' != k ==> Get(r, k') == Get(a, k')
    ensures k !in KeySet(a) ==> r == a
    ensures k in KeySet(a) ==> |r| == |a| - 1
    ensures forall e :: e in r <==> e in a && e.0 != k
    ensures k in KeySet(a) ==> exists i :: 0 <= i < |a| && a[i].0 == k && r == a[..i] + a[i + 1..]
  {
    match Find(a, k)
    case None => a
    case Some(i) =>
      DropAt(a, i);
      var r: Attrs := a[..i] + a[i + 1..];
      forall k' | k' != k ensures Get(r, k') == Get(a, k') {
        DropAtGet(a, i, k');
      }
      r
  }

  /** The dictionary as a mathematical map, forgetting insertion order. */
  ghost function ToMap(a: Attrs): map<string, Value>
  {
    map k | k in KeySet(a) :: Get(a, k).value
  }

  /** The comparison loop of `TagPair.__eq__`: same length, and every key of `a`
      is in `b` with the same value. */
  predicate SameAs(a: Attrs, b: Attrs)
  {
    |a| == |b| && forall i :: 0 <= i < |a| ==> Get(b, a[i].0) == Some(a[i].1)
  }

  lemma {:induction false} KeySetSize(a: Attrs)
    ensures |KeySet(a)| == |a|
  {
    if a != [] {
      var tail: Attrs := a[1..];
      KeySetSize(tail);
      assert KeySet(a) == {a[0].0} + KeySet(tail) by {
        forall x | x in KeySet(a) ensures x in {a[0].0} + KeySet(tail) {
          var i :| 0 <= i < |a| && a[i].0 == x;
          if i > 0 { assert tail[i - 1].0 == x; }
        }
        forall x | x in KeySet(tail) ensures x in KeySet(a) {
          var i :| 0 <= i < |tail| && tail[i].0 == x;
          assert a[i + 1].0 == x;
        }
      }
      forall i | 0 <= i < |tail| ensures tail[i].0 != a[0].0 {
        assert tail[i] == a[i + 1];
      }
    }
  }

  lemma SubsetOfSameSize<T>(x: set<T>, y: set<T>)
    requires x <= y && |x| == |y|
    ensures x == y
  {
    assert y == x + (y - x);
    assert x * (y - x) == {};
    assert |y| == |x| + |y - x|;
    assert y - x == {};
  }

  /** The Python comparison loop decides exactly equality of the two dictionaries
      as maps: insertion order does not matter. */
  lemma SameAsIffSameMap(a: Attrs, b: Attrs)
    ensures SameAs(a, b) <==> ToMap(a) == ToMap(b)
  {
    if SameAs(a, b) {
      SameAsGivesSameMap(a, b);
    }
    if ToMap(a) == ToMap(b) {
      SameMapGivesSameAs(a, b);
    }
  }

  lemma SameAsGivesSameMap(a: Attrs, b: Attrs)
    requires SameAs(a, b)
    ensures ToMap(a) == ToMap(b)
  {
    KeySetSize(a);
    KeySetSize(b);
    assert KeySet(a) <= KeySet(b) by {
      forall k | k in KeySet(a) ensures k in KeySet(b) {
        var i :| 0 <= i < |a| && a[i].0 == k;
        assert Get(b, a[i].0).Some?;
      }
    }
    SubsetOfSameSize(KeySet(a), KeySet(b));
    forall k | k in KeySet(a) ensures Get(a, k) == Get(b, k) {
      var i :| 0 <= i < |a| && a[i].0 == k;
    }
  }

  lemma SameMapGivesSameAs(a: Attrs, b: Attrs)
    requires ToMap(a) == ToMap(b)
    ensures SameAs(a, b)
  {
    KeySetSize(a);
    KeySetSize(b);
    assert KeySet(a) == ToMap(a).Keys;
    assert KeySet(b) == ToMap(b).Keys;
    forall i | 0 <= i < |a| ensures Get(b, a[i].0) == Some(a[i].1) {
      assert a[i].0 in KeySet(a);
      assert ToMap(a)[a[i].0] == a[i].1;
    }
  }
}

=== FILE: choice_blocks.dfy ===
/** `_replaceChoiceBlocks`: every `choice ... /choice` run of a flow collapses into
    one `choicePlaceholder` record, the former `/choice` record renamed.

    The source iterates over a snapshot of the list and, for each record inside a
    block, calls `TagList.remove`, which deletes the FIRST record structurally equal
    to it, not the record itself. `ReplaceChoiceBlocks` models that exactly, with
    each record's identity carried in a slot; `CollapseChoiceBlocks` is the
    positional behaviour the code evidently intends, and the one the rest of the
    model uses. */
module ChoiceBlocks {
  import opened Attributes
  import opened TagPairs
  import opened Sequences
  import opened TagLists

  const Placeholder: string := "choicePlaceholder"

  /** `inChoiceBlock` after looking at `p`: set by `choice`, cleared by `/choice`. */
  function NextInBlock(inBlock: bool, p: TagPair): bool
  {
    if p.tag == "choice" then true else if p.tag == "/choice" then false else inBlock
  }

  /** The record a kept position contributes: `/choice` is renamed, others are as they were. */
  function Kept(p: TagPair): TagPair
  {
    if p.tag == "/choice" then SetTag(p, Placeholder) else p
  }

  /** No record of the list is a choice boundary. */
  predicate NoChoiceTags(xs: TagList)
  {
    forall i :: 0 <= i < |xs| ==> xs[i].tag != "choice" && xs[i].tag != "/choice"
  }

  // ---------------------------------------------------------------------------
  // The intended, positional behaviour.

  function CollapseWalk(xs: TagList, inBlock: bool): TagList
  {
    if xs == [] then []
    else
      var b := NextInBlock(inBlock, xs[0]);
      if b then CollapseWalk(xs[1..], b) else [Kept(xs[0])] + CollapseWalk(xs[1..], b)
  }

  /** Records inside a `choice ... /choice` run are dropped; the closing `/choice`
      stays in place as `choicePlaceholder`. */
  function CollapseChoiceBlocks(xs: TagList): TagList
  {
    CollapseWalk(xs, false)
  }

  lemma {:induction false} CollapseWalkNoChoiceTags(xs: TagList, inBlock: bool)
    ensures NoChoiceTags(CollapseWalk(xs, inBlock))
  {
    if xs != [] {
      var b := NextInBlock(inBlock, xs[0]);
      CollapseWalkNoChoiceTags(xs[1..], b);
      if !b {
        var r := CollapseWalk(xs[1..], b);
        assert forall i :: 1 <= i < |[Kept(xs[0])] + r| ==> ([Kept(xs[0])] + r)[i] == r[i - 1];
      }
    }
  }

  /** After collapsing, no choice boundary is left. */
  lemma CollapseLeavesNoChoiceTags(xs: TagList)
    ensures NoChoiceTags(CollapseChoiceBlocks(xs))
  {
    CollapseWalkNoChoiceTags(xs, false);
  }

  /** A `choice` that no `/choice` follows drops every record from it on: the
      walk stays inside the block to the end. */
  lemma {:induction false} CollapseWalkDropsUnclosed(xs: TagList, inBlock: bool)
    requires inBlock || (xs != [] && xs[0].tag == "choice")
    requires forall i :: 0 <= i < |xs| ==> xs[i].tag != "/choice"
    ensures CollapseWalk(xs, inBlock) == []
  {
    if xs != [] {
      assert forall i :: 0 <= i < |xs[1..]| ==> xs[1..][i] == xs[i + 1];
      CollapseWalkDropsUnclosed(xs[1..], true);
    }
  }

  lemma {:induction false} CollapseWalkUnclosed(xs: TagList, inBlock: bool, k: nat)
    requires k < |xs| && xs[k].tag == "choice"
    requires forall i :: k < i < |xs| ==> xs[i].tag != "/choice"
    ensures CollapseWalk(xs, inBlock) == CollapseWalk(xs[..k], inBlock)
    decreases k
  {
    if k == 0 {
      CollapseWalkDropsUnclosed(xs, inBlock);
      assert xs[..0] == [];
    } else {
      var b := NextInBlock(inBlock, xs[0]);
      assert xs[..k][1..] == xs[1..][..k - 1];
      assert forall i :: k - 1 < i < |xs[1..]| ==> xs[1..][i] == xs[i + 1];
      CollapseWalkUnclosed(xs[1..], b, k - 1);
    }
  }

  /** A `choice` at `k` that no `/choice` follows: the collapse drops it and every
      record after it, whatever the records after it are. */
  lemma CollapseDropsUnclosedChoice(xs: TagList, k: nat)
    requires k < |xs| && xs[k].tag == "choice"
    requires forall i :: k < i < |xs| ==> xs[i].tag != "/choice"
    ensures CollapseChoiceBlocks(xs) == CollapseChoiceBlocks(xs[..k])
  {
    CollapseWalkUnclosed(xs, false, k);
  }

  /** A list with no choice boundary is left unchanged. */
  lemma {:induction false} CollapseWithoutChoice(xs: TagList)
    requires NoChoiceTags(xs)
    ensures CollapseChoiceBlocks(xs) == xs
  {
    if xs != [] {
      assert forall i :: 0 <= i < |xs[1..]| ==> xs[1..][i] == xs[i + 1];
      CollapseWithoutChoice(xs[1..]);
    }
  }

  /** Collapsing twice is collapsing once. */
  lemma CollapseIdempotent(xs: TagList)
    ensures CollapseChoiceBlocks(CollapseChoiceBlocks(xs)) == CollapseChoiceBlocks(xs)
  {
    CollapseLeavesNoChoiceTags(xs);
    CollapseWithoutChoice(CollapseChoiceBlocks(xs));
  }

  lemma {:induction false} CollapseWalkInside(body: TagList, rest: TagList)
    requires forall i :: 0 <= i < |body| ==> body[i].tag != "/choice"
    ensures CollapseWalk(body + rest, true) == CollapseWalk(rest, true)
  {
    if body != [] {
      assert (body + rest)[1..] == body[1..] + rest;
      assert forall i :: 0 <= i < |body[1..]| ==> body[1..][i] == body[i + 1];
      CollapseWalkInside(body[1..], rest);
    } else {
      assert body + rest == rest;
    }
  }

  lemma {:induction false} CollapseWalkOutside(pre: TagList, rest: TagList)
    requires NoChoiceTags(pre)
    ensures CollapseWalk(pre + rest, false) == pre + CollapseWalk(rest, false)
  {
    if pre != [] {
      assert (pre + rest)[1..] == pre[1..] + rest;
      assert forall i :: 0 <= i < |pre[1..]| ==> pre[1..][i] == pre[i + 1];
      CollapseWalkOutside(pre[1..], rest);
    } else {
      assert pre + rest == rest;
    }
  }

  /** A `choice ... /choice` run becomes the `/choice` record renamed to
      `choicePlaceholder`, attributes unchanged; the records around it keep their order. */
  lemma CollapseOneBlock(pre: TagList, open: TagPair, body: TagList, close: TagPair, post: TagList)
    requires NoChoiceTags(pre)
    requires open.tag == "choice" && close.tag == "/choice"
    requires forall i :: 0 <= i < |body| ==> body[i].tag != "/choice"
    ensures CollapseChoiceBlocks(pre + [open] + body + [close] + post) ==
      pre + [TagPair(Placeholder, close.attrs)] + CollapseChoiceBlocks(post)
  {
    var rest := [open] + body + [close] + post;
    assert pre + [open] + body + [close] + post == pre + rest;
    CollapseWalkOutside(pre, rest);
    assert rest[1..] == body + ([close] + post);
    CollapseWalkInside(body, [close] + post);
    assert ([close] + post)[1..] == post;
  }

  // ---------------------------------------------------------------------------
  // The code as written: records carry their identity.

  /** A record of the live list together with its position in the snapshot, which
      stands for the Python object's identity. */
  datatype Slot = Slot(id: nat, pair: TagPair)

  function Pairs(live: seq<Slot>): (r: TagList)
    ensures |r| == |live|
    ensures forall i :: 0 <= i < |live| ==> r[i] == live[i].pair
  {
    if live == [] then [] else [live[0].pair] + Pairs(live[1..])
  }

  lemma PairsAppend(a: seq<Slot>, b: seq<Slot>)
    ensures Pairs(a + b) == Pairs(a) + Pairs(b)
  {
    assert Pairs(a + b) == Pairs(a) + Pairs(b);
  }

  /** The records of `xs` from position `k` on, each tagged with its position. */
  function Numbered(xs: TagList, k: nat): (r: seq<Slot>)
    requires k <= |xs|
    ensures |r| == |xs| - k
    ensures forall i :: 0 <= i < |r| ==> r[i] == Slot(k + i, xs[k + i])
    decreases |xs| - k
  {
    if k == |xs| then [] else [Slot(k, xs[k])] + Numbered(xs, k + 1)
  }

  /** `pair.setTag('choicePlaceholder')` on the object with identity `id`. */
  function RetagSlot(live: seq<Slot>, id: nat): seq<Slot>
  {
    if live == [] then []
    else if live[0].id == id then [Slot(id, SetTag(live[0].pair, Placeholder))] + live[1..]
    else [live[0]] + RetagSlot(live[1..], id)
  }

  /** `muleTagList.remove(pair)`: delete the first slot whose record is
      structurally equal to `t`. */
  function RemoveSlot(live: seq<Slot>, t: TagPair): seq<Slot>
  {
    if live == [] then []
    else if Equal(live[0].pair, t) then live[1..]
    else [live[0]] + RemoveSlot(live[1..], t)
  }

  /** The loop of `_replaceChoiceBlocks` at snapshot position `k`. */
  function ReplaceWalk(xs: TagList, k: nat, inBlock: bool, live: seq<Slot>): seq<Slot>
    requires k <= |xs|
    decreases |xs| - k
  {
    if k == |xs| then live
    else
      var p := xs[k];
      var b := NextInBlock(inBlock, p);
      var renamed := if p.tag == "/choice" then RetagSlot(live, k) else live;
      var live' := if b then RemoveSlot(renamed, p) else renamed;
      ReplaceWalk(xs, k + 1, b, live')
  }

  /** `_replaceChoiceBlocks` as written. */
  function ReplaceChoiceBlocks(xs: TagList): TagList
  {
    Pairs(ReplaceWalk(xs, 0, false, Numbered(xs, 0)))
  }

  /** The condition under which the code as written behaves as intended: no record
      that is removed is structurally equal to a record kept before it. */
  predicate NoShadowWalk(xs: TagList, inBlock: bool, kept: TagList)
  {
    if xs == [] then true
    else
      var b := NextInBlock(inBlock, xs[0]);
      if b then (forall i :: 0 <= i < |kept| ==> !Equal(kept[i], xs[0])) && NoShadowWalk(xs[1..], b, kept)
      else NoShadowWalk(xs[1..], b, kept + [Kept(xs[0])])
  }

  predicate NoShadow(xs: TagList)
  {
    NoShadowWalk(xs, false, [])
  }

  lemma {:induction false} RetagSlotAt(kept: seq<Slot>, s: Slot, rest: seq<Slot>)
    requires forall i :: 0 <= i < |kept| ==> kept[i].id != s.id
    ensures RetagSlot(kept + [s] + rest, s.id) == kept + [Slot(s.id, SetTag(s.pair, Placeholder))] + rest
  {
    if kept != [] {
      assert (kept + [s] + rest)[1..] == kept[1..] + [s] + rest;
      RetagSlotAt(kept[1..], s, rest);
    }
  }

  lemma {:induction false} RemoveSlotAt(kept: seq<Slot>, s: Slot, rest: seq<Slot>)
    requires forall i :: 0 <= i < |kept| ==> !Equal(kept[i].pair, s.pair)
    ensures RemoveSlot(kept + [s] + rest, s.pair) == kept + rest
  {
    if kept != [] {
      assert (kept + [s] + rest)[1..] == kept[1..] + [s] + rest;
      RemoveSlotAt(kept[1..], s, rest);
    } else {
      EqualReflexive(s.pair);
    }
  }

  /** One step of the walk over a live list made of the slots kept so far
      followed by the untouched rest of the snapshot. */
  lemma ReplaceStep(xs: TagList, k: nat, inBlock: bool, kept: seq<Slot>)
    requires k < |xs|
    requires forall i :: 0 <= i < |kept| ==> kept[i].id < k
    requires NextInBlock(inBlock, xs[k]) ==> forall i :: 0 <= i < |kept| ==> !Equal(kept[i].pair, xs[k])
    ensures var b := NextInBlock(inBlock, xs[k]);
      ReplaceWalk(xs, k, inBlock, kept + Numbered(xs, k)) ==
      ReplaceWalk(xs, k + 1, b, (if b then kept else kept + [Slot(k, Kept(xs[k]))]) + Numbered(xs, k + 1))
  {
    var p := xs[k];
    var s := Slot(k, p);
    var rest := Numbered(xs, k + 1);
    assert Numbered(xs, k) == [s] + rest;
    assert kept + Numbered(xs, k) == kept + [s] + rest;
    if p.tag == "/choice" {
      RetagSlotAt(kept, s, rest);
    } else if NextInBlock(inBlock, p) {
      RemoveSlotAt(kept, s, rest);
    }
  }

  /** The first step of `CollapseWalk` and of `NoShadowWalk`. */
  lemma WalksOneRecord(ys: TagList, inBlock: bool, kept: TagList)
    requires ys != []
    ensures var b := NextInBlock(inBlock, ys[0]);
      && CollapseWalk(ys, inBlock) == (if b then [] else [Kept(ys[0])]) + CollapseWalk(ys[1..], b)
      && (NoShadowWalk(ys, inBlock, kept) <==>
          if b then (forall i :: 0 <= i < |kept| ==> !Equal(kept[i], ys[0])) && NoShadowWalk(ys[1..], b, kept)
          else NoShadowWalk(ys[1..], b, kept + [Kept(ys[0])]))
  {
  }

  /** A record inside a choice block: the code as written removes it, the
      intended collapse drops it. */
  lemma ReplaceDropStep(xs: TagList, k: nat, inBlock: bool, kept: seq<Slot>)
    requires k < |xs| && NextInBlock(inBlock, xs[k])
    requires forall i :: 0 <= i < |kept| ==> kept[i].id < k
    requires NoShadowWalk(xs[k..], inBlock, Pairs(kept))
    ensures NoShadowWalk(xs[k + 1..], true, Pairs(kept))
    ensures ReplaceWalk(xs, k, inBlock, kept + Numbered(xs, k)) == ReplaceWalk(xs, k + 1, true, kept + Numbered(xs, k + 1))
    ensures CollapseWalk(xs[k..], inBlock) == CollapseWalk(xs[k + 1..], true)
  {
    assert xs[k..][0] == xs[k] && xs[k..][1..] == xs[k + 1..];
    WalksOneRecord(xs[k..], inBlock, Pairs(kept));
    assert forall i :: 0 <= i < |kept| ==> Pairs(kept)[i] == kept[i].pair;
    ReplaceStep(xs, k, inBlock, kept);
  }

  /** A record outside every choice block: both keep it, a `/choice` retagged. */
  lemma ReplaceKeepStep(xs: TagList, k: nat, inBlock: bool, kept: seq<Slot>)
    requires k < |xs| && !NextInBlock(inBlock, xs[k])
    requires forall i :: 0 <= i < |kept| ==> kept[i].id < k
    requires NoShadowWalk(xs[k..], inBlock, Pairs(kept))
    ensures var kept' := kept + [Slot(k, Kept(xs[k]))];
      && (forall i :: 0 <= i < |kept'| ==> kept'[i].id < k + 1)
      && NoShadowWalk(xs[k + 1..], false, Pairs(kept'))
      && ReplaceWalk(xs, k, inBlock, kept + Numbered(xs, k)) == ReplaceWalk(xs, k + 1, false, kept' + Numbered(xs, k + 1))
      && Pairs(kept) + CollapseWalk(xs[k..], inBlock) == Pairs(kept') + CollapseWalk(xs[k + 1..], false)
  {
    var p := xs[k];
    var kept' := kept + [Slot(k, Kept(p))];
    assert xs[k..][0] == p && xs[k..][1..] == xs[k + 1..];
    WalksOneRecord(xs[k..], inBlock, Pairs(kept));
    ReplaceStep(xs, k, inBlock, kept);
    PairsAppend(kept, [Slot(k, Kept(p))]);
    assert Pairs(kept') == Pairs(kept) + [Kept(p)];
    var rest := CollapseWalk(xs[k + 1..], false);
    AppendAssociative(Pairs(kept), [Kept(p)], rest);
  }

  lemma {:induction false} ReplaceWalkCollapses(xs: TagList, k: nat, inBlock: bool, kept: seq<Slot>)
    requires k <= |xs|
    requires forall i :: 0 <= i < |kept| ==> kept[i].id < k
    requires NoShadowWalk(xs[k..], inBlock, Pairs(kept))
    ensures Pairs(ReplaceWalk(xs, k, inBlock, kept + Numbered(xs, k))) == Pairs(kept) + CollapseWalk(xs[k..], inBlock)
    decreases |xs| - k
  {
    if k == |xs| {
      assert kept + Numbered(xs, k) == kept;
    } else {
      if NextInBlock(inBlock, xs[k]) {
        ReplaceDropStep(xs, k, inBlock, kept);
        ReplaceWalkCollapses(xs, k + 1, true, kept);
      } else {
        ReplaceKeepStep(xs, k, inBlock, kept);
        ReplaceWalkCollapses(xs, k + 1, false, kept + [Slot(k, Kept(xs[k]))]);
      }
    }
  }


  /** When no removed record is shadowed by an equal record kept before it, the
      code as written computes the intended collapse. */
  lemma ReplaceIsCollapseWithoutShadowing(xs: TagList)
    requires NoShadow(xs)
    ensures ReplaceChoiceBlocks(xs) == CollapseChoiceBlocks(xs)
  {
    assert xs[0..] == xs;
    ReplaceWalkCollapses(xs, 0, false, []);
    assert [] + Numbered(xs, 0) == Numbered(xs, 0);
  }

  lemma {:induction false} NoShadowWithoutChoice(xs: TagList, kept: TagList)
    requires NoChoiceTags(xs)
    ensures NoShadowWalk(xs, false, kept)
  {
    if xs != [] {
      assert forall i :: 0 <= i < |xs[1..]| ==> xs[1..][i] == xs[i + 1];
      NoShadowWithoutChoice(xs[1..], kept + [Kept(xs[0])]);
    }
  }

  /** The code as written also leaves a list with no choice boundary unchanged. */
  lemma ReplaceWithoutChoice(xs: TagList)
    requires NoChoiceTags(xs)
    ensures ReplaceChoiceBlocks(xs) == xs
  {
    NoShadowWithoutChoice(xs, []);
    ReplaceIsCollapseWithoutShadowing(xs);
    CollapseWithoutChoice(xs);
  }

  // A flow whose only choice branch repeats a `flow-ref` that also appears
  // before the block.
  const StepRef := TagPair("flow-ref", [("name", Text("step"))])
  const Logger := TagPair("logger", [])
  const ChoiceOpen := TagPair("choice", [])
  const ChoiceClose := TagPair("/choice", [])
  const PlaceholderRecord := TagPair(Placeholder, [])

  function ShadowingFlow(): TagList
  {
    [StepRef, Logger, ChoiceOpen, StepRef, ChoiceClose]
  }

  /** Up to the `/choice`: the `choice` record goes, and the branch's
      `flow-ref` removes the first equal record, the one before the block. */
  lemma ShadowingFlowRemovals()
    ensures ReplaceWalk(ShadowingFlow(), 0, false, Numbered(ShadowingFlow(), 0)) ==
      ReplaceWalk(ShadowingFlow(), 4, true, [Slot(1, Logger), Slot(3, StepRef), Slot(4, ChoiceClose)])
  {
    var xs := ShadowingFlow();
    var ref, log, open, close := StepRef, Logger, ChoiceOpen, ChoiceClose;
    EqualReflexive(ref);
    EqualReflexive(open);
    var live := Numbered(xs, 0);
    assert live == [Slot(0, ref), Slot(1, log), Slot(2, open), Slot(3, ref), Slot(4, close)];
    assert ReplaceWalk(xs, 0, false, live) == ReplaceWalk(xs, 2, false, live);
    var live3 := [Slot(0, ref), Slot(1, log), Slot(3, ref), Slot(4, close)];
    assert RemoveSlot(live[2..], open) == live[3..];
    assert RemoveSlot(live[1..], open) == [live[1]] + live[3..];
    assert RemoveSlot(live, open) == live3;
    assert ReplaceWalk(xs, 2, false, live) == ReplaceWalk(xs, 3, true, live3);
    var live4 := [Slot(1, log), Slot(3, ref), Slot(4, close)];
    assert RemoveSlot(live3, ref) == live4;
  }

  /** The code as written deletes the earlier, equal `flow-ref` and keeps the
      branch's one, which now comes after the logger. */
  lemma ShadowingFlowRetag()
    ensures RetagSlot([Slot(1, Logger), Slot(3, StepRef), Slot(4, ChoiceClose)], 4) ==
      [Slot(1, Logger), Slot(3, StepRef), Slot(4, PlaceholderRecord)]
  {
    var live4 := [Slot(1, Logger), Slot(3, StepRef), Slot(4, ChoiceClose)];
    var live5 := [Slot(1, Logger), Slot(3, StepRef), Slot(4, PlaceholderRecord)];
    assert SetTag(ChoiceClose, Placeholder) == PlaceholderRecord;
    assert RetagSlot(live4[2..], 4) == [Slot(4, PlaceholderRecord)];
    assert RetagSlot(live4[1..], 4) == live5[1..];
  }

  lemma ShadowingFlowReplaced()
    ensures ReplaceChoiceBlocks(ShadowingFlow()) == [Logger, StepRef, PlaceholderRecord]
  {
    var xs := ShadowingFlow();
    var ref, log, close, placeholder := StepRef, Logger, ChoiceClose, PlaceholderRecord;
    ShadowingFlowRemovals();
    var live4 := [Slot(1, log), Slot(3, ref), Slot(4, close)];
    var live5 := [Slot(1, log), Slot(3, ref), Slot(4, placeholder)];
    ShadowingFlowRetag();
    assert NextInBlock(true, close) == false;
    assert ReplaceWalk(xs, 5, false, live5) == live5;
    assert ReplaceWalk(xs, 4, true, live4) == ReplaceWalk(xs, 5, false, live5);
    assert Pairs(live5) == [log, ref, placeholder];
  }

  /** The intended behaviour keeps the records before the block where they were. */
  lemma ShadowingFlowCollapsed()
    ensures CollapseChoiceBlocks(ShadowingFlow()) == [StepRef, Logger, PlaceholderRecord]
  {
    var xs := ShadowingFlow();
    var ref, log, open, close, placeholder := StepRef, Logger, ChoiceOpen, ChoiceClose, PlaceholderRecord;
    assert xs[1..] == [log, open, ref, close];
    assert xs[2..] == [open, ref, close];
    assert xs[3..] == [ref, close];
    assert xs[4..] == [close];
    assert CollapseWalk([close], true) == [placeholder];
    assert CollapseWalk([ref, close], true) == [placeholder];
    assert CollapseWalk([open, ref, close], false) == [placeholder];
    assert CollapseWalk(xs, false) == [ref, log, placeholder];
  }

  /** The branch's `flow-ref` equals one kept before the block. */
  lemma ShadowingFlowShadows()
    ensures !NoShadow(ShadowingFlow())
  {
    var xs := ShadowingFlow();
    var ref, log, open, close := StepRef, Logger, ChoiceOpen, ChoiceClose;
    EqualReflexive(ref);
    assert xs[1..] == [log, open, ref, close];
    assert xs[2..] == [open, ref, close];
    assert ref.tag == "flow-ref" && open.tag == "choice";
    assert NextInBlock(true, ref) && NextInBlock(false, open);
    assert [ref, log][0] == ref && [ref, close][0] == ref && [ref, close][1..] == [close];
    assert !NoShadowWalk([ref, close], true, [ref, log]);
    assert [open, ref, close][0] == open && [open, ref, close][1..] == [ref, close];
    assert !NoShadowWalk([open, ref, close], false, [ref, log]);
    assert Kept(ref) == ref && Kept(log) == log;
    assert !NextInBlock(false, ref) && !NextInBlock(false, log);
    var none: TagList := [];
    assert none + [Kept(ref)] == [ref];
    assert [ref] + [Kept(log)] == [ref, log];
    assert NoShadowWalk(xs, false, none) == NoShadowWalk(xs[1..], false, [ref]);
    assert NoShadowWalk(xs[1..], false, [ref]) == NoShadowWalk(xs[2..], false, [ref, log]);
  }

  /** A flow whose only choice branch repeats a `flow-ref` that also appears
      before the block: `remove` deletes the earlier, equal record instead, so
      the code as written moves the `flow-ref` after the logger. */
  lemma ShadowedRecordIsReordered()
    ensures !NoShadow(ShadowingFlow())
    ensures ReplaceChoiceBlocks(ShadowingFlow()) == [Logger, StepRef, PlaceholderRecord]
    ensures CollapseChoiceBlocks(ShadowingFlow()) == [StepRef, Logger, PlaceholderRecord]
    ensures ReplaceChoiceBlocks(ShadowingFlow()) != CollapseChoiceBlocks(ShadowingFlow())
  {
    ShadowingFlowShadows();
    ShadowingFlowReplaced();
    ShadowingFlowCollapsed();
    assert Logger.tag == "logger" && StepRef.tag == "flow-ref";
    assert |Logger.tag| != |StepRef.tag|;
  }
}

=== FILE: conversion.dfy ===
/** `_convertMuletoMUnit`: one walk over a flow's records, carrying whether the
    choice block has been passed and the flow's name, that maps each record to
    zero or more MUnit records. */
module Conversion {
  import opened Wrappers
  import opened Strings
  import opened Attributes
  import opened TagPairs
  import opened TagLists
  import opened ChoiceBlocks
  import opened Nesting
  import opened Sequences
  import opened Walks

  /** The exceptions the walk can raise. */
  datatype ConvertError =
    | MissingName   // KeyError: a `flow-ref` without `name`
    | NameNotText   // a `name` that is not a string reaches `+` or `.lower()`
    | MissingValue  // KeyError: an asserted `set-payload` without `value`
    | NoNextRecord  // IndexError: the record after the looked-up one does not exist

  /** `afterChoiceBlock` and `muleFlowName`. */
  datatype State = State(afterChoice: bool, flowName: string)

  /** `noAttributes`: only `closeAtEnd = False`. */
  const NoAttributes: Attrs := [("closeAtEnd", Flag(false))]

  function Plain(tag: string): TagPair
  {
    TagPair(tag, NoAttributes)
  }

  /** An opening record, the records it encloses and its closing record. */
  function Block(open: TagPair, body: TagList, close: TagPair): (r: TagList)
    ensures |r| == |body| + 2 && r[0] == open && r[|r| - 1] == close && r[1..|r| - 1] == body
  {
    [open] + body + [close]
  }

  lemma PlainOpens(tag: string)
    requires tag != [] && tag[0] != '/'
    ensures Delta(Plain(tag)) == 1
  {
    assert GetAttribute(Plain(tag), "closeAtEnd") == Some(Flag(false));
  }

  lemma PlainCloses(tag: string)
    requires tag != [] && tag[0] == '/'
    ensures Delta(Plain(tag)) == -1
  {
  }

  lemma BlockBalanced(open: TagPair, body: TagList, close: TagPair)
    requires Delta(open) == 1 && Balanced(body) && Delta(close) == -1
    ensures Balanced(Block(open, body, close))
  {
    BalancedWrap(open, body, close);
  }

  /** A record with `closeAtEnd = True` first. */
  lemma SelfClosingRecord(tag: string, rest: seq<Entry>)
    requires tag != [] && tag[0] != '/'
    requires UniqueKeys([("closeAtEnd", Flag(true))] + rest)
    ensures Delta(TagPair(tag, [("closeAtEnd", Flag(true))] + rest)) == 0
    ensures Balanced([TagPair(tag, [("closeAtEnd", Flag(true))] + rest)])
  {
    var p := TagPair(tag, [("closeAtEnd", Flag(true))] + rest);
    assert p.attrs[0] == ("closeAtEnd", Flag(true));
    assert GetAttribute(p, "closeAtEnd") == Some(Flag(true));
    SelfClosingBalanced(p);
  }

  /** A record with `closeAtEnd = False` first. */
  lemma OpeningRecord(tag: string, rest: seq<Entry>)
    requires tag != [] && tag[0] != '/'
    requires UniqueKeys([("closeAtEnd", Flag(false))] + rest)
    ensures Delta(TagPair(tag, [("closeAtEnd", Flag(false))] + rest)) == 1
  {
    var p := TagPair(tag, [("closeAtEnd", Flag(false))] + rest);
    assert p.attrs[0] == ("closeAtEnd", Flag(false));
    assert GetAttribute(p, "closeAtEnd") == Some(Flag(false));
  }

  // ---------------------------------------------------------------------------
  // The constant blocks.

  const DbTags: seq<string> :=
    ["db:select", "db:insert", "db:update", "db:delete", "db:stored-procedure", "db:bulk-execute", "db:execute-ddl"]

  /** `flowContainsDatabase`. */
  predicate UsesDatabase(flow: TagList)
  {
    exists i :: 0 <= i < |DbTags| && ContainsTag(flow, DbTags[i])
  }

  /** `flowContainsFTP`. */
  predicate UsesFtp(flow: TagList)
  {
    ContainsTag(flow, "ftp:outbound-endpoint")
  }

  /** The database flag is set exactly when some record of the flow carries
      one of the database tags. */
  lemma UsesDatabaseIff(flow: TagList)
    ensures UsesDatabase(flow) <==> exists i :: 0 <= i < |flow| && flow[i].tag in DbTags
  {
    forall j | 0 <= j < |DbTags|
      ensures ContainsTag(flow, DbTags[j]) <==> exists i :: 0 <= i < |flow| && flow[i].tag == DbTags[j]
    {
      ContainsTagIffSome(flow, DbTags[j]);
    }
  }

  /** The FTP flag is set exactly when some record of the flow is an FTP outbound endpoint. */
  lemma UsesFtpIff(flow: TagList)
    ensures UsesFtp(flow) <==> exists i :: 0 <= i < |flow| && flow[i].tag == "ftp:outbound-endpoint"
  {
    ContainsTagIffSome(flow, "ftp:outbound-endpoint");
  }

  /** A before-suite block: `munit:before-suite` named `name`, described as
      `Start DB Server` whatever it starts, around a self-closing
      `dbserver:start-db-server` captionled `caption`. */
  function BeforeSuite(name: string, caption: string): (r: TagList)
    ensures |r| == 3 && Balanced(r)
    ensures r[0].tag == "munit:before-suite" && GetAttribute(r[0], "name") == Some(Text(name))
    ensures GetAttribute(r[0], "description") == Some(Text("Start DB Server"))
    ensures r[1].tag == "dbserver:start-db-server" && GetAttribute(r[1], "doc:name") == Some(Text(caption))
    ensures r[2].tag == "/munit:before-suite"
  {
    var startAttrs := [("closeAtEnd", Flag(true)), ("config-ref", Text("")), ("doc:name", Text(caption))];
    DistinctKeys3(startAttrs);
    var start := TagPair("dbserver:start-db-server", startAttrs);
    var openAttrs := [("closeAtEnd", Flag(false)), ("name", Text(name)), ("description", Text("Start DB Server"))];
    DistinctKeys3(openAttrs);
    var open := TagPair("munit:before-suite", openAttrs);
    SelfClosingRecord(start.tag, start.attrs[1..]);
    OpeningRecord(open.tag, open.attrs[1..]);
    PlainCloses("/munit:before-suite");
    BlockBalanced(open, [start], Plain("/munit:before-suite"));
    assert open.attrs[1] == ("name", Text(name)) && open.attrs[2] == ("description", Text("Start DB Server"));
    assert start.attrs[2] == ("doc:name", Text(caption));
    Block(open, [start], Plain("/munit:before-suite"))
  }

  function DbAfterSuite(flowName: string): (r: TagList)
    ensures |r| == 3 && Balanced(r)
    ensures GetAttribute(r[0], "name") == Some(Text(flowName + "-After_Suite_DB"))
  {
    var stopAttrs := [("closeAtEnd", Flag(true)), ("config-ref", Text("")), ("doc:name", Text("Stop Server"))];
    DistinctKeys3(stopAttrs);
    var stop := TagPair("dbserver:stop-db-server", stopAttrs);
    var openAttrs := [("closeAtEnd", Flag(false)), ("name", Text(flowName + "-After_Suite_DB")), ("description", Text("Stop DB Server"))];
    DistinctKeys3(openAttrs);
    var open := TagPair("munit:after-suite", openAttrs);
    SelfClosingRecord(stop.tag, stop.attrs[1..]);
    OpeningRecord(open.tag, open.attrs[1..]);
    PlainCloses("/munit:after-suite");
    BlockBalanced(open, [stop], Plain("/munit:after-suite"));
    assert open.attrs[1] == ("name", Text(flowName + "-After_Suite_DB"));
    Block(open, [stop], Plain("/munit:after-suite"))
  }

  function FtpAfterSuite(flowName: string): (r: TagList)
    ensures |r| == 3 && Balanced(r)
    ensures GetAttribute(r[0], "name") == Some(Text(flowName + "-After_Suite_FTP"))
  {
    var stopAttrs := [("closeAtEnd", Flag(true)), ("config-ref", Text(""))];
    DistinctKeys2(stopAttrs);
    var stop := TagPair("ftpserver:stop-server", stopAttrs);
    var openAttrs := [("closeAtEnd", Flag(false)), ("name", Text(flowName + "-After_Suite_FTP")), ("description", Text("Stop FTP Server"))];
    DistinctKeys3(openAttrs);
    var open := TagPair("munit:after-suite", openAttrs);
    SelfClosingRecord(stop.tag, stop.attrs[1..]);
    OpeningRecord(open.tag, open.attrs[1..]);
    PlainCloses("/munit:after-suite");
    BlockBalanced(open, [stop], Plain("/munit:after-suite"));
    assert open.attrs[1] == ("name", Text(flowName + "-After_Suite_FTP"));
    Block(open, [stop], Plain("/munit:after-suite"))
  }

  /** The before-suite blocks that precede a flow's test. */
  function BeforeSuites(db: bool, ftp: bool): (r: TagList)
    ensures Balanced(r)
    ensures |r| == (if db then 3 else 0) + (if ftp then 3 else 0)
  {
    EmptyBalanced();
    var a := if db then BeforeSuite("before-DB", "Start DB") else [];
    var b := if ftp then BeforeSuite("before-FTP", "Start FTP") else [];
    BalancedAppend(a, b);
    a + b
  }

  /** The after-suite blocks that follow a flow's test. */
  function AfterSuites(flowName: string, db: bool, ftp: bool): (r: TagList)
    ensures Balanced(r)
    ensures |r| == (if db then 3 else 0) + (if ftp then 3 else 0)
  {
    EmptyBalanced();
    var a := if db then DbAfterSuite(flowName) else [];
    var b := if ftp then FtpAfterSuite(flowName) else [];
    BalancedAppend(a, b);
    a + b
  }

  /** `munit:set` with an empty payload. */
  function InitialPayload(): (r: TagPair)
    ensures r.tag == "munit:set" && Delta(r) == 0
  {
    var rAttrs := [("closeAtEnd", Flag(true)), ("payload", Text("")), ("doc:name", Text("Set Initial Test Payload"))];
    DistinctKeys3(rAttrs);
    var r := TagPair("munit:set", rAttrs);
    SelfClosingRecord(r.tag, r.attrs[1..]);
    r
  }

  /** The `mock:with-attributes` block around one `mock:with-attribute`. */
  function WithAttribute(name: string, whereValue: string): (r: TagList)
    ensures |r| == 3 && Balanced(r)
    ensures GetAttribute(r[1], "whereValue") == Some(Text(whereValue))
  {
    var attrAttrs := [("closeAtEnd", Flag(true)), ("name", Text(name)), ("whereValue", Text(whereValue))];
    DistinctKeys3(attrAttrs);
    var attr := TagPair("mock:with-attribute", attrAttrs);
    SelfClosingRecord(attr.tag, attr.attrs[1..]);
    PlainOpens("mock:with-attributes");
    PlainCloses("/mock:with-attributes");
    BlockBalanced(Plain("mock:with-attributes"), [attr], Plain("/mock:with-attributes"));
    assert attr.attrs[2] == ("whereValue", Text(whereValue));
    Block(Plain("mock:with-attributes"), [attr], Plain("/mock:with-attributes"))
  }

  /** The verification that a sub-flow is called exactly once. */
  function VerifySubFlowCall(name: string): (r: TagList)
    ensures |r| == 5 && Balanced(r)
    ensures r[0].tag == "mock:verify-call" && GetAttribute(r[0], "times") == Some(Text("1"))
    ensures GetAttribute(r[2], "whereValue") == Some(Text("#[matchContains('" + name + "')]"))
  {
    var openAttrs := [("closeAtEnd", Flag(false)), ("messageProcessor", Text("mule:sub-flow")),
       ("doc:name", Text("Verify Call")), ("times", Text("1"))];
    DistinctKeys4(openAttrs);
    var open := TagPair("mock:verify-call", openAttrs);
    OpeningRecord(open.tag, open.attrs[1..]);
    PlainCloses("/mock:verify-call");
    var body := WithAttribute("name", "#[matchContains('" + name + "')]");
    BlockBalanced(open, body, Plain("/mock:verify-call"));
    assert open.attrs[3] == ("times", Text("1"));
    Block(open, body, Plain("/mock:verify-call"))
  }

  /** The `mock:then-return` block with one empty invocation property. */
  function ThenReturnProperties(): (r: TagList)
    ensures |r| == 5 && Balanced(r)
  {
    var retAttrs := [("closeAtEnd", Flag(false)), ("payload", Text("#[]"))];
    DistinctKeys2(retAttrs);
    var ret := TagPair("mock:then-return", retAttrs);
    var propAttrs := [("closeAtEnd", Flag(true)), ("key", Text("")), ("value", Text(""))];
    DistinctKeys3(propAttrs);
    var prop := TagPair("mock:invocation-property", propAttrs);
    OpeningRecord(ret.tag, ret.attrs[1..]);
    SelfClosingRecord(prop.tag, prop.attrs[1..]);
    PlainOpens("mock:invocation-properties");
    PlainCloses("/mock:invocation-properties");
    PlainCloses("/mock:then-return");
    var props := Block(Plain("mock:invocation-properties"), [prop], Plain("/mock:invocation-properties"));
    BlockBalanced(Plain("mock:invocation-properties"), [prop], Plain("/mock:invocation-properties"));
    BlockBalanced(ret, props, Plain("/mock:then-return"));
    Block(ret, props, Plain("/mock:then-return"))
  }

  /** The mock standing in for a called flow. */
  function MockFlowCall(name: string): (r: TagList)
    ensures |r| == 10 && Balanced(r)
    ensures r[0].tag == "mock:when" && GetAttribute(r[0], "messageProcessor") == Some(Text("mule:flow"))
    ensures GetAttribute(r[2], "whereValue") == Some(Text("#['" + name + "']"))
  {
    var openAttrs := [("closeAtEnd", Flag(false)), ("doc:name", Text("Mock")), ("messageProcessor", Text("mule:flow"))];
    DistinctKeys3(openAttrs);
    var open := TagPair("mock:when", openAttrs);
    OpeningRecord(open.tag, open.attrs[1..]);
    PlainCloses("/mock:when");
    var attrs := WithAttribute("name", "#['" + name + "']");
    var ret := ThenReturnProperties();
    BalancedAppend(attrs, ret);
    BlockBalanced(open, attrs + ret, Plain("/mock:when"));
    assert open.attrs[2] == ("messageProcessor", Text("mule:flow"));
    Block(open, attrs + ret, Plain("/mock:when"))
  }

  /** The mock standing in for a `set-payload` before the choice block. */
  function MockSetPayload(): (r: TagList)
    ensures |r| == 6 && Balanced(r)
    ensures r[0].tag == "mock:when" && GetAttribute(r[0], "messageProcessor") == Some(Text("mule:set-payload"))
  {
    var openAttrs := [("closeAtEnd", Flag(false)), ("doc:name", Text("Mock")), ("messageProcessor", Text("mule:set-payload"))];
    DistinctKeys3(openAttrs);
    var open := TagPair("mock:when", openAttrs);
    var ret := EmptyReturn();
    OpeningRecord(open.tag, open.attrs[1..]);
    SelfClosingBalanced(ret);
    PlainCloses("/mock:when");
    var attrs := WithAttribute("doc:name", "#['Set Original Payload']");
    BalancedAppend(attrs, [ret]);
    BlockBalanced(open, attrs + [ret], Plain("/mock:when"));
    assert open.attrs[2] == ("messageProcessor", Text("mule:set-payload"));
    Block(open, attrs + [ret], Plain("/mock:when"))
  }

  /** A self-closing `mock:then-return` with an empty payload. */
  function EmptyReturn(): (r: TagPair)
    ensures r.tag == "mock:then-return" && Delta(r) == 0
  {
    var rAttrs := [("closeAtEnd", Flag(true)), ("payload", Text("#[]"))];
    DistinctKeys2(rAttrs);
    var r := TagPair("mock:then-return", rAttrs);
    SelfClosingRecord(r.tag, r.attrs[1..]);
    r
  }

  /** The payload assertion that replaces a `set-payload` after the choice block. */
  function AssertPayload(expected: Value): (r: TagPair)
    ensures r.tag == "munit:assert-payload-equals" && Delta(r) == 0
    ensures GetAttribute(r, "expectedValue") == Some(expected)
  {
    var rAttrs := [("closeAtEnd", Flag(true)), ("message", Text("Incorrect payload!")), ("expectedValue", expected)];
    DistinctKeys3(rAttrs);
    var r := TagPair("munit:assert-payload-equals", rAttrs);
    SelfClosingRecord(r.tag, r.attrs[1..]);
    assert r.attrs[2] == ("expectedValue", expected);
    r
  }

  /** The `flow-ref` that calls the flow under test in place of its choice block. */
  function FlowCall(flowName: string): (r: TagPair)
    ensures r.tag == "flow-ref" && Delta(r) == 0
    ensures GetAttribute(r, "name") == Some(Text(flowName))
  {
    var rAttrs := [("closeAtEnd", Flag(true)), ("name", Text(flowName)), ("doc:name", Text("Flow-ref to " + flowName))];
    DistinctKeys3(rAttrs);
    var r := TagPair("flow-ref", rAttrs);
    SelfClosingRecord(r.tag, r.attrs[1..]);
    assert r.attrs[1] == ("name", Text(flowName));
    r
  }

  /** The FTP file check; absent attributes are copied as `None`. */
  function FtpFileCheck(p: TagPair): (r: TagPair)
    ensures r.tag == "ftpserver:contains-files" && Delta(r) == 0
    ensures GetAttribute(r, "file") == Some(Stored(GetAttribute(p, "outputPattern")))
    ensures GetAttribute(r, "path") == Some(Stored(GetAttribute(p, "path")))
  {
    var rAttrs := [("closeAtEnd", Flag(true)), ("file", Stored(GetAttribute(p, "outputPattern"))),
       ("path", Stored(GetAttribute(p, "path"))), ("config-ref", Text(""))];
    DistinctKeys4(rAttrs);
    var r := TagPair("ftpserver:contains-files", rAttrs);
    SelfClosingRecord(r.tag, r.attrs[1..]);
    assert r.attrs[1].0 == "file" && r.attrs[2].0 == "path";
    r
  }

  // ---------------------------------------------------------------------------
  // The walk.

  /** `flowPairs[flowPairs.index(pair) + 1].getTag()`: the tag after the FIRST
      record equal to `fp[k]`. */
  function NextTag(fp: TagList, k: nat): (r: Result<string, ConvertError>)
    requires k < |fp|
    ensures r.Failure? ==> r.error == NoNextRecord
    ensures k + 1 < |fp| ==> r.Success?
    ensures (forall j :: 0 <= j < k ==> !Equal(fp[j], fp[k])) ==>
      r == if k + 1 < |fp| then Success(fp[k + 1].tag) else Failure(NoNextRecord)
  {
    EqualReflexive(fp[k]);
    assert Contains(fp, fp[k]);
    var i := Index(fp, fp[k]).value;
    assert i <= k;
    if i + 1 < |fp| then Success(fp[i + 1].tag) else Failure(NoNextRecord)
  }

  /** `muleTagList.index(pair)` finds the first record equal to `fp[k]`, so the
      tag looked up is the one after that record, wherever `fp[k]` itself is. */
  lemma NextTagFirstEqual(fp: TagList, k: nat)
    requires k < |fp|
    ensures exists i: nat ::
      FirstEqualAt(fp, k, i) && NextTag(fp, k) == (if i + 1 < |fp| then Success(fp[i + 1].tag) else Failure(NoNextRecord))
  {
    EqualReflexive(fp[k]);
    assert Contains(fp, fp[k]);
    var i := Index(fp, fp[k]).value;
    assert FirstEqualAt(fp, k, i);
  }

  /** `i` is where `flowPairs.index(fp[k])` lands: the first record equal to `fp[k]`. */
  predicate FirstEqualAt(fp: TagList, k: nat, i: nat)
    requires k < |fp|
  {
    i <= k && Equal(fp[i], fp[k]) && forall j :: 0 <= j < i ==> !Equal(fp[j], fp[k])
  }

  /** The entry points of a flow: inbound endpoints and HTTP listeners. */
  predicate IsEntryPoint(tag: string)
  {
    HasSubstring(tag, "inbound-endpoint") || tag == "http:listener"
  }

  /** A flow whose next record does not supply a payload starts from an empty one. */
  predicate NeedsInitialPayload(next: string)
  {
    next != "set-payload" && next != "http:listener" && !HasSubstring(next, "inbound-endpoint")
  }

  /** A `flow-ref` whose lower-cased target names a sub-flow. */
  predicate NamesSubFlow(name: string)
  {
    var l := Lower(name);
    HasSubstring(l, "subflow") || HasSubstring(l, "sub-flow") || HasSubstring(l, "sub_flow") || HasSubstring(l, "sub flow")
  }

  /** The branch of the handler chain a record takes. */
  datatype Handler =
    | OnPlaceholder | OnFlow | OnFlowRef | OnFtpOutbound | OnEntryPoint
    | OnSetPayload | OnCloseFlow | OnCloseMule | Ignored

  function HandlerFor(tag: string): Handler
  {
    if tag == Placeholder then OnPlaceholder
    else if tag == "flow" then OnFlow
    else if tag == "flow-ref" then OnFlowRef
    else if tag == "ftp:outbound-endpoint" then OnFtpOutbound
    else if IsEntryPoint(tag) then OnEntryPoint
    else if tag == "set-payload" then OnSetPayload
    else if tag == "/flow" then OnCloseFlow
    else if tag == "/mule" then OnCloseMule
    else Ignored
  }

  /** Tags with a handler of their own, apart from the entry points. */
  const HandledTags: seq<string> :=
    [Placeholder, "flow", "flow-ref", "ftp:outbound-endpoint", "set-payload", "/flow", "/mule"]

  /** A tag shorter than `inbound-endpoint` is an entry point only as `http:listener`. */
  lemma ShortTagEntryPoint(tag: string)
    requires |tag| < 16
    ensures IsEntryPoint(tag) <==> tag == "http:listener"
  {
    SubstringFits(tag, "inbound-endpoint");
  }

  /** A record is ignored exactly when its tag has no handler. */
  lemma IgnoredIffUnhandled(tag: string)
    ensures HandlerFor(tag) == Ignored <==> tag !in HandledTags && !IsEntryPoint(tag)
  {
  }

  /** `sub-flow` and the other short tags without a handler emit nothing. */
  lemma ShortTagIgnored(tag: string)
    requires |tag| < 16 && tag !in HandledTags && tag != "http:listener"
    ensures HandlerFor(tag) == Ignored
  {
    ShortTagEntryPoint(tag);
  }

  /** The `munit:test` record opening the test of a named or unnamed flow. */
  function TestHeader(name: Option<string>): (r: TagPair)
    ensures r.tag == "munit:test" && Delta(r) == 1
    ensures name.None? ==> GetAttribute(r, "name") == Some(Text("UnitTestFlow"))
    ensures name.Some? ==> GetAttribute(r, "name") == Some(Text(name.value + "-test-"))
  {
    match name
    case None =>
      var attrs := [("closeAtEnd", Flag(false)), ("name", Text("UnitTestFlow")),
        ("description", Text("Unit Test Flow for unnamed Mule Flow"))];
      DistinctKeys3(attrs);
      var h := TagPair("munit:test", attrs);
      OpeningRecord(h.tag, h.attrs[1..]);
      assert h.attrs[1] == ("name", Text("UnitTestFlow"));
      h
    case Some(n) =>
      var attrs := [("closeAtEnd", Flag(false)), ("name", Text(n + "-test-")),
        ("description", Text("Unit Test for " + n))];
      DistinctKeys3(attrs);
      var h := TagPair("munit:test", attrs);
      OpeningRecord(h.tag, h.attrs[1..]);
      assert h.attrs[1] == ("name", Text(n + "-test-"));
      h
  }

  /** What one handler emits, before it is spelled out as records. */
  datatype Emission =
    | CallFlowUnderTest(flowName: string)
    | OpenTest(name: Option<string>, initialPayload: bool)
    | VerifySubFlow(target: string)
    | MockFlow(target: string)
    | CheckFtpFile(endpoint: TagPair)
    | SetInitialPayload
    | AssertPayloadIs(expected: Value)
    | MockPayload
    | CloseTest(flowName: string, db: bool, ftp: bool)
    | CloseMule
    | Nothing

  /** An emission that neither opens nor closes a block left open. */
  predicate Inner(e: Emission)
  {
    !e.OpenTest? && !e.CloseTest? && !e.CloseMule?
  }

  /** A flow's test opening, with an empty initial payload when asked for. */
  function OpenTestRecords(name: Option<string>, initial: bool): (r: TagList)
    ensures |r| == (if initial then 2 else 1) && r[0] == TestHeader(name) && Rising(r, 1)
    ensures initial ==> r[1] == InitialPayload()
  {
    var h := TestHeader(name);
    EmptyBalanced();
    SelfClosingBalanced(InitialPayload());
    OpenThenBalanced(h, []);
    OpenThenBalanced(h, [InitialPayload()]);
    assert [h] + [] == [h];
    assert [h] + [InitialPayload()] == [h, InitialPayload()];
    if initial then [h, InitialPayload()] else [h]
  }

  /** A flow's test closing, followed by its after-suites. */
  function CloseTestRecords(flowName: string, db: bool, ftp: bool): (r: TagList)
    ensures |r| >= 1 && r[0] == Plain("/munit:test") && Delta(r[0]) == -1
    ensures r[1..] == AfterSuites(flowName, db, ftp) && Balanced(r[1..])
  {
    PlainCloses("/munit:test");
    var r := [Plain("/munit:test")] + AfterSuites(flowName, db, ftp);
    assert r[1..] == AfterSuites(flowName, db, ftp);
    r
  }

  /** The records an emission stands for. */
  function Records(e: Emission): (r: TagList)
    ensures Inner(e) ==> Balanced(r)
  {
    match e
    case CallFlowUnderTest(n) =>
      SelfClosingBalanced(FlowCall(n));
      [FlowCall(n)]
    case OpenTest(name, initial) => OpenTestRecords(name, initial)
    case VerifySubFlow(n) => VerifySubFlowCall(n)
    case MockFlow(n) => MockFlowCall(n)
    case CheckFtpFile(p) =>
      SelfClosingBalanced(FtpFileCheck(p));
      [FtpFileCheck(p)]
    case SetInitialPayload =>
      SelfClosingBalanced(InitialPayload());
      [InitialPayload()]
    case AssertPayloadIs(v) =>
      SelfClosingBalanced(AssertPayload(v));
      [AssertPayload(v)]
    case MockPayload => MockSetPayload()
    case CloseTest(n, db, ftp) => CloseTestRecords(n, db, ftp)
    case CloseMule => [Plain("/mule")]
    case Nothing =>
      EmptyBalanced();
      []
  }

  /** The record blocks of a run of emissions, one per emission. */
  function RecordRuns(es: seq<Emission>): (r: seq<TagList>)
    ensures |r| == |es| && forall i :: 0 <= i < |es| ==> r[i] == Records(es[i])
  {
    seq(|es|, i requires 0 <= i < |es| => Records(es[i]))
  }

  /** The records of a run of emissions, in order. */
  function Expand(es: seq<Emission>): TagList
  {
    Flatten(RecordRuns(es))
  }

  /** The walk state after record `p`. */
  function Step(st: State, p: TagPair): State
  {
    match HandlerFor(p.tag)
    case OnPlaceholder => st.(afterChoice := true)
    case OnFlow =>
      (match GetAttribute(p, "name")
       case Some(Text(n)) => st.(flowName := n)
       case _ => st)
    case _ => st
  }

  /** The name a `flow` record gives its test: a missing name is allowed, a
      name that is not text is not. */
  function FlowName(p: TagPair): (r: Result<Option<string>, ConvertError>)
    ensures r.Failure? <==> GetAttribute(p, "name").Some? && !GetAttribute(p, "name").value.Text?
    ensures r.Failure? ==> r.error == NameNotText
    ensures r == Success(None) <==> GetAttribute(p, "name").None?
    ensures forall n :: r == Success(Some(n)) <==> GetAttribute(p, "name") == Some(Text(n))
  {
    match GetAttribute(p, "name")
    case None => Success(None)
    case Some(Text(n)) => Success(Some(n))
    case Some(_) => Failure(NameNotText)
  }

  /** The handler of `fp[k]` in state `st`; `db` and `ftp` say whether the flow
      uses a database or an FTP endpoint. */
  function Emit(fp: TagList, k: nat, st: State, db: bool, ftp: bool): Result<Emission, ConvertError>
    requires k < |fp|
  {
    var p := fp[k];
    match HandlerFor(p.tag)
    case OnPlaceholder => Success(CallFlowUnderTest(st.flowName))
    case OnFlow =>
      var name :- FlowName(p);
      var next :- NextTag(fp, k);
      Success(OpenTest(name, NeedsInitialPayload(next)))
    case OnFlowRef =>
      (match GetAttribute(p, "name")
       case None => Failure(MissingName)
       case Some(Text(n)) => Success(if NamesSubFlow(n) then VerifySubFlow(n) else MockFlow(n))
       case Some(_) => Failure(NameNotText))
    case OnFtpOutbound => Success(CheckFtpFile(p))
    case OnEntryPoint =>
      var next :- NextTag(fp, k);
      Success(if next != "set-payload" then SetInitialPayload else Nothing)
    case OnSetPayload =>
      if st.afterChoice then
        (match GetAttribute(p, "value")
         case None => Failure(MissingValue)
         case Some(v) => Success(AssertPayloadIs(v)))
      else Success(MockPayload)
    case OnCloseFlow => Success(CloseTest(st.flowName, db, ftp))
    case OnCloseMule => Success(CloseMule)
    case Ignored => Success(Nothing)
  }

  /** The loop over `flowPairs` from position `k`: one emission per record. */
  function ConvertFrom(fp: TagList, k: nat, st: State, db: bool, ftp: bool): Result<seq<Emission>, ConvertError>
    requires k <= |fp|
    decreases |fp| - k
  {
    if k == |fp| then Success([])
    else
      var e :- Emit(fp, k, st, db, ftp);
      var rest :- ConvertFrom(fp, k + 1, Step(st, fp[k]), db, ftp);
      Success([e] + rest)
  }

  /** The state the walk starts in: before the choice block iff the flow has a placeholder. */
  function Initial(fp: TagList): State
  {
    State(!ContainsTag(fp, Placeholder), "")
  }

  /** `_convertMuletoMUnit`: collapse the choice blocks, then emit the
      before-suites and walk the records. */
  function ConvertFlow(flow: TagList): Result<TagList, ConvertError>
  {
    var fp := CollapseChoiceBlocks(flow);
    var db := UsesDatabase(fp);
    var ftp := UsesFtp(fp);
    var es :- ConvertFrom(fp, 0, Initial(fp), db, ftp);
    Success(BeforeSuites(db, ftp) + Expand(es))
  }

  // ---------------------------------------------------------------------------
  // What the walk computes.

  /** The state the walk is in when it reaches record `k`. */
  function StateAt(fp: TagList, k: nat, st0: State): State
    requires k <= |fp|
  {
    StateAfter(StepAt(fp), st0, k)
  }

  /** The walk is past the choice block at record `k` exactly when it started
      there or a placeholder came before `k`. */
  lemma {:induction false} AfterChoiceAt(fp: TagList, k: nat, st0: State)
    requires k <= |fp|
    ensures StateAt(fp, k, st0).afterChoice <==>
      st0.afterChoice || exists j :: 0 <= j < k && fp[j].tag == Placeholder
  {
    if k > 0 {
      AfterChoiceAt(fp, k - 1, st0);
    }
  }

  /** The handler of record `j` succeeds in the state the walk reaches it in. */
  predicate EmitsAt(fp: TagList, j: nat, st0: State, db: bool, ftp: bool)
    requires j < |fp|
  {
    Emit(fp, j, StateAt(fp, j, st0), db, ftp).Success?
  }

  /** One step of the loop: the record's emission, then the rest. */
  lemma ConvertFromStep(fp: TagList, k: nat, st: State, db: bool, ftp: bool)
    requires k < |fp|
    ensures var r := ConvertFrom(fp, k, st, db, ftp);
      var e := Emit(fp, k, st, db, ftp);
      var rest := ConvertFrom(fp, k + 1, Step(st, fp[k]), db, ftp);
      && (r.Success? <==> e.Success? && rest.Success?)
      && (r.Success? ==> r.value == [e.value] + rest.value)
      && (r.Success? ==> |r.value| == 1 + |rest.value|)
  {
  }

  /** The handler at a position of the flow, as the generic loop takes it;
      the loop never asks past the end. */
  function EmitAt(fp: TagList, db: bool, ftp: bool): (nat, State) -> Result<Emission, ConvertError>
  {
    (j: nat, st: State) => if j < |fp| then Emit(fp, j, st, db, ftp) else Success(Nothing)
  }

  /** The state update at a position of the flow, as the generic loop takes it. */
  function StepAt(fp: TagList): (nat, State) -> State
  {
    (j: nat, st: State) => if j < |fp| then Step(st, fp[j]) else st
  }

  /** The conversion loop is the generic loop over the flow's records. */
  lemma {:induction false} ConvertFromIsRun(fp: TagList, k: nat, st: State, db: bool, ftp: bool)
    requires k <= |fp|
    ensures ConvertFrom(fp, k, st, db, ftp) == Run(|fp|, k, st, EmitAt(fp, db, ftp), StepAt(fp))
    decreases |fp| - k
  {
    if k < |fp| {
      ConvertFromIsRun(fp, k + 1, Step(st, fp[k]), db, ftp);
      InRange(fp, k, st, db, ftp);
    }
  }

  /** Inside the flow the generic loop's handler and update are the conversion's. */
  lemma InRange(fp: TagList, k: nat, st: State, db: bool, ftp: bool)
    requires k < |fp|
    ensures EmitAt(fp, db, ftp)(k, st) == Emit(fp, k, st, db, ftp)
    ensures StepAt(fp)(k, st) == Step(st, fp[k])
  {
  }

  /** The conversion succeeds exactly when every record's handler succeeds in
      the state the walk reaches it in, and then it holds one emission per
      record: that handler's. */
  lemma ConvertFromByPosition(fp: TagList, st0: State, db: bool, ftp: bool)
    ensures var r := ConvertFrom(fp, 0, st0, db, ftp);
      && (r.Success? ==> forall j :: 0 <= j < |fp| ==> EmitsAt(fp, j, st0, db, ftp))
      && ((forall j :: 0 <= j < |fp| ==> EmitsAt(fp, j, st0, db, ftp)) ==> r.Success?)
      && (r.Success? ==> |r.value| == |fp|)
      && (r.Success? ==> forall j :: 0 <= j < |fp| ==>
            Emit(fp, j, StateAt(fp, j, st0), db, ftp) == Success(r.value[j]))
  {
    var emit := EmitAt(fp, db, ftp);
    var step := StepAt(fp);
    ConvertFromIsRun(fp, 0, st0, db, ftp);
    RunByPosition(|fp|, st0, emit, step);
    forall j: nat | j < |fp|
      ensures emit(j, StateAfter(step, st0, j)) == Emit(fp, j, StateAt(fp, j, st0), db, ftp)
      ensures EmitsAt(fp, j, st0, db, ftp) == emit(j, StateAfter(step, st0, j)).Success?
    {
    }
  }

  /** A `set-payload` is asserted when the flow has no placeholder or the
      placeholder came before it, and mocked otherwise; an asserted one needs
      its `value`. */
  lemma SetPayloadMode(fp: TagList, j: nat, db: bool, ftp: bool)
    requires j < |fp| && fp[j].tag == "set-payload"
    ensures var asserted := !ContainsTag(fp, Placeholder) || exists i :: 0 <= i < j && fp[i].tag == Placeholder;
      var out := Emit(fp, j, StateAt(fp, j, Initial(fp)), db, ftp);
      && (!asserted ==> out == Success(MockPayload))
      && (asserted && GetAttribute(fp[j], "value").None? ==> out == Failure(MissingValue))
      && (forall v :: asserted && GetAttribute(fp[j], "value") == Some(v) ==> out == Success(AssertPayloadIs(v)))
  {
    var st := StateAt(fp, j, Initial(fp));
    SetPayloadEmits(fp, j, st, db, ftp);
    AfterChoiceAt(fp, j, Initial(fp));
    ContainsTagIffSome(fp, Placeholder);
    assert st.afterChoice <==> !ContainsTag(fp, Placeholder) || exists i :: 0 <= i < j && fp[i].tag == Placeholder;
  }

  /** What a `set-payload` record emits in a given state. */
  lemma SetPayloadEmits(fp: TagList, j: nat, st: State, db: bool, ftp: bool)
    requires j < |fp| && fp[j].tag == "set-payload"
    ensures var v := GetAttribute(fp[j], "value");
      Emit(fp, j, st, db, ftp) ==
        if !st.afterChoice then Success(MockPayload)
        else if v.None? then Failure(MissingValue)
        else Success(AssertPayloadIs(v.value))
  {
    ShortTagEntryPoint("set-payload");
    assert HandlerFor(fp[j].tag) == OnSetPayload;
  }

  /** A `flow-ref` becomes the sub-flow verification exactly when its
      lower-cased name mentions a sub-flow, and the flow mock otherwise.
      Without a textual `name` it fails. */
  lemma FlowRefBlock(fp: TagList, j: nat, st: State, db: bool, ftp: bool)
    requires j < |fp| && fp[j].tag == "flow-ref"
    ensures var out := Emit(fp, j, st, db, ftp);
      && (GetAttribute(fp[j], "name").None? ==> out == Failure(MissingName))
      && (out.Failure? <==> !(GetAttribute(fp[j], "name").Some? && GetAttribute(fp[j], "name").value.Text?))
      && (forall n :: GetAttribute(fp[j], "name") == Some(Text(n)) ==>
            (out == Success(VerifySubFlow(n)) <==> NamesSubFlow(n)) &&
            (out == Success(MockFlow(n)) <==> !NamesSubFlow(n)))
  {
    ShortTagEntryPoint("flow-ref");
    assert HandlerFor(fp[j].tag) == OnFlowRef;
  }

  /** A `flow` opens its test, and adds an empty initial payload exactly when
      the next record does not supply one. */
  lemma FlowOpensTest(fp: TagList, j: nat, st: State, db: bool, ftp: bool)
    requires j < |fp| && fp[j].tag == "flow"
    ensures var out := Emit(fp, j, st, db, ftp);
      && (out.Failure? <==> FlowName(fp[j]).Failure? || NextTag(fp, j).Failure?)
      && (out.Success? ==> out.value == OpenTest(FlowName(fp[j]).value, NeedsInitialPayload(NextTag(fp, j).value)))
  {
    ShortTagEntryPoint("flow");
    assert HandlerFor(fp[j].tag) == OnFlow;
  }

  /** The opening records are `munit:test`, named after the flow or
      `UnitTestFlow`, and then the empty payload when asked for. */
  lemma OpenTestRecordsNamed(name: Option<string>, initial: bool)
    ensures var r := Records(OpenTest(name, initial));
      && r[0].tag == "munit:test"
      && (name.None? ==> GetAttribute(r[0], "name") == Some(Text("UnitTestFlow")))
      && (name.Some? ==> GetAttribute(r[0], "name") == Some(Text(name.value + "-test-")))
      && (|r| == 2 <==> initial)
      && (initial ==> r[1].tag == "munit:set")
  {
    assert Records(OpenTest(name, initial)) == OpenTestRecords(name, initial);
  }

  /** A `/flow` closes the test and appends the after-suites. */
  lemma CloseFlowEndsTest(fp: TagList, j: nat, st: State, db: bool, ftp: bool)
    requires j < |fp| && fp[j].tag == "/flow"
    ensures Emit(fp, j, st, db, ftp) == Success(CloseTest(st.flowName, db, ftp))
  {
    ShortTagEntryPoint("/flow");
    assert HandlerFor(fp[j].tag) == OnCloseFlow;
  }

  /** An entry point gets an empty initial payload unless the next record sets one. */
  lemma EntryPointPayload(fp: TagList, j: nat, st: State, db: bool, ftp: bool)
    requires j < |fp| && HandlerFor(fp[j].tag) == OnEntryPoint
    ensures var out := Emit(fp, j, st, db, ftp);
      && (out.Failure? <==> NextTag(fp, j).Failure?)
      && (out == Success(SetInitialPayload) <==> NextTag(fp, j).Success? && NextTag(fp, j).value != "set-payload")
      && (out == Success(Nothing) <==> NextTag(fp, j) == Success("set-payload"))
  {
  }

  /** A record without a handler emits nothing. */
  lemma IgnoredEmitsNothing(fp: TagList, j: nat, st: State, db: bool, ftp: bool)
    requires j < |fp| && fp[j].tag !in HandledTags && !IsEntryPoint(fp[j].tag)
    ensures Emit(fp, j, st, db, ftp) == Success(Nothing) && Records(Nothing) == []
  {
    IgnoredIffUnhandled(fp[j].tag);
  }

  /** Only `flow`, `/flow` and `/mule` records emit something unbalanced. */
  predicate InnerTag(tag: string)
  {
    var h := HandlerFor(tag);
    h != OnFlow && h != OnCloseFlow && h != OnCloseMule
  }

  lemma InnerTagEmitsInner(fp: TagList, j: nat, st: State, db: bool, ftp: bool)
    requires j < |fp| && InnerTag(fp[j].tag)
    ensures Emit(fp, j, st, db, ftp).Success? ==> Inner(Emit(fp, j, st, db, ftp).value)
  {
  }

  lemma OpenTestRises(e: Emission)
    requires e.OpenTest?
    ensures Rising(Records(e), 1)
  {
    assert Records(e) == OpenTestRecords(e.name, e.initialPayload);
  }

  lemma CloseTestCloses(e: Emission)
    requires e.CloseTest?
    ensures Closing(Records(e))
  {
    assert Records(e) == CloseTestRecords(e.flowName, e.db, e.ftp);
  }

  lemma InnerBalanced(e: Emission)
    requires Inner(e)
    ensures Balanced(Records(e))
  {
  }

  /** A test's emissions: it opens, inner emissions follow, it closes. */
  predicate TestWalk(es: seq<Emission>)
  {
    && |es| >= 2 && es[0].OpenTest? && es[|es| - 1].CloseTest?
    && forall i :: 0 < i < |es| - 1 ==> Inner(es[i])
  }

  lemma TestWalkIntro(es: seq<Emission>, n: nat)
    requires n >= 1 && |es| == n + 1 && es[0].OpenTest? && es[n].CloseTest?
    requires forall i :: 0 < i < n ==> Inner(es[i])
    ensures TestWalk(es)
  {
  }

  /** The record blocks of a test's emissions: rising, balanced, closing. */
  lemma TestRuns(es: seq<Emission>)
    requires TestWalk(es)
    ensures OpenCloseRun(RecordRuns(es))
  {
    var rs := RecordRuns(es);
    var n := |es| - 1;
    OpenTestRises(es[0]);
    CloseTestCloses(es[n]);
    forall i | 0 < i < n ensures Balanced(rs[i]) {
      InnerBalanced(es[i]);
    }
    OpenCloseRunIntro(rs, n);
  }

  /** A test's emissions expand to balanced records. */
  lemma TestBalanced(es: seq<Emission>)
    requires TestWalk(es)
    ensures Balanced(Expand(es))
  {
    TestRuns(es);
    OpenCloseRunBalanced(RecordRuns(es));
  }

  /** A single flow: `flow`, records with inner handlers, `/flow`. */
  predicate SingleFlow(fp: TagList)
  {
    && |fp| >= 2 && fp[0].tag == "flow" && fp[|fp| - 1].tag == "/flow"
    && forall j :: 0 < j < |fp| - 1 ==> InnerTag(fp[j].tag)
  }

  /** The walk over a single flow, when it succeeds, is one test. */
  lemma SingleFlowWalk(fp: TagList, db: bool, ftp: bool)
    requires SingleFlow(fp)
    ensures var r := ConvertFrom(fp, 0, Initial(fp), db, ftp);
      r.Success? ==> TestWalk(r.value)
  {
    var st0 := Initial(fp);
    var n := |fp| - 1;
    assert StateAt(fp, 0, st0) == st0;
    ConvertFromByPosition(fp, st0, db, ftp);
    var r := ConvertFrom(fp, 0, st0, db, ftp);
    if r.Success? {
      var es := r.value;
      assert |es| == n + 1;
      FlowOpensTest(fp, 0, st0, db, ftp);
      CloseFlowEndsTest(fp, n, StateAt(fp, n, st0), db, ftp);
      forall i | 0 < i < n ensures Inner(es[i]) {
        InnerTagEmitsInner(fp, i, StateAt(fp, i, st0), db, ftp);
      }
      TestWalkIntro(es, n);
    }
  }

  /** A single sub-flow: `sub-flow`, records with inner handlers, `/sub-flow`. */
  predicate SingleSubFlow(fp: TagList)
  {
    && |fp| >= 2 && fp[0].tag == "sub-flow" && fp[|fp| - 1].tag == "/sub-flow"
    && forall j :: 0 < j < |fp| - 1 ==> InnerTag(fp[j].tag)
  }

  /** Neither boundary of a sub-flow has a handler. */
  lemma SubFlowBoundariesInner()
    ensures InnerTag("sub-flow") && InnerTag("/sub-flow")
  {
    ShortTagIgnored("sub-flow");
    ShortTagIgnored("/sub-flow");
  }

  lemma SubFlowTagsInner(fp: TagList)
    requires SingleSubFlow(fp)
    ensures forall j :: 0 <= j < |fp| ==> InnerTag(fp[j].tag)
  {
    SubFlowBoundariesInner();
    forall j | 0 <= j < |fp| ensures InnerTag(fp[j].tag) {
      if j == 0 {
        assert fp[j].tag == "sub-flow";
      } else if j == |fp| - 1 {
        assert fp[j].tag == "/sub-flow";
      }
    }
  }

  /** Every record of a single sub-flow emits an inner block: a sub-flow opens
      no test. */
  lemma SubFlowWalk(fp: TagList, db: bool, ftp: bool)
    requires SingleSubFlow(fp)
    ensures var r := ConvertFrom(fp, 0, Initial(fp), db, ftp);
      r.Success? ==> forall i :: 0 <= i < |r.value| ==> Inner(r.value[i])
  {
    var st0 := Initial(fp);
    SubFlowTagsInner(fp);
    assert StateAt(fp, 0, st0) == st0;
    ConvertFromByPosition(fp, st0, db, ftp);
    var r := ConvertFrom(fp, 0, st0, db, ftp);
    if r.Success? {
      forall i | 0 <= i < |r.value| ensures Inner(r.value[i]) {
        InnerTagEmitsInner(fp, i, StateAt(fp, i, st0), db, ftp);
      }
    }
  }

  /** A flow that, once its choice blocks are collapsed, is a single sub-flow
      converts to balanced records: the before-suites and the inner blocks, with
      no test of its own. */
  lemma ConvertSubFlowBalanced(flow: TagList)
    requires SingleSubFlow(CollapseChoiceBlocks(flow))
    ensures ConvertFlow(flow).Success? ==> Balanced(ConvertFlow(flow).value)
  {
    var fp := CollapseChoiceBlocks(flow);
    var db := UsesDatabase(fp);
    var ftp := UsesFtp(fp);
    SubFlowWalk(fp, db, ftp);
    var r := ConvertFrom(fp, 0, Initial(fp), db, ftp);
    if r.Success? {
      var rs := RecordRuns(r.value);
      forall i | 0 <= i < |rs| ensures Balanced(rs[i]) {
        InnerBalanced(r.value[i]);
      }
      FlattenBalanced(rs);
      BalancedAppend(BeforeSuites(db, ftp), Expand(r.value));
    }
  }

  /** A flow that, once its choice blocks are collapsed, is a single flow
      converts to balanced records: the before-suites, one
      `munit:test ... /munit:test`, the after-suites. */
  lemma ConvertFlowBalanced(flow: TagList)
    requires SingleFlow(CollapseChoiceBlocks(flow))
    ensures ConvertFlow(flow).Success? ==> Balanced(ConvertFlow(flow).value)
  {
    var fp := CollapseChoiceBlocks(flow);
    var db := UsesDatabase(fp);
    var ftp := UsesFtp(fp);
    SingleFlowWalk(fp, db, ftp);
    var r := ConvertFrom(fp, 0, Initial(fp), db, ftp);
    if r.Success? {
      TestBalanced(r.value);
      BalancedAppend(BeforeSuites(db, ftp), Expand(r.value));
    }
  }

  /** Only `flow` and entry-point records look at the next record. */
  lemma EmitNoIndexError(fp: TagList, k: nat, st: State, db: bool, ftp: bool)
    requires k < |fp|
    requires k + 1 < |fp| || (HandlerFor(fp[k].tag) != OnFlow && HandlerFor(fp[k].tag) != OnEntryPoint)
    ensures Emit(fp, k, st, db, ftp).Failure? ==> Emit(fp, k, st, db, ftp).error != NoNextRecord
  {
  }

  /** A flow whose last record is neither a `flow` nor an entry point never
      raises the IndexError. */
  lemma {:induction false} NoIndexError(fp: TagList, k: nat, st: State, db: bool, ftp: bool)
    requires k <= |fp|
    requires |fp| > 0 ==> HandlerFor(fp[|fp| - 1].tag) != OnFlow && HandlerFor(fp[|fp| - 1].tag) != OnEntryPoint
    ensures ConvertFrom(fp, k, st, db, ftp).Failure? ==> ConvertFrom(fp, k, st, db, ftp).error != NoNextRecord
    decreases |fp| - k
  {
    if k < |fp| {
      ConvertFromStep(fp, k, st, db, ftp);
      EmitNoIndexError(fp, k, st, db, ftp);
      NoIndexError(fp, k + 1, Step(st, fp[k]), db, ftp);
    }
  }
}

=== FILE: expansion.dfy ===
/** `_generateMUnitTestFlows`: one test flow per choice branch, made by inserting
    the branch's records right after the flow's first `choicePlaceholder`. */
module Expansion {
  import opened Wrappers
  import opened TagPairs
  import opened TagLists
  import opened ChoiceBlocks

  /** Python's `None + 1` when the flow has no placeholder but a branch has records. */
  datatype ExpandError = NoPlaceholder

  /** The inner loop: each branch record goes one position past the previous one. */
  function InsertBranch(flow: TagList, at: int, branch: TagList): TagList
    decreases |branch|
  {
    if branch == [] then flow
    else InsertBranch(InsertAt(flow, at + 1, branch[0]), at + 1, branch[1..])
  }

  /** `index(getPair('choicePlaceholder'))`: the position of the first record
      tagged `choicePlaceholder`, or `None` when there is none. */
  function PlaceholderIndex(base: TagList): (r: Option<nat>)
    ensures r.None? <==> forall i :: 0 <= i < |base| ==> base[i].tag != Placeholder
    ensures r.Some? ==> r.value < |base| && FirstWithTag(base, Placeholder, r.value)
  {
    match GetPair(base, Placeholder)
    case None => None
    case Some(p) =>
      var i :| 0 <= i < |base| && base[i] == p && FirstWithTag(base, Placeholder, i);
      EqualReflexive(p);
      assert Contains(base, p);
      var j := Index(base, p).value;
      assert base[j].tag == p.tag;
      assert j == i;
      Index(base, p)
  }

  /** Inserting one past the previous position places the whole branch as a
      contiguous run right after position `at`. */
  lemma {:induction false} InsertBranchShape(flow: TagList, at: nat, branch: TagList)
    requires at < |flow|
    ensures InsertBranch(flow, at, branch) == flow[..at + 1] + branch + flow[at + 1..]
    decreases |branch|
  {
    if branch == [] {
      assert flow[..at + 1] + flow[at + 1..] == flow;
    } else {
      var flow' := InsertAt(flow, at + 1, branch[0]);
      assert flow' == flow[..at + 1] + [branch[0]] + flow[at + 1..];
      InsertBranchShape(flow', at + 1, branch[1..]);
      assert flow'[..at + 2] == flow[..at + 1] + [branch[0]];
      assert flow'[at + 2..] == flow[at + 1..];
      assert [branch[0]] + branch[1..] == branch;
    }
  }

  /** One test flow: the branch inserted after the placeholder. */
  function ExpandOne(branch: TagList, base: TagList): (r: Result<TagList, ExpandError>)
    ensures r.Failure? <==> PlaceholderIndex(base).None? && branch != []
    ensures PlaceholderIndex(base).None? && branch == [] ==> r == Success(base)
    ensures forall p :: PlaceholderIndex(base) == Some(p) ==>
      r == Success(base[..p + 1] + branch + base[p + 1..])
  {
    match PlaceholderIndex(base)
    case None => if branch == [] then Success(base) else Failure(NoPlaceholder)
    case Some(p) =>
      InsertBranchShape(base, p, branch);
      Success(InsertBranch(base, p, branch))
  }

  /** The loop over the branches, in order. */
  function GenerateTestFlows(branches: seq<TagList>, base: TagList): (r: Result<seq<TagList>, ExpandError>)
    ensures r.Failure? <==> PlaceholderIndex(base).None? && exists i :: 0 <= i < |branches| && branches[i] != []
    ensures r.Success? ==> |r.value| == |branches|
    ensures r.Success? ==> forall i :: 0 <= i < |branches| ==> ExpandOne(branches[i], base) == Success(r.value[i])
  {
    if branches == [] then Success([])
    else
      var first := ExpandOne(branches[0], base);
      var rest := GenerateTestFlows(branches[1..], base);
      assert forall i :: 1 <= i < |branches| ==> branches[i] == branches[1..][i - 1];
      if first.Failure? then Failure(first.error)
      else if rest.Failure? then Failure(rest.error)
      else Success([first.value] + rest.value)
  }

  /** A flow holding a placeholder yields exactly one test flow per branch, the
      i-th being the flow with branch i inserted right after its first
      placeholder; so its length is the flow's plus the branch's. */
  lemma TestFlowsShape(branches: seq<TagList>, base: TagList, p: nat)
    requires p < |base| && FirstWithTag(base, Placeholder, p)
    ensures GenerateTestFlows(branches, base).Success?
    ensures var flows := GenerateTestFlows(branches, base).value;
      && |flows| == |branches|
      && forall i :: 0 <= i < |branches| ==>
        && flows[i] == base[..p + 1] + branches[i] + base[p + 1..]
        && |flows[i]| == |base| + |branches[i]|
  {
    var q := PlaceholderIndex(base).value;
    assert base[q].tag == Placeholder && base[p].tag == Placeholder;
    assert q == p;
  }

  /** Without a placeholder, only branches without records can be expanded, and
      each gives the flow unchanged. */
  lemma TestFlowsWithoutPlaceholder(branches: seq<TagList>, base: TagList)
    requires forall i :: 0 <= i < |base| ==> base[i].tag != Placeholder
    requires forall i :: 0 <= i < |branches| ==> branches[i] == []
    ensures GenerateTestFlows(branches, base).Success?
    ensures var flows := GenerateTestFlows(branches, base).value;
      |flows| == |branches| && forall i :: 0 <= i < |flows| ==> flows[i] == base
  {
  }
}

=== FILE: nesting.dfy ===
/** The nesting depth the suite writer tracks: an open record raises it by one,
    a `/` record lowers it by one, a self-closing record leaves it alone. */
module Nesting {
  import opened TagPairs
  import opened TagLists

  function Delta(p: TagPair): int
  {
    if IsClose(p) then -1 else if SelfClosing(p) then 0 else 1
  }

  /** The depth after the whole list. */
  function Depth(xs: TagList): int
  {
    if xs == [] then 0 else Depth(xs[..|xs| - 1]) + Delta(xs[|xs| - 1])
  }

  /** No prefix of the list goes below depth zero. */
  predicate NeverBelow(xs: TagList)
  {
    xs == [] || (Depth(xs) >= 0 && NeverBelow(xs[..|xs| - 1]))
  }

  /** A list whose prefixes never go below zero, ending at depth `d`. */
  predicate Rising(xs: TagList, d: int)
  {
    Depth(xs) == d && NeverBelow(xs)
  }

  /** Every open record is closed, and no close comes before its opener. */
  predicate Balanced(xs: TagList)
  {
    Rising(xs, 0)
  }

  /** `NeverBelow` says what its name says: every prefix has a depth of at least zero. */
  lemma {:induction false} NeverBelowPrefixes(xs: TagList)
    ensures NeverBelow(xs) <==> forall k :: 0 <= k <= |xs| ==> Depth(xs[..k]) >= 0
  {
    if xs != [] {
      var init := xs[..|xs| - 1];
      NeverBelowPrefixes(init);
      assert xs[..|xs|] == xs;
      assert forall k :: 0 <= k <= |init| ==> init[..k] == xs[..k];
    } else {
      assert xs[..0] == xs;
    }
  }

  lemma {:induction false} DepthAppend(a: TagList, b: TagList)
    ensures Depth(a + b) == Depth(a) + Depth(b)
    decreases |b|
  {
    if b == [] {
      assert a + b == a;
    } else {
      var b' := b[..|b| - 1];
      assert (a + b)[..|a + b| - 1] == a + b';
      DepthAppend(a, b');
    }
  }

  /** A list starting at depth `Depth(a) >= 0` whose own prefixes never dip stays non-negative. */
  lemma {:induction false} NeverBelowAppend(a: TagList, b: TagList)
    requires NeverBelow(a) && Depth(a) >= 0 && NeverBelow(b)
    ensures NeverBelow(a + b)
    decreases |b|
  {
    if b == [] {
      assert a + b == a;
    } else {
      var b' := b[..|b| - 1];
      assert (a + b)[..|a + b| - 1] == a + b';
      DepthAppend(a, b);
      NeverBelowAppend(a, b');
    }
  }

  /** Concatenation adds the end depths and keeps the prefixes non-negative. */
  lemma RisingConcat(a: TagList, b: TagList, d: int, e: int)
    requires Rising(a, d) && d >= 0 && Rising(b, e)
    ensures Rising(a + b, d + e)
  {
    DepthAppend(a, b);
    NeverBelowAppend(a, b);
  }

  lemma BalancedAppend(a: TagList, b: TagList)
    requires Balanced(a) && Balanced(b)
    ensures Balanced(a + b)
  {
    RisingConcat(a, b, 0, 0);
  }

  lemma RisingAppend(a: TagList, b: TagList, d: int)
    requires Rising(a, d) && d >= 0 && Balanced(b)
    ensures Rising(a + b, d)
  {
    RisingConcat(a, b, d, 0);
  }

  /** Balanced records followed by a list ending one level down. */
  lemma BalancedThenRising(a: TagList, b: TagList, d: int)
    requires Balanced(a) && Rising(b, d)
    ensures Rising(a + b, d)
  {
    RisingConcat(a, b, 0, d);
  }

  /** A single record: its own delta, from zero. */
  lemma Single(p: TagPair)
    ensures Depth([p]) == Delta(p)
    ensures Delta(p) >= 0 ==> Rising([p], Delta(p))
  {
    assert [p][..0] == [];
  }

  /** A closer taken from a list `d >= 1` levels down. */
  lemma CloseOne(a: TagList, close: TagPair, d: int)
    requires Rising(a, d) && d >= 1 && Delta(close) == -1
    ensures Rising(a + [close], d - 1)
  {
    assert (a + [close])[..|a|] == a;
    Single(close);
    DepthAppend(a, [close]);
  }

  /** An opener, then balanced records, then a closer: balanced. */
  lemma BalancedWrap(open: TagPair, body: TagList, close: TagPair)
    requires Delta(open) == 1 && Balanced(body) && Delta(close) == -1
    ensures Balanced([open] + body + [close])
  {
    OpenThenBalanced(open, body);
    CloseOne([open] + body, close, 1);
  }

  /** An opener followed by balanced records stays one level down. */
  lemma OpenThenBalanced(open: TagPair, body: TagList)
    requires Delta(open) == 1 && Balanced(body)
    ensures Rising([open] + body, 1)
  {
    Single(open);
    RisingAppend([open], body, 1);
  }

  /** A closer taking a level-one prefix back to zero, followed by balanced records. */
  lemma CloseThenBalanced(a: TagList, close: TagPair, rest: TagList)
    requires Rising(a, 1) && Delta(close) == -1 && Balanced(rest)
    ensures Balanced(a + [close] + rest)
  {
    CloseOne(a, close, 1);
    BalancedAppend(a + [close], rest);
  }

  lemma SelfClosingBalanced(p: TagPair)
    requires Delta(p) == 0
    ensures Balanced([p])
  {
    Single(p);
  }

  lemma EmptyBalanced()
    ensures Balanced([])
  {
  }

  /** The records of a run of blocks, in order. */
  function Flatten(rs: seq<TagList>): TagList
  {
    if rs == [] then [] else rs[0] + Flatten(rs[1..])
  }

  lemma {:induction false} FlattenAppend(a: seq<TagList>, b: seq<TagList>)
    ensures Flatten(a + b) == Flatten(a) + Flatten(b)
  {
    if a != [] {
      assert (a + b)[1..] == a[1..] + b;
      FlattenAppend(a[1..], b);
    } else {
      assert a + b == b;
    }
  }

  /** Balanced blocks one after another are balanced. */
  lemma {:induction false} FlattenBalanced(rs: seq<TagList>)
    requires forall i :: 0 <= i < |rs| ==> Balanced(rs[i])
    ensures Balanced(Flatten(rs))
    decreases |rs|
  {
    if rs != [] {
      var rest := rs[1..];
      assert forall i :: 0 <= i < |rest| ==> rest[i] == rs[i + 1];
      FlattenBalanced(rest);
      BalancedAppend(rs[0], Flatten(rest));
    }
  }

  /** A block that closes the level left open: a closer, then balanced records. */
  predicate Closing(xs: TagList)
  {
    |xs| >= 1 && Delta(xs[0]) == -1 && Balanced(xs[1..])
  }

  /** A closing block takes a one-level-down prefix back to zero. */
  lemma ClosesLevel(a: TagList, r: TagList)
    requires Rising(a, 1) && Closing(r)
    ensures Balanced(a + r)
  {
    assert r == [r[0]] + r[1..];
    CloseThenBalanced(a, r[0], r[1..]);
    assert a + [r[0]] + r[1..] == a + r;
  }

  /** Balanced blocks and then a closing one take a one-level-down prefix back to zero. */
  lemma {:induction false} ClosingRunBalanced(a: TagList, rs: seq<TagList>)
    requires Rising(a, 1) && rs != []
    requires forall i :: 0 <= i < |rs| - 1 ==> Balanced(rs[i])
    requires Closing(rs[|rs| - 1])
    ensures Balanced(a + Flatten(rs))
    decreases |rs|
  {
    var r := rs[0];
    var rest := rs[1..];
    assert a + Flatten(rs) == (a + r) + Flatten(rest);
    if rest == [] {
      assert Flatten(rest) == [] && a + r + [] == a + r;
      ClosesLevel(a, r);
    } else {
      assert forall i :: 0 <= i < |rest| - 1 ==> Balanced(rest[i]) by {
        forall i | 0 <= i < |rest| - 1 ensures Balanced(rest[i]) {
          assert rest[i] == rs[i + 1];
        }
      }
      assert rest[|rest| - 1] == rs[|rs| - 1];
      RisingAppend(a, r, 1);
      ClosingRunBalanced(a + r, rest);
    }
  }

  /** An opening block, balanced blocks, then a closing block. */
  predicate OpenCloseRun(rs: seq<TagList>)
  {
    && |rs| >= 2 && Rising(rs[0], 1)
    && (forall i :: 0 < i < |rs| - 1 ==> Balanced(rs[i]))
    && Closing(rs[|rs| - 1])
  }

  lemma OpenCloseRunIntro(rs: seq<TagList>, n: nat)
    requires n >= 1 && |rs| == n + 1
    requires Rising(rs[0], 1) && Closing(rs[n])
    requires forall i :: 0 < i < n ==> Balanced(rs[i])
    ensures OpenCloseRun(rs)
  {
  }

  /** Such a run of blocks is balanced as a whole. */
  lemma OpenCloseRunBalanced(rs: seq<TagList>)
    requires OpenCloseRun(rs)
    ensures Balanced(Flatten(rs))
  {
    var tail := rs[1..];
    assert forall i :: 0 <= i < |tail| - 1 ==> tail[i] == rs[i + 1];
    ClosingRunBalanced(rs[0], tail);
  }
}

=== FILE: pipeline.dfy ===
/** `createMUnitTests`: the MUnit record list for a whole Mule file. The header
    and Spring records come first, then the tests of every flow in file order,
    then the closing `/mule`. */
module Pipeline {
  import opened Wrappers
  import opened Strings
  import opened Attributes
  import opened TagPairs
  import opened TagLists
  import opened Segments
  import opened ChoiceBlocks
  import opened Expansion
  import opened Conversion
  import opened Nesting

  // ---------------------------------------------------------------------------
  // `_generateMUnitDependencies`.

  const MuleSchema: string := "http://www.mulesoft.org/schema/mule/"
  const SpringSchema: string := "http://www.springframework.org/schema/beans"
  /** Between the lines of `xsi:schemaLocation`: a space, a line break, four spaces. */
  const Wrap: string := " \n    "

  /** `xsi:schemaLocation`: the namespace and schema file of mock, munit, Spring
      beans and core, over five lines. */
  const SchemaLocation: string :=
    MuleSchema + "mock" + Wrap
    + MuleSchema + "mock/current/mule-mock.xsd " + MuleSchema + "munit" + Wrap
    + MuleSchema + "munit/current/mule-munit.xsd " + SpringSchema + Wrap
    + SpringSchema + "/spring-beans-current.xsd " + MuleSchema + "core" + Wrap
    + MuleSchema + "core/current/mule.xsd"

  /** The attributes of the `mule` record, in insertion order. Some keys begin
      with a line break and a tab so that the written element wraps. */
  const MuleAttributes: seq<Entry> := [
    ("closeAtEnd", Flag(false)),
    ("xmlns", Text(MuleSchema + "core")),
    ("\n\txmlns:mock", Text(MuleSchema + "mock")),
    ("xmlns:munit", Text(MuleSchema + "munit")),
    ("\n\txmlns:doc", Text(MuleSchema + "documentation")),
    ("xmlns:spring", Text(SpringSchema)),
    ("\n\txmlns:core", Text(MuleSchema + "core")),
    ("version", Text("EE-3.7.3")),
    ("\n\txmlns:xsi", Text("http://www.w3.org/2001/XMLSchema-instance")),
    ("\n\txsi:schemaLocation", Text(SchemaLocation))]

  /** The keys of the `mule` record differ pairwise. */
  lemma MuleKeysDistinct()
    ensures UniqueKeys(MuleAttributes)
  {
    var a := MuleAttributes;
    // Keys of different lengths differ; the pairs of equal length differ in one character.
    assert forall i :: 0 <= i < |a| ==> |a[i].0| == [10, 5, 12, 11, 11, 12, 12, 7, 11, 20][i];
    assert a[2].0[4] != a[5].0[4] && a[2].0[8] != a[6].0[8] && a[5].0[0] != a[6].0[0];
    assert a[3].0[0] != a[4].0[0] && a[3].0[0] != a[8].0[0] && a[4].0[8] != a[8].0[8];
  }

  /** `munit:config`: a self-closing record naming the configuration. */
  function MunitConfig(): (r: TagPair)
    ensures r.tag == "munit:config" && SelfClosing(r)
    ensures GetAttribute(r, "name") == Some(Text("munit"))
  {
    var a := [("closeAtEnd", Flag(true)), ("name", Text("munit")), ("doc:name", Text("Munit Configuration"))];
    DistinctKeys3(a);
    TagPair("munit:config", a)
  }

  /** `spring:import` of the tested file from the class path. */
  function SpringImport(fileName: string): (r: TagPair)
    ensures r.tag == "spring:import" && SelfClosing(r)
    ensures GetAttribute(r, "resource") == Some(Text("classpath:" + fileName))
  {
    var a := [("closeAtEnd", Flag(true)), ("resource", Text("classpath:" + fileName))];
    DistinctKeys2(a);
    TagPair("spring:import", a)
  }

  /** The test of `_extractSpringInternals`: a tag mentioning `spring` other than
      the `spring:beans` boundaries, which the generator writes itself. */
  predicate IsSpringInternal(tag: string)
  {
    HasSubstring(tag, "spring") && tag != "spring:beans" && tag != "/spring:beans"
  }

  /** `_extractSpringInternals`: the Spring records of the Mule file, in file order. */
  function SpringInternals(xs: TagList): (r: TagList)
    ensures |r| <= |xs|
    ensures forall p :: p in r <==> p in xs && IsSpringInternal(p.tag)
  {
    if xs == [] then []
    else
      var rest := SpringInternals(xs[1..]);
      assert forall p :: p in xs <==> p == xs[0] || p in xs[1..];
      if IsSpringInternal(xs[0].tag) then [xs[0]] + rest else rest
  }

  /** The filter distributes over concatenation, so every Spring record keeps its
      place relative to the others. */
  lemma {:induction false} SpringInternalsAppend(xs: TagList, ys: TagList)
    ensures SpringInternals(xs + ys) == SpringInternals(xs) + SpringInternals(ys)
  {
    if xs == [] {
      assert xs + ys == ys;
    } else {
      assert (xs + ys)[1..] == xs[1..] + ys;
      SpringInternalsAppend(xs[1..], ys);
    }
  }

  /** The filter keeps a list exactly when all of its records are Spring records. */
  lemma {:induction false} SpringInternalsKeepsAll(xs: TagList)
    ensures SpringInternals(xs) == xs <==> forall i :: 0 <= i < |xs| ==> IsSpringInternal(xs[i].tag)
  {
    if xs != [] {
      SpringInternalsKeepsAll(xs[1..]);
      assert forall i :: 1 <= i < |xs| ==> xs[1..][i - 1] == xs[i];
    }
  }

  /** Filtering twice is filtering once. */
  lemma SpringInternalsIdempotent(xs: TagList)
    ensures SpringInternals(SpringInternals(xs)) == SpringInternals(xs)
  {
    var r := SpringInternals(xs);
    assert forall i :: 0 <= i < |r| ==> r[i] in r;
    SpringInternalsKeepsAll(r);
  }

  /** `mule` opens a level; `munit:config` and `spring:import` close themselves. */
  predicate HeaderParts(mule: TagPair, config: TagPair, imp: TagPair)
  {
    Delta(mule) == 1 && Delta(config) == 0 && Delta(imp) == 0
  }

  /** The records `_generateMUnitDependencies` writes before the Spring beans
      of the file: `mule`, which stays open until the final `/mule`, the
      self-closing `munit:config`, `spring:beans`, and the import of the file. */
  function HeaderRecords(fileName: string): (r: TagList)
    ensures |r| == 4 && r[0].tag == "mule" && |r[0].attrs| == 10
    ensures GetAttribute(r[0], "version") == Some(Text("EE-3.7.3"))
    ensures HeaderParts(r[0], r[1], r[3])
    ensures r[1] == MunitConfig() && r[2] == Plain("spring:beans") && r[3] == SpringImport(fileName)
  {
    MuleKeysDistinct();
    var a: Attrs := MuleAttributes;
    [TagPair("mule", a), MunitConfig(), Plain("spring:beans"), SpringImport(fileName)]
  }

  /** `_generateMUnitDependencies`: the header records, the Spring records of
      the file, and `/spring:beans`. */
  function Dependencies(fileName: string, xs: TagList): TagList
  {
    HeaderRecords(fileName) + SpringInternals(xs) + [Plain("/spring:beans")]
  }

  /** The shape of the dependencies: an opener, a self-closing record, the
      `spring:beans` wrapper around a self-closing record and balanced records. */
  lemma {:induction false} WrappedBeansRising(mule: TagPair, config: TagPair, imp: TagPair, internals: TagList)
    requires HeaderParts(mule, config, imp) && Balanced(internals)
    ensures Rising([mule, config, Plain("spring:beans"), imp] + internals + [Plain("/spring:beans")], 1)
  {
    PlainOpens("spring:beans");
    PlainCloses("/spring:beans");
    Single(mule);
    SelfClosingBalanced(config);
    SelfClosingBalanced(imp);
    BalancedAppend([imp], internals);
    OpenThenBalanced(Plain("spring:beans"), [imp] + internals);
    var beans := [Plain("spring:beans")] + ([imp] + internals);
    CloseOne(beans, Plain("/spring:beans"), 1);
    RisingAppend([mule], [config], 1);
    RisingAppend([mule] + [config], beans + [Plain("/spring:beans")], 1);
    assert [mule, config, Plain("spring:beans"), imp] + internals + [Plain("/spring:beans")]
      == [mule] + [config] + (beans + [Plain("/spring:beans")]);
  }

  /** When the file's Spring records nest properly, the dependencies leave only
      `mule` open: one level, closed by the final `/mule`. */
  lemma DependenciesRising(fileName: string, xs: TagList)
    requires Balanced(SpringInternals(xs))
    ensures Rising(Dependencies(fileName, xs), 1)
  {
    var h := HeaderRecords(fileName);
    WrappedBeansRising(h[0], h[1], h[3], SpringInternals(xs));
    assert Dependencies(fileName, xs) == [h[0], h[1], h[2], h[3]] + SpringInternals(xs) + [Plain("/spring:beans")];
  }

  // ---------------------------------------------------------------------------
  // The tests of one flow.

  /** What stops the generator. */
  datatype PipelineError =
    | ExpandFailed(expand: ExpandError)   // the TypeError of `_generateMUnitTestFlows`
    | ConvertFailed(convert: ConvertError)

  /** `_convertMuletoMUnit` of one test flow, its error lifted. */
  function ConvertTest(flow: TagList): (r: Result<TagList, PipelineError>)
    ensures r.Success? <==> ConvertFlow(flow).Success?
    ensures r.Success? ==> r.value == ConvertFlow(flow).value
    ensures r.Failure? ==> r.error == ConvertFailed(ConvertFlow(flow).error)
  {
    match ConvertFlow(flow)
    case Success(t) => Success(t)
    case Failure(e) => Failure(ConvertFailed(e))
  }

  /** The records of `f` applied to each list in turn, concatenated; the first
      failure stops the walk. */
  function ConcatAll(xs: seq<TagList>, f: TagList -> Result<TagList, PipelineError>): Result<TagList, PipelineError>
  {
    if xs == [] then Success([])
    else
      var first :- f(xs[0]);
      var rest :- ConcatAll(xs[1..], f);
      Success(first + rest)
  }

  /** The walk succeeds exactly when every step does. */
  lemma {:induction false} ConcatAllSucceeds(xs: seq<TagList>, f: TagList -> Result<TagList, PipelineError>)
    ensures ConcatAll(xs, f).Success? <==> forall i :: 0 <= i < |xs| ==> f(xs[i]).Success?
  {
    if xs != [] {
      ConcatAllSucceeds(xs[1..], f);
      assert forall i :: 1 <= i < |xs| ==> xs[1..][i - 1] == xs[i];
    }
  }

  /** A failure is that of the first failing step. */
  lemma {:induction false} ConcatAllFirstError(xs: seq<TagList>, f: TagList -> Result<TagList, PipelineError>)
    ensures ConcatAll(xs, f).Failure? ==>
      exists i :: 0 <= i < |xs| && f(xs[i]) == Failure(ConcatAll(xs, f).error)
        && forall j :: 0 <= j < i ==> f(xs[j]).Success?
  {
    if xs != [] && f(xs[0]).Success? {
      ConcatAllFirstError(xs[1..], f);
      if ConcatAll(xs, f).Failure? {
        var i :| 0 <= i < |xs[1..]| && f(xs[1..][i]) == Failure(ConcatAll(xs, f).error)
          && forall j :: 0 <= j < i ==> f(xs[1..][j]).Success?;
        assert xs[i + 1] == xs[1..][i];
        assert forall j :: 1 <= j < i + 1 ==> xs[j] == xs[1..][j - 1];
      }
    }
  }

  /** Balanced steps concatenate to balanced records. */
  lemma {:induction false} ConcatAllBalanced(xs: seq<TagList>, f: TagList -> Result<TagList, PipelineError>)
    requires forall i :: 0 <= i < |xs| && f(xs[i]).Success? ==> Balanced(f(xs[i]).value)
    ensures ConcatAll(xs, f).Success? ==> Balanced(ConcatAll(xs, f).value)
  {
    if xs != [] && f(xs[0]).Success? {
      assert forall i :: 1 <= i < |xs| ==> xs[1..][i - 1] == xs[i];
      ConcatAllBalanced(xs[1..], f);
      var rest := ConcatAll(xs[1..], f);
      if rest.Success? {
        BalancedAppend(f(xs[0]).value, rest.value);
      }
    }
  }

  /** The body of the loop of `createMUnitTests` for one flow: after the choice
      blocks are collapsed, a flow holding a placeholder becomes one test per
      branch, any other flow one test. */
  function FlowTests(flow: TagList): Result<TagList, PipelineError>
  {
    var ops := ExtractChoiceOperations(flow);
    var base := CollapseChoiceBlocks(flow);
    if ContainsTag(base, Placeholder) then
      match GenerateTestFlows(ops, base)
      case Failure(e) => Failure(ExpandFailed(e))
      case Success(tests) => ConcatAll(tests, ConvertTest)
    else ConvertTest(base)
  }

  /** A flow without choice blocks is converted once, as it is. */
  lemma FlowTestsWithoutChoice(flow: TagList)
    requires NoChoiceTags(flow) && !ContainsTag(flow, Placeholder)
    ensures FlowTests(flow) == ConvertTest(flow)
  {
    CollapseWithoutChoice(flow);
  }

  /** A flow whose collapsed form first holds the placeholder at `p` gives, in
      order, the conversion of the collapsed flow with each branch inserted right
      after `p`: one test per branch. */
  lemma FlowTestsPerBranch(flow: TagList, p: nat)
    requires var base := CollapseChoiceBlocks(flow); p < |base| && FirstWithTag(base, Placeholder, p)
    ensures var base := CollapseChoiceBlocks(flow);
      var ops := ExtractChoiceOperations(flow);
      exists tests: seq<TagList> ::
        && |tests| == |ops|
        && (forall i :: 0 <= i < |tests| ==> tests[i] == base[..p + 1] + ops[i] + base[p + 1..])
        && FlowTests(flow) == ConcatAll(tests, ConvertTest)
  {
    var base := CollapseChoiceBlocks(flow);
    var ops := ExtractChoiceOperations(flow);
    TestFlowsShape(ops, base, p);
    ContainsTagIffSome(base, Placeholder);
    var tests := GenerateTestFlows(ops, base).value;
    assert FlowTests(flow) == ConcatAll(tests, ConvertTest);
  }

  /** The TypeError of `_generateMUnitTestFlows` cannot stop `createMUnitTests`:
      it only expands flows that hold a placeholder. */
  lemma FlowTestsOnlyConversionFails(flow: TagList)
    ensures FlowTests(flow).Failure? ==> FlowTests(flow).error.ConvertFailed?
  {
    var base := CollapseChoiceBlocks(flow);
    var ops := ExtractChoiceOperations(flow);
    if ContainsTag(base, Placeholder) {
      ContainsTagIffGetPair(base, Placeholder);
      var i :| 0 <= i < |base| && base[i] == GetPair(base, Placeholder).value && FirstWithTag(base, Placeholder, i);
      TestFlowsShape(ops, base, i);
      var tests := GenerateTestFlows(ops, base).value;
      ConcatAllFirstError(tests, ConvertTest);
    }
  }

  /** A flow without choice blocks that is a single flow or sub-flow converts to balanced records. */
  lemma FlowTestsBalancedWithoutChoice(flow: TagList)
    requires NoChoiceTags(flow) && !ContainsTag(flow, Placeholder) && (SingleFlow(flow) || SingleSubFlow(flow))
    ensures FlowTests(flow).Success? ==> Balanced(FlowTests(flow).value)
  {
    FlowTestsWithoutChoice(flow);
    CollapseWithoutChoice(flow);
    if SingleFlow(flow) {
      ConvertFlowBalanced(flow);
    } else {
      ConvertSubFlowBalanced(flow);
    }
  }

  /** A flow with a choice block whose test flows are each, once collapsed, a
      single flow or sub-flow converts to balanced records. */
  lemma FlowTestsBalancedWithChoice(flow: TagList, p: nat)
    requires var base := CollapseChoiceBlocks(flow); p < |base| && FirstWithTag(base, Placeholder, p)
    requires var base := CollapseChoiceBlocks(flow);
      var ops := ExtractChoiceOperations(flow);
      forall i :: 0 <= i < |ops| ==>
        var t := CollapseChoiceBlocks(base[..p + 1] + ops[i] + base[p + 1..]);
        SingleFlow(t) || SingleSubFlow(t)
    ensures FlowTests(flow).Success? ==> Balanced(FlowTests(flow).value)
  {
    FlowTestsPerBranch(flow, p);
    var base := CollapseChoiceBlocks(flow);
    var ops := ExtractChoiceOperations(flow);
    var tests: seq<TagList> :| && |tests| == |ops|
      && (forall i :: 0 <= i < |tests| ==> tests[i] == base[..p + 1] + ops[i] + base[p + 1..])
      && FlowTests(flow) == ConcatAll(tests, ConvertTest);
    forall i | 0 <= i < |tests| && ConvertTest(tests[i]).Success?
      ensures Balanced(ConvertTest(tests[i]).value)
    {
      if SingleFlow(CollapseChoiceBlocks(tests[i])) {
        ConvertFlowBalanced(tests[i]);
      } else {
        ConvertSubFlowBalanced(tests[i]);
      }
    }
    ConcatAllBalanced(tests, ConvertTest);
  }

  // ---------------------------------------------------------------------------
  // The whole file.

  /** The list `createMUnitTests` builds around the tests: the dependencies
      first, `/mule` last. */
  function Frame(deps: TagList, body: TagList): (r: TagList)
    ensures |r| == |deps| + |body| + 1
    ensures r[..|deps|] == deps && r[|deps|..|r| - 1] == body && r[|r| - 1] == Plain("/mule")
  {
    deps + body + [Plain("/mule")]
  }

  /** `createMUnitTests`: the dependencies, the tests of every flow that
      `_isolateFlows` finds, and `/mule`. */
  function CreateTests(fileName: string, xs: TagList): Result<TagList, PipelineError>
  {
    var body :- ConcatAll(IsolateFlows(xs), FlowTests);
    Success(Frame(Dependencies(fileName, xs), body))
  }

  /** The generator succeeds exactly when the tests of every flow do. */
  lemma CreateTestsSucceeds(fileName: string, xs: TagList)
    ensures CreateTests(fileName, xs).Success? <==>
      forall i :: 0 <= i < |IsolateFlows(xs)| ==> FlowTests(IsolateFlows(xs)[i]).Success?
  {
    ConcatAllSucceeds(IsolateFlows(xs), FlowTests);
  }

  /** The generator fails only with a conversion error, that of the first flow
      whose tests fail. */
  lemma CreateTestsFirstError(fileName: string, xs: TagList)
    ensures var r := CreateTests(fileName, xs);
      r.Failure? ==> && r.error.ConvertFailed?
                     && exists i :: 0 <= i < |IsolateFlows(xs)| && FlowTests(IsolateFlows(xs)[i]) == Failure(r.error)
  {
    var flows := IsolateFlows(xs);
    var body := ConcatAll(flows, FlowTests);
    ConcatAllFirstError(flows, FlowTests);
    if body.Failure? {
      var i :| 0 <= i < |flows| && FlowTests(flows[i]) == Failure(body.error)
        && forall j :: 0 <= j < i ==> FlowTests(flows[j]).Success?;
      FlowTestsOnlyConversionFails(flows[i]);
    }
  }

  /** On success the list starts with the dependencies, holds the tests of the
      flows in order, and ends with `/mule`. */
  lemma CreateTestsFrame(fileName: string, xs: TagList)
    ensures var r := CreateTests(fileName, xs);
      var body := ConcatAll(IsolateFlows(xs), FlowTests);
      r.Success? ==> body.Success? && r.value == Frame(Dependencies(fileName, xs), body.value)
  {
  }

  /** When the file's Spring records nest properly and every flow's tests are
      balanced, the whole list is: each open record is closed, `/mule` last. */
  lemma CreateTestsBalanced(fileName: string, xs: TagList)
    requires Balanced(SpringInternals(xs))
    requires forall i :: 0 <= i < |IsolateFlows(xs)| && FlowTests(IsolateFlows(xs)[i]).Success? ==>
      Balanced(FlowTests(IsolateFlows(xs)[i]).value)
    ensures CreateTests(fileName, xs).Success? ==> Balanced(CreateTests(fileName, xs).value)
  {
    var flows := IsolateFlows(xs);
    ConcatAllBalanced(flows, FlowTests);
    CreateTestsFrame(fileName, xs);
    var body := ConcatAll(flows, FlowTests);
    if body.Success? {
      FrameBalanced(fileName, xs, body.value);
    }
  }

  /** The dependencies, balanced tests and `/mule` nest properly. */
  lemma FrameBalanced(fileName: string, xs: TagList, body: TagList)
    requires Balanced(SpringInternals(xs)) && Balanced(body)
    ensures Balanced(Frame(Dependencies(fileName, xs), body))
  {
    var deps := Dependencies(fileName, xs);
    DependenciesRising(fileName, xs);
    RisingAppend(deps, body, 1);
    PlainCloses("/mule");
    CloseOne(deps + body, Plain("/mule"), 1);
  }
}

=== FILE: segments.dfy ===
/** Flow segmentation: `_isolateFlows` cuts the parsed record stream into flows,
    `_extractChoiceOperations` collects the body of every `when`/`otherwise` branch. */
module Segments {
  import opened Wrappers
  import opened TagPairs
  import opened TagLists
  import opened Sequences

  /** The two kinds of block the segmenter looks for. */
  datatype Block = FlowBlock | ClauseBlock

  predicate Opens(b: Block, p: TagPair)
  {
    match b
    case FlowBlock => p.tag == "flow" || p.tag == "sub-flow"
    case ClauseBlock => p.tag == "when" || p.tag == "otherwise"
  }

  predicate Closes(b: Block, p: TagPair)
  {
    match b
    case FlowBlock => p.tag == "/flow" || p.tag == "/sub-flow"
    case ClauseBlock => p.tag == "/when" || p.tag == "/otherwise"
  }

  /** A record the segmenter passes over for block `b`. */
  predicate Neutral(b: Block, p: TagPair)
  {
    !Opens(b, p) && !Closes(b, p)
  }

  /** Number of records closing a block of kind `b`. */
  function CountCloses(xs: TagList, b: Block): nat
  {
    if xs == [] then 0 else (if Closes(b, xs[0]) then 1 else 0) + CountCloses(xs[1..], b)
  }

  // ---------------------------------------------------------------------------
  // The walks as the source writes them.

  /** The loop of `_isolateFlows` with its state: `inFlow` and the current `flowList`. */
  function IsolateWalk(xs: TagList, inFlow: bool, acc: TagList): seq<TagList>
  {
    if xs == [] then []
    else
      var p := xs[0];
      if Opens(FlowBlock, p) then IsolateWalk(xs[1..], true, acc + [p])
      else if Closes(FlowBlock, p) then [acc + [p]] + IsolateWalk(xs[1..], false, [])
      else if inFlow then IsolateWalk(xs[1..], true, acc + [p])
      else IsolateWalk(xs[1..], false, acc)
  }

  /** `_isolateFlows`: one record list per flow or sub-flow. */
  function IsolateFlows(xs: TagList): seq<TagList>
  {
    IsolateWalk(xs, false, [])
  }

  /** The loop of `_extractChoiceOperations` with its state: `inChoiceClause` and
      the current `caseOperations`. */
  function ExtractWalk(xs: TagList, inClause: bool, acc: TagList): seq<TagList>
  {
    if xs == [] then []
    else
      var p := xs[0];
      if Opens(ClauseBlock, p) then ExtractWalk(xs[1..], true, acc)
      else if Closes(ClauseBlock, p) then [acc] + ExtractWalk(xs[1..], false, [])
      else if inClause then ExtractWalk(xs[1..], true, acc + [p])
      else ExtractWalk(xs[1..], false, acc)
  }

  /** `_extractChoiceOperations`: the records of each branch, in source order. */
  function ExtractChoiceOperations(flow: TagList): seq<TagList>
  {
    ExtractWalk(flow, false, [])
  }

  // ---------------------------------------------------------------------------
  // Reference definitions by position.

  /** The first record closing a block of kind `b`. */
  function FirstClose(xs: TagList, b: Block): (r: Option<nat>)
    ensures r.Some? ==> r.value < |xs| && Closes(b, xs[r.value])
    ensures r.Some? ==> forall j :: 0 <= j < r.value ==> !Closes(b, xs[j])
    ensures r.None? ==> forall j :: 0 <= j < |xs| ==> !Closes(b, xs[j])
  {
    if xs == [] then None
    else if Closes(b, xs[0]) then Some(0)
    else
      var rest := FirstClose(xs[1..], b);
      assert forall j :: 1 <= j < |xs| ==> xs[j] == xs[1..][j - 1];
      if rest.None? then None else Some(rest.value + 1)
  }

  /** Where the block closed at `c` starts: the first opener before `c`, or `c`
      itself when there is none. */
  function StartBefore(xs: TagList, b: Block, c: nat): (s: nat)
    requires c < |xs|
    ensures s <= c
    ensures forall j :: 0 <= j < s ==> !Opens(b, xs[j])
    ensures s < c ==> Opens(b, xs[s])
  {
    if c == 0 || Opens(b, xs[0]) then 0
    else
      var s := StartBefore(xs[1..], b, c - 1);
      assert forall j :: 1 <= j < |xs| ==> xs[j] == xs[1..][j - 1];
      s + 1
  }

  /** The records of a slice that are not clause openers. */
  function DropOpeners(xs: TagList): (r: TagList)
    ensures |r| <= |xs|
    ensures forall i :: 0 <= i < |r| ==> !Opens(ClauseBlock, r[i])
  {
    if xs == [] then []
    else if Opens(ClauseBlock, xs[0]) then DropOpeners(xs[1..])
    else [xs[0]] + DropOpeners(xs[1..])
  }

  /** Flows by position: for each closer, the slice from the first opener after
      the previous closer up to and including this closer. */
  function FlowsByPosition(xs: TagList): seq<TagList>
    decreases |xs|
  {
    var fc := FirstClose(xs, FlowBlock);
    if fc.None? then []
    else [xs[StartBefore(xs, FlowBlock, fc.value)..fc.value + 1]] + FlowsByPosition(xs[fc.value + 1..])
  }

  lemma FlowsByPositionStep(xs: TagList)
    requires FirstClose(xs, FlowBlock).Some?
    ensures var c := FirstClose(xs, FlowBlock).value;
      FlowsByPosition(xs) == [xs[StartBefore(xs, FlowBlock, c)..c + 1]] + FlowsByPosition(xs[c + 1..])
  {
  }

  /** Branches by position: for each clause closer, the non-opener records from the
      first opener after the previous closer up to (not including) this closer. */
  function BranchesByPosition(xs: TagList): seq<TagList>
    decreases |xs|
  {
    match FirstClose(xs, ClauseBlock)
    case None => []
    case Some(c) => [DropOpeners(xs[StartBefore(xs, ClauseBlock, c)..c])] + BranchesByPosition(xs[c + 1..])
  }

  // ---------------------------------------------------------------------------
  // The walks agree with the positional definitions.

  lemma {:induction false} IsolateWalkNoClose(xs: TagList, inFlow: bool, acc: TagList)
    requires FirstClose(xs, FlowBlock).None?
    ensures IsolateWalk(xs, inFlow, acc) == []
  {
    if xs != [] {
      assert !Closes(FlowBlock, xs[0]);
      assert FirstClose(xs[1..], FlowBlock).None?;
      IsolateWalkNoClose(xs[1..], true, acc + [xs[0]]);
      IsolateWalkNoClose(xs[1..], false, acc);
    }
  }

  /** Inside a flow: everything up to and including the next closer joins the flow. */
  lemma {:induction false} IsolateWalkInFlow(xs: TagList, acc: TagList, c: nat)
    requires FirstClose(xs, FlowBlock) == Some(c)
    ensures IsolateWalk(xs, true, acc) == [acc + xs[..c + 1]] + IsolateWalk(xs[c + 1..], false, [])
  {
    var p := xs[0];
    var tail := xs[1..];
    if c == 0 {
      assert !Opens(FlowBlock, p);
      assert xs[..1] == [p];
    } else {
      assert FirstClose(tail, FlowBlock) == Some(c - 1);
      IsolateWalkInFlow(tail, acc + [p], c - 1);
      assert acc + [p] + tail[..c] == acc + xs[..c + 1];
      assert tail[c..] == xs[c + 1..];
    }
  }

  /** Outside a flow, at a closer: a flow made of the closer alone. */
  lemma IsolateWalkIdleAtClose(xs: TagList)
    requires FirstClose(xs, FlowBlock) == Some(0)
    ensures IsolateWalk(xs, false, []) ==
      [xs[StartBefore(xs, FlowBlock, 0)..1]] + IsolateWalk(xs[1..], false, [])
  {
    var p := xs[0];
    assert !Opens(FlowBlock, p);
    assert xs[0..1] == [p];
    var flow: TagList := [] + [p];
    assert flow == xs[0..1];
    assert IsolateWalk(xs, false, []) == [flow] + IsolateWalk(xs[1..], false, []);
  }

  /** Outside a flow, at an opener: the flow runs from here to the closer. */
  lemma IsolateWalkIdleAtOpen(xs: TagList, c: nat)
    requires FirstClose(xs, FlowBlock) == Some(c) && c > 0 && Opens(FlowBlock, xs[0])
    ensures IsolateWalk(xs, false, []) ==
      [xs[StartBefore(xs, FlowBlock, c)..c + 1]] + IsolateWalk(xs[c + 1..], false, [])
  {
    var p := xs[0];
    var tail := xs[1..];
    var none: TagList := [];
    assert none + [p] == [p];
    assert IsolateWalk(xs, false, []) == IsolateWalk(tail, true, [p]);
    assert StartBefore(xs, FlowBlock, c) == 0;
    assert FirstClose(tail, FlowBlock) == Some(c - 1);
    IsolateWalkInFlow(tail, [p], c - 1);
    assert xs[0..c + 1] == [p] + tail[..c];
    assert tail[c..] == xs[c + 1..];
  }

  /** Outside a flow: records before the first opener are skipped. */
  lemma {:induction false} IsolateWalkIdle(xs: TagList, c: nat)
    requires FirstClose(xs, FlowBlock) == Some(c)
    ensures IsolateWalk(xs, false, []) ==
      [xs[StartBefore(xs, FlowBlock, c)..c + 1]] + IsolateWalk(xs[c + 1..], false, [])
  {
    if c == 0 {
      IsolateWalkIdleAtClose(xs);
    } else if Opens(FlowBlock, xs[0]) {
      IsolateWalkIdleAtOpen(xs, c);
    } else {
      var tail := xs[1..];
      assert FirstClose(tail, FlowBlock) == Some(c - 1);
      IsolateWalkIdle(tail, c - 1);
      var s := StartBefore(tail, FlowBlock, c - 1);
      assert StartBefore(xs, FlowBlock, c) == s + 1;
      assert tail[s..c] == xs[s + 1..c + 1];
      assert tail[c..] == xs[c + 1..];
    }
  }

  /** `_isolateFlows` yields exactly the flows by position. */
  lemma {:induction false} IsolateFlowsByPosition(xs: TagList)
    ensures IsolateFlows(xs) == FlowsByPosition(xs)
    decreases |xs|
  {
    var first := FirstClose(xs, FlowBlock);
    if first.Some? {
      var c := first.value;
      IsolateWalkIdle(xs, c);
      IsolateFlowsByPosition(xs[c + 1..]);
    } else {
      IsolateWalkNoClose(xs, false, []);
    }
  }

  lemma {:induction false} ExtractWalkNoClose(xs: TagList, inClause: bool, acc: TagList)
    requires FirstClose(xs, ClauseBlock).None?
    ensures ExtractWalk(xs, inClause, acc) == []
  {
    if xs != [] {
      assert !Closes(ClauseBlock, xs[0]);
      assert FirstClose(xs[1..], ClauseBlock).None?;
      ExtractWalkNoClose(xs[1..], true, acc);
      ExtractWalkNoClose(xs[1..], true, acc + [xs[0]]);
      ExtractWalkNoClose(xs[1..], false, acc);
    }
  }

  /** Inside a branch: every non-opener up to the next closer joins the branch. */
  lemma {:induction false} ExtractWalkInClause(xs: TagList, acc: TagList, c: nat)
    requires FirstClose(xs, ClauseBlock) == Some(c)
    ensures ExtractWalk(xs, true, acc) == [acc + DropOpeners(xs[..c])] + ExtractWalk(xs[c + 1..], false, [])
  {
    var p := xs[0];
    var tail := xs[1..];
    if c == 0 {
      assert !Opens(ClauseBlock, p);
      assert xs[..0] == [];
      assert DropOpeners(xs[..0]) == [];
      assert ExtractWalk(xs, true, acc) == [acc] + ExtractWalk(tail, false, []);
      assert acc + DropOpeners(xs[..c]) == acc;
      assert xs[c + 1..] == tail;
    } else {
      assert FirstClose(tail, ClauseBlock) == Some(c - 1);
      assert xs[..c] == [p] + tail[..c - 1];
      assert tail[c - 1 + 1..] == xs[c + 1..];
      if Opens(ClauseBlock, p) {
        ExtractWalkInClause(tail, acc, c - 1);
        assert DropOpeners(xs[..c]) == DropOpeners(tail[..c - 1]);
      } else {
        ExtractWalkInClause(tail, acc + [p], c - 1);
        var front := xs[..c];
        assert front[0] == p && front[1..] == tail[..c - 1];
        assert DropOpeners(front) == [p] + DropOpeners(tail[..c - 1]);
        assert acc + [p] + DropOpeners(tail[..c - 1]) == acc + DropOpeners(front);
      }
    }
  }

  /** Outside a branch, at an opener: the branch runs from here to the closer. */
  lemma ExtractWalkIdleAtOpen(xs: TagList, c: nat)
    requires FirstClose(xs, ClauseBlock) == Some(c) && c > 0 && Opens(ClauseBlock, xs[0])
    ensures ExtractWalk(xs, false, []) ==
      [DropOpeners(xs[StartBefore(xs, ClauseBlock, c)..c])] + ExtractWalk(xs[c + 1..], false, [])
  {
    var p := xs[0];
    var tail := xs[1..];
    assert FirstClose(tail, ClauseBlock) == Some(c - 1);
    ExtractWalkInClause(tail, [], c - 1);
    var front := xs[0..c];
    assert front == [p] + tail[..c - 1];
    assert front[0] == p && front[1..] == tail[..c - 1];
    assert DropOpeners(front) == DropOpeners(tail[..c - 1]);
    assert [] + DropOpeners(tail[..c - 1]) == DropOpeners(tail[..c - 1]);
    assert tail[c - 1 + 1..] == xs[c + 1..];
  }

  /** Outside a branch: records before the first opener are skipped. */
  lemma {:induction false} ExtractWalkIdle(xs: TagList, c: nat)
    requires FirstClose(xs, ClauseBlock) == Some(c)
    ensures ExtractWalk(xs, false, []) ==
      [DropOpeners(xs[StartBefore(xs, ClauseBlock, c)..c])] + ExtractWalk(xs[c + 1..], false, [])
  {
    if c == 0 {
      assert !Opens(ClauseBlock, xs[0]);
      assert xs[0..0] == [];
    } else if Opens(ClauseBlock, xs[0]) {
      ExtractWalkIdleAtOpen(xs, c);
    } else {
      var tail := xs[1..];
      assert FirstClose(tail, ClauseBlock) == Some(c - 1);
      ExtractWalkIdle(tail, c - 1);
      var s := StartBefore(tail, ClauseBlock, c - 1);
      assert StartBefore(xs, ClauseBlock, c) == s + 1;
      assert tail[s..c - 1] == xs[s + 1..c];
      assert tail[c..] == xs[c + 1..];
    }
  }

  /** `_extractChoiceOperations` yields exactly the branches by position. */
  lemma {:induction false} ExtractByPosition(xs: TagList)
    ensures ExtractChoiceOperations(xs) == BranchesByPosition(xs)
    decreases |xs|
  {
    var first := FirstClose(xs, ClauseBlock);
    if first.Some? {
      var c := first.value;
      ExtractWalkIdle(xs, c);
      ExtractByPosition(xs[c + 1..]);
    } else {
      ExtractWalkNoClose(xs, false, []);
    }
  }

  // ---------------------------------------------------------------------------
  // Consequences.

  lemma {:induction false} IsolateWalkCount(xs: TagList, inFlow: bool, acc: TagList)
    ensures |IsolateWalk(xs, inFlow, acc)| == CountCloses(xs, FlowBlock)
  {
    if xs != [] {
      var p := xs[0];
      IsolateWalkCount(xs[1..], true, acc + [p]);
      IsolateWalkCount(xs[1..], false, []);
      IsolateWalkCount(xs[1..], false, acc);
    }
  }

  /** There are as many flows as `/flow` and `/sub-flow` records. */
  lemma FlowCount(xs: TagList)
    ensures |IsolateFlows(xs)| == CountCloses(xs, FlowBlock)
  {
    IsolateWalkCount(xs, false, []);
  }

  /** `f` is the slice `xs[i..j]` for some `i < j`, and `xs[j - 1]` closes a flow. */
  predicate IsClosedSlice(f: TagList, xs: TagList)
  {
    exists i, j :: 0 <= i < j <= |xs| && f == xs[i..j] && Closes(FlowBlock, xs[j - 1])
  }

  lemma ClosedSliceAt(xs: TagList, i: nat, j: nat)
    requires i < j <= |xs| && Closes(FlowBlock, xs[j - 1])
    ensures IsClosedSlice(xs[i..j], xs)
  {
  }

  lemma ClosedSliceShift(f: TagList, xs: TagList, d: nat)
    requires d <= |xs| && IsClosedSlice(f, xs[d..])
    ensures IsClosedSlice(f, xs)
  {
    var rest := xs[d..];
    var i, j :| 0 <= i < j <= |rest| && f == rest[i..j] && Closes(FlowBlock, rest[j - 1]);
    assert rest[i..j] == xs[d + i..d + j];
    assert rest[j - 1] == xs[d + j - 1];
  }

  /** Flow `k` by position is a non-empty slice of the input ending in a closer. */
  lemma {:induction false} FlowByPositionIsSlice(xs: TagList, k: nat)
    requires k < |FlowsByPosition(xs)|
    ensures IsClosedSlice(FlowsByPosition(xs)[k], xs)
    decreases |xs|
  {
    var c := FirstClose(xs, FlowBlock).value;
    var rest := xs[c + 1..];
    var fs := FlowsByPosition(xs);
    FlowsByPositionStep(xs);
    if k == 0 {
      ClosedSliceAt(xs, StartBefore(xs, FlowBlock, c), c + 1);
    } else {
      FlowByPositionIsSlice(rest, k - 1);
      ConsIndex(xs[StartBefore(xs, FlowBlock, c)..c + 1], FlowsByPosition(rest), k);
      ClosedSliceShift(fs[k], xs, c + 1);
    }
  }

  /** Every flow by position is a non-empty slice of the input ending in a closer. */
  lemma FlowsByPositionAreSlices(xs: TagList)
    ensures forall k :: 0 <= k < |FlowsByPosition(xs)| ==> IsClosedSlice(FlowsByPosition(xs)[k], xs)
  {
    forall k | 0 <= k < |FlowsByPosition(xs)| ensures IsClosedSlice(FlowsByPosition(xs)[k], xs) {
      FlowByPositionIsSlice(xs, k);
    }
  }

  /** Each flow `_isolateFlows` returns is a contiguous slice of the input whose
      last record is `/flow` or `/sub-flow`. */
  lemma FlowsAreSlices(xs: TagList)
    ensures forall k :: 0 <= k < |IsolateFlows(xs)| ==> IsClosedSlice(IsolateFlows(xs)[k], xs)
  {
    IsolateFlowsByPosition(xs);
    FlowsByPositionAreSlices(xs);
  }

  lemma OpenerIsNoCloser(b: Block, p: TagPair)
    requires Opens(b, p)
    ensures !Closes(b, p)
  {
    match b
    case FlowBlock =>
    case ClauseBlock =>
  }

  /** A closer with none before it is the first closer. */
  lemma FirstCloseAt(xs: TagList, b: Block, c: nat)
    requires c < |xs| && Closes(b, xs[c])
    requires forall j :: 0 <= j < c ==> !Closes(b, xs[j])
    ensures FirstClose(xs, b) == Some(c)
  {
  }

  /** An opener with none before it is where the block closed at `c` starts. */
  lemma StartBeforeAt(xs: TagList, b: Block, s: nat, c: nat)
    requires s < c < |xs| && Opens(b, xs[s])
    requires forall j :: 0 <= j < s ==> !Opens(b, xs[j])
    ensures StartBefore(xs, b, c) == s
  {
  }

  /** The first closer and its block start, read off from positions. */
  lemma BlockAt(xs: TagList, b: Block, s: nat, c: nat)
    requires s < c < |xs|
    requires forall j :: 0 <= j < s ==> Neutral(b, xs[j])
    requires Opens(b, xs[s]) && Closes(b, xs[c])
    requires forall j :: s < j < c ==> !Closes(b, xs[j])
    ensures FirstClose(xs, b) == Some(c)
    ensures StartBefore(xs, b, c) == s
  {
    OpenerIsNoCloser(b, xs[s]);
    FirstCloseAt(xs, b, c);
    StartBeforeAt(xs, b, s, c);
  }

  /** The slices of `pre + [o] + body + [cl] + post` around the block. */
  lemma BlockSlices(pre: TagList, o: TagPair, body: TagList, cl: TagPair, post: TagList)
    ensures var xs := pre + [o] + body + [cl] + post; var c := |pre| + |body| + 1;
      && xs[|pre|..c + 1] == [o] + body + [cl]
      && xs[|pre|..c] == [o] + body
      && xs[c + 1..] == post
  {
    var mid := [o] + body + [cl];
    var xs := pre + [o] + body + [cl] + post;
    assert xs == pre + mid + post;
    SliceParts(pre, mid, post);
    assert xs[|pre|..|pre| + |body| + 1] == mid[..|mid| - 1];
  }

  /** The positions of a block written as `pre + [o] + body + [cl] + post`. */
  lemma BlockPositions(b: Block, pre: TagList, o: TagPair, body: TagList, cl: TagPair, post: TagList)
    requires forall i :: 0 <= i < |pre| ==> Neutral(b, pre[i])
    requires Opens(b, o) && Closes(b, cl)
    requires forall i :: 0 <= i < |body| ==> !Closes(b, body[i])
    ensures var xs := pre + [o] + body + [cl] + post; var c := |pre| + |body| + 1;
      && FirstClose(xs, b) == Some(c)
      && StartBefore(xs, b, c) == |pre|
  {
    var xs := pre + [o] + body + [cl] + post;
    var c := |pre| + |body| + 1;
    forall j | 0 <= j < |pre| ensures Neutral(b, xs[j]) {
      assert xs[j] == pre[j];
    }
    forall j | |pre| < j < c ensures !Closes(b, xs[j]) {
      assert xs[j] == body[j - |pre| - 1];
    }
    assert xs[|pre|] == o && xs[c] == cl;
    BlockAt(xs, b, |pre|, c);
  }

  /** A flow preceded only by records outside any flow is returned whole, with
      its boundary records. */
  lemma OneFlow(pre: TagList, o: TagPair, body: TagList, cl: TagPair, post: TagList)
    requires forall i :: 0 <= i < |pre| ==> Neutral(FlowBlock, pre[i])
    requires Opens(FlowBlock, o) && Closes(FlowBlock, cl)
    requires forall i :: 0 <= i < |body| ==> !Closes(FlowBlock, body[i])
    ensures IsolateFlows(pre + [o] + body + [cl] + post) == [[o] + body + [cl]] + IsolateFlows(post)
  {
    BlockPositions(FlowBlock, pre, o, body, cl, post);
    BlockSlices(pre, o, body, cl, post);
    IsolateWalkIdle(pre + [o] + body + [cl] + post, |pre| + |body| + 1);
  }

  lemma {:induction false} DropOpenersNone(xs: TagList)
    requires forall i :: 0 <= i < |xs| ==> !Opens(ClauseBlock, xs[i])
    ensures DropOpeners(xs) == xs
  {
    if xs != [] {
      assert forall i :: 0 <= i < |xs[1..]| ==> xs[1..][i] == xs[i + 1];
      DropOpenersNone(xs[1..]);
    }
  }

  /** A branch preceded only by records outside any branch yields exactly the
      records strictly between its opener and its closer. */
  lemma OneBranch(pre: TagList, o: TagPair, body: TagList, cl: TagPair, post: TagList)
    requires forall i :: 0 <= i < |pre| ==> Neutral(ClauseBlock, pre[i])
    requires Opens(ClauseBlock, o) && Closes(ClauseBlock, cl)
    requires forall i :: 0 <= i < |body| ==> Neutral(ClauseBlock, body[i])
    ensures ExtractChoiceOperations(pre + [o] + body + [cl] + post) == [body] + ExtractChoiceOperations(post)
  {
    BlockPositions(ClauseBlock, pre, o, body, cl, post);
    BlockSlices(pre, o, body, cl, post);
    var xs := pre + [o] + body + [cl] + post;
    ExtractWalkIdle(xs, |pre| + |body| + 1);
    var front := [o] + body;
    assert front[0] == o && front[1..] == body;
    DropOpenersNone(body);
    assert DropOpeners(front) == body;
  }

  lemma {:induction false} ExtractWalkCount(xs: TagList, inClause: bool, acc: TagList)
    ensures |ExtractWalk(xs, inClause, acc)| == CountCloses(xs, ClauseBlock)
  {
    if xs != [] {
      var p := xs[0];
      ExtractWalkCount(xs[1..], true, acc);
      ExtractWalkCount(xs[1..], true, acc + [p]);
      ExtractWalkCount(xs[1..], false, []);
      ExtractWalkCount(xs[1..], false, acc);
    }
  }

  /** One branch per `/when` or `/otherwise` record. */
  lemma BranchCount(xs: TagList)
    ensures |ExtractChoiceOperations(xs)| == CountCloses(xs, ClauseBlock)
  {
    ExtractWalkCount(xs, false, []);
  }

  lemma {:induction false} ExtractWalkNeutral(xs: TagList, inClause: bool, acc: TagList)
    requires forall i :: 0 <= i < |acc| ==> Neutral(ClauseBlock, acc[i])
    ensures forall k, i :: 0 <= k < |ExtractWalk(xs, inClause, acc)| && 0 <= i < |ExtractWalk(xs, inClause, acc)[k]| ==>
      Neutral(ClauseBlock, ExtractWalk(xs, inClause, acc)[k][i])
  {
    if xs != [] {
      var p := xs[0];
      ExtractWalkNeutral(xs[1..], true, acc);
      if Neutral(ClauseBlock, p) {
        ExtractWalkNeutral(xs[1..], true, acc + [p]);
      }
      ExtractWalkNeutral(xs[1..], false, []);
      ExtractWalkNeutral(xs[1..], false, acc);
    }
  }

  /** No branch holds a `when`, `otherwise`, `/when` or `/otherwise` record. */
  lemma BranchesExcludeBoundaries(xs: TagList)
    ensures forall k, i :: 0 <= k < |ExtractChoiceOperations(xs)| && 0 <= i < |ExtractChoiceOperations(xs)[k]| ==>
      Neutral(ClauseBlock, ExtractChoiceOperations(xs)[k][i])
  {
    ExtractWalkNeutral(xs, false, []);
  }
}

=== FILE: sequences.dfy ===
/** Small facts about sequence concatenation, stated once for every element type. */
module Sequences {

  lemma ConsIndex<T>(x: T, s: seq<T>, i: nat)
    requires 0 < i <= |s|
    ensures ([x] + s)[i] == s[i - 1]
  {
  }

  lemma AppendAssociative<T>(a: seq<T>, b: seq<T>, c: seq<T>)
    ensures a + (b + c) == a + b + c
  {
  }

  /** The middle and the end of a three-part concatenation. */
  lemma SliceParts<T>(a: seq<T>, m: seq<T>, z: seq<T>)
    ensures (a + m + z)[|a|..|a| + |m|] == m
    ensures (a + m + z)[|a| + |m|..] == z
  {
  }
}

=== FILE: serializer.dfy ===
/** `createMUnitSuiteFile`: the MUnit records written out as XML text, one line
    per record, indented by nesting depth, the tests of a flow numbered in turn. */
module Serializer {
  import opened Wrappers
  import opened Strings
  import opened Attributes
  import opened TagPairs
  import opened TagLists
  import opened Nesting
  import opened Conversion
  import opened Pipeline

  /** The exceptions the writing loop can raise. */
  datatype RenderError =
    | NotText(tag: string, key: string)  // TypeError: a value that is not a string joins the line
    | EmptyTag                           // IndexError: `getTag()[0]` of an empty tag

  const XmlDeclaration: string := "<?xml version=\"1.0\" encoding=\"UTF-8\"?>\n\n"

  /** The tags whose line is followed by a blank line. */
  const SpacedTags: seq<string> := ["/munit:test", "/spring:beans", "/munit:before-suite", "/munit:after-suite"]

  /** Two pieces of text in writing order: the first failure wins. */
  function Then(x: Result<string, RenderError>, y: Result<string, RenderError>): Result<string, RenderError>
  {
    if x.Failure? then x else if y.Failure? then y else Success(x.value + y.value)
  }

  lemma ThenAssociative(x: Result<string, RenderError>, y: Result<string, RenderError>, z: Result<string, RenderError>)
    ensures Then(x, Then(y, z)) == Then(Then(x, y), z)
  {
    if x.Success? && y.Success? && z.Success? {
      assert x.value + (y.value + z.value) == (x.value + y.value) + z.value;
    }
  }

  lemma ThenEmpty(y: Result<string, RenderError>)
    ensures Then(Success(""), y) == y
  {
    if y.Success? {
      assert "" + y.value == y.value;
    }
  }

  // ---------------------------------------------------------------------------
  // One line.

  /** One attribute as written, ` key="value"`. The `name` of a `munit:test`
      carries the test number; `closeAtEnd` is not written. */
  function AttributeText(tag: string, e: Entry, number: nat): Result<string, RenderError>
  {
    if tag == "munit:test" && e.0 == "name" then
      match e.1
      case Text(s) => Success(" " + e.0 + "=\"" + s + NatToString(number) + "\"")
      case _ => Failure(NotText(tag, e.0))
    else if e.0 != "closeAtEnd" then
      match e.1
      case Text(s) => Success(" " + e.0 + "=\"" + s + "\"")
      case _ => Failure(NotText(tag, e.0))
    else Success("")
  }

  /** The attributes in insertion order. */
  function AttributesText(tag: string, a: seq<Entry>, number: nat): Result<string, RenderError>
  {
    if a == [] then Success("")
    else Then(AttributeText(tag, a[0], number), AttributesText(tag, a[1..], number))
  }

  lemma {:induction false} AttributesTextAppend(tag: string, a: seq<Entry>, b: seq<Entry>, number: nat)
    ensures AttributesText(tag, a + b, number) == Then(AttributesText(tag, a, number), AttributesText(tag, b, number))
  {
    if a == [] {
      assert a + b == b;
      ThenEmpty(AttributesText(tag, b, number));
    } else {
      assert (a + b)[1..] == a[1..] + b;
      AttributesTextAppend(tag, a[1..], b, number);
      ThenAssociative(AttributeText(tag, a[0], number), AttributesText(tag, a[1..], number), AttributesText(tag, b, number));
    }
  }

  /** An entry that writes nothing can be dropped. */
  lemma SilentEntry(tag: string, a: seq<Entry>, i: nat, number: nat)
    requires i < |a| && AttributeText(tag, a[i], number) == Success("")
    ensures AttributesText(tag, a[..i] + a[i + 1..], number) == AttributesText(tag, a, number)
  {
    var pre, rest := a[..i], a[i + 1..];
    assert a == pre + ([a[i]] + rest);
    AttributesTextAppend(tag, pre, [a[i]] + rest, number);
    AttributesTextAppend(tag, [a[i]], rest, number);
    AttributesTextAppend(tag, pre, rest, number);
    assert [a[i]][1..] == [];
    ThenEmpty(AttributesText(tag, [], number));
    ThenEmpty(AttributesText(tag, rest, number));
  }

  /** `closeAtEnd` never reaches the file: the line is the same with it removed. */
  lemma CloseAtEndNotWritten(tag: string, a: Attrs, number: nat)
    ensures AttributesText(tag, Delete(a, "closeAtEnd"), number) == AttributesText(tag, a, number)
  {
    match Find(a, "closeAtEnd")
    case None =>
    case Some(i) =>
      SilentEntry(tag, a, i, number);
  }

  /** Only the name of a `munit:test` depends on the test number. */
  lemma {:induction false} AttributesIgnoreNumber(tag: string, a: seq<Entry>, m: nat, n: nat)
    requires tag != "munit:test"
    ensures AttributesText(tag, a, m) == AttributesText(tag, a, n)
  {
    if a != [] {
      AttributesIgnoreNumber(tag, a[1..], m, n);
    }
  }

  /** One record as a line: `<tag`, the attributes, `/>` when the record closes
      itself or `>` otherwise, a line break, and a blank line after the end of a
      test, of the Spring beans and of a before- or after-suite. */
  function Line(p: TagPair, number: nat): Result<string, RenderError>
  {
    var attrs :- AttributesText(p.tag, p.attrs, number);
    var close := if SelfClosing(p) then "/>\n" else ">\n";
    var spacing := if p.tag in SpacedTags then "\n" else "";
    Success("<" + p.tag + attrs + close + spacing)
  }

  lemma LineIgnoresNumber(p: TagPair, m: nat, n: nat)
    requires p.tag != "munit:test"
    ensures Line(p, m) == Line(p, n)
  {
    AttributesIgnoreNumber(p.tag, p.attrs, m, n);
  }

  // ---------------------------------------------------------------------------
  // The document, by position.

  /** The `name` a record carries, as the Python value the loop compares. */
  function NameOf(p: TagPair): Value
  {
    Stored(GetAttribute(p, "name"))
  }

  /** How many `munit:test` records named `v` come right before position `k`,
      skipping other records and stopping at a test of another name. The loop
      starts as if after a test named `""`. */
  function Preceding(xs: TagList, k: nat, v: Value): nat
    requires k <= |xs|
  {
    if k == 0 then (if v == Text("") then 1 else 0)
    else if xs[k - 1].tag != "munit:test" then Preceding(xs, k - 1, v)
    else if NameOf(xs[k - 1]) == v then 1 + Preceding(xs, k - 1, v)
    else 0
  }

  /** The number written after the name of the test at `k`. */
  function TestNumber(xs: TagList, k: nat): nat
    requires k < |xs|
  {
    1 + Preceding(xs, k, NameOf(xs[k]))
  }

  /** The indentation of record `k`: the depth before it, and for a closer the
      depth after it, that of its opener. */
  function Indentation(xs: TagList, k: nat): int
    requires k < |xs|
  {
    if IsClose(xs[k]) then Depth(xs[..k + 1]) else Depth(xs[..k])
  }

  /** Record `k` as written, tabs first. */
  function LineAt(xs: TagList, k: nat): Result<string, RenderError>
    requires k < |xs|
  {
    var line :- Line(xs[k], TestNumber(xs, k));
    if xs[k].tag == [] then Failure(EmptyTag) else Success(Tabs(Indentation(xs, k)) + line)
  }

  /** The lines from position `k` on, in order. */
  function Document(xs: TagList, k: nat): Result<string, RenderError>
    requires k <= |xs|
    decreases |xs| - k
  {
    if k == |xs| then Success("") else Then(LineAt(xs, k), Document(xs, k + 1))
  }

  // ---------------------------------------------------------------------------
  // The loop.

  /** `tagDepth`, `currentFlow` and `testNumber`. */
  datatype Cursor = Cursor(depth: int, currentFlow: Value, testNumber: nat)

  const Start: Cursor := Cursor(0, Text(""), 1)

  /** The numbering at the top of the loop body. */
  function Renumber(c: Cursor, p: TagPair): Cursor
  {
    if p.tag != "munit:test" then c
    else if c.currentFlow != NameOf(p) then c.(currentFlow := NameOf(p), testNumber := 1)
    else c.(testNumber := c.testNumber + 1)
  }

  /** The tabs in front of the line. */
  function Indent(c: Cursor, p: TagPair): int
    requires p.tag != []
  {
    if p.tag[0] != '/' then c.depth else c.depth - 1
  }

  /** The depth update at the end of the loop body. */
  function Move(c: Cursor, p: TagPair): Cursor
    requires p.tag != []
  {
    if p.tag[0] == '/' then c.(depth := c.depth - 1)
    else if !SelfClosing(p) then c.(depth := c.depth + 1)
    else c
  }

  /** The loop state on reaching record `k`, records before it having non-empty tags. */
  function CursorAt(xs: TagList, k: nat): Cursor
    requires k <= |xs| && forall j :: 0 <= j < k ==> xs[j].tag != []
  {
    if k == 0 then Start else Move(Renumber(CursorAt(xs, k - 1), xs[k - 1]), xs[k - 1])
  }

  /** The loop's depth is the nesting depth of the records written so far. */
  lemma {:induction false} CursorDepth(xs: TagList, k: nat)
    requires k <= |xs| && forall j :: 0 <= j < k ==> xs[j].tag != []
    ensures CursorAt(xs, k).depth == Depth(xs[..k])
  {
    if k > 0 {
      CursorDepth(xs, k - 1);
      assert xs[..k][..k - 1] == xs[..k - 1];
    }
  }

  /** The loop's `currentFlow` and `testNumber` count the tests named `v` just before `k`. */
  lemma {:induction false} CursorNumbering(xs: TagList, k: nat, v: Value)
    requires k <= |xs| && forall j :: 0 <= j < k ==> xs[j].tag != []
    ensures Preceding(xs, k, v) == if CursorAt(xs, k).currentFlow == v then CursorAt(xs, k).testNumber else 0
  {
    if k > 0 {
      CursorNumbering(xs, k - 1, v);
    }
  }

  /** The number the loop writes for the test at `k` is `TestNumber`. */
  lemma NumberAtTest(xs: TagList, k: nat)
    requires k < |xs| && forall j :: 0 <= j <= k ==> xs[j].tag != []
    requires xs[k].tag == "munit:test"
    ensures Renumber(CursorAt(xs, k), xs[k]).testNumber == TestNumber(xs, k)
  {
    CursorNumbering(xs, k, NameOf(xs[k]));
  }

  /** The writing loop: it threads the cursor through the records and stops at
      the first error. What it writes is the document by position. */
  method Render(xs: TagList) returns (r: Result<string, RenderError>)
    ensures r == Document(xs, 0)
  {
    var out := "";
    var c := Start;
    var i := 0;
    ThenEmpty(Document(xs, 0));
    while i < |xs|
      invariant 0 <= i <= |xs| && forall j :: 0 <= j < i ==> xs[j].tag != []
      invariant c == CursorAt(xs, i)
      invariant Document(xs, 0) == Then(Success(out), Document(xs, i))
    {
      var p := xs[i];
      c := Renumber(c, p);
      var line := Line(p, c.testNumber);
      LoopLine(xs, i);
      if line.Failure? {
        return Failure(line.error);
      }
      if p.tag == [] {
        return Failure(EmptyTag);
      }
      ThenAssociative(Success(out), LineAt(xs, i), Document(xs, i + 1));
      assert Then(Success(out), LineAt(xs, i)) == Success(out + (Tabs(Indent(c, p)) + line.value));
      out := out + (Tabs(Indent(c, p)) + line.value);
      assert forall j :: 0 <= j < i + 1 ==> xs[j].tag != [] by {
        assert xs[i].tag != [];
      }
      CursorStep(xs, i);
      c := Move(c, p);
      i := i + 1;
    }
    assert out + "" == out;
    return Success(out);
  }

  /** One turn of the loop moves the cursor from record `k` to record `k + 1`. */
  lemma CursorStep(xs: TagList, k: nat)
    requires k < |xs| && forall j :: 0 <= j <= k ==> xs[j].tag != []
    ensures CursorAt(xs, k + 1) == Move(Renumber(CursorAt(xs, k), xs[k]), xs[k])
  {
  }

  /** The line the loop writes for record `k` is the one the document has there. */
  lemma LoopLine(xs: TagList, k: nat)
    requires k < |xs| && forall j :: 0 <= j < k ==> xs[j].tag != []
    ensures var c := Renumber(CursorAt(xs, k), xs[k]);
      var line := Line(xs[k], c.testNumber);
      && Document(xs, k) == Then(LineAt(xs, k), Document(xs, k + 1))
      && (line.Failure? ==> LineAt(xs, k) == Failure(line.error))
      && (line.Success? && xs[k].tag == [] ==> LineAt(xs, k) == Failure(EmptyTag))
      && (line.Success? && xs[k].tag != [] ==> LineAt(xs, k) == Success(Tabs(Indent(c, xs[k])) + line.value))
  {
    var c := Renumber(CursorAt(xs, k), xs[k]);
    if xs[k].tag == "munit:test" {
      NumberAtTest(xs, k);
    } else {
      LineIgnoresNumber(xs[k], c.testNumber, TestNumber(xs, k));
    }
    if xs[k].tag != [] {
      StepIndentation(xs, k);
    }
  }

  /** The tabs the loop writes are the indentation by position. */
  lemma StepIndentation(xs: TagList, k: nat)
    requires k < |xs| && forall j :: 0 <= j <= k ==> xs[j].tag != []
    ensures Indent(Renumber(CursorAt(xs, k), xs[k]), xs[k]) == Indentation(xs, k)
  {
    CursorDepth(xs, k);
    if IsClose(xs[k]) {
      CloseIndentation(xs, k);
    }
  }

  /** A closer is written at the depth after it. */
  lemma CloseIndentation(xs: TagList, k: nat)
    requires k < |xs| && forall j :: 0 <= j <= k ==> xs[j].tag != []
    requires IsClose(xs[k])
    ensures Renumber(CursorAt(xs, k), xs[k]).depth - 1 == Depth(xs[..k + 1])
  {
    CursorStep(xs, k);
    CursorDepth(xs, k + 1);
  }


  // ---------------------------------------------------------------------------
  // What the numbering and the indentation promise.

  /** Records other than tests leave the count alone. */
  lemma {:induction false} PrecedingSkips(xs: TagList, j: nat, k: nat, v: Value)
    requires j <= k <= |xs|
    requires forall i :: j <= i < k ==> xs[i].tag != "munit:test"
    ensures Preceding(xs, k, v) == Preceding(xs, j, v)
    decreases k - j
  {
    if j < k {
      PrecedingSkips(xs, j, k - 1, v);
    }
  }

  /** A test whose previous test has another name is number 1; one whose
      previous test has the same name gets the next number. */
  lemma NumberingFollowsPrevious(xs: TagList, j: nat, k: nat)
    requires j < k < |xs| && xs[j].tag == "munit:test"
    requires forall i :: j < i < k ==> xs[i].tag != "munit:test"
    ensures NameOf(xs[j]) != NameOf(xs[k]) ==> TestNumber(xs, k) == 1
    ensures NameOf(xs[j]) == NameOf(xs[k]) ==> TestNumber(xs, k) == TestNumber(xs, j) + 1
  {
    PrecedingSkips(xs, j + 1, k, NameOf(xs[k]));
  }

  /** The first test is number 1, unless its name is the empty string the loop
      starts from. */
  lemma FirstTestNumber(xs: TagList, k: nat)
    requires k < |xs| && forall i :: 0 <= i < k ==> xs[i].tag != "munit:test"
    ensures TestNumber(xs, k) == if NameOf(xs[k]) == Text("") then 2 else 1
  {
    PrecedingSkips(xs, 0, k, NameOf(xs[k]));
  }

  /** A balanced list is never indented below the margin. */
  lemma BalancedIndentation(xs: TagList, k: nat)
    requires Balanced(xs) && k < |xs|
    ensures Indentation(xs, k) >= 0
  {
    NeverBelowPrefixes(xs);
  }

  /** After a balanced list the loop is back at depth zero. */
  lemma BalancedEndsAtMargin(xs: TagList)
    requires Balanced(xs) && forall j :: 0 <= j < |xs| ==> xs[j].tag != []
    ensures CursorAt(xs, |xs|).depth == 0
  {
    CursorDepth(xs, |xs|);
    assert xs[..|xs|] == xs;
  }

  // ---------------------------------------------------------------------------
  // The file.

  /** `createMUnitSuiteFile`: nothing is written for an empty list; otherwise
      the XML declaration and the document. */
  method SuiteFile(xs: TagList) returns (r: Result<Option<string>, RenderError>)
    ensures xs == [] ==> r == Success(None)
    ensures xs != [] ==> (r.Success? <==> Document(xs, 0).Success?)
    ensures xs != [] && r.Success? ==> r.value == Some(XmlDeclaration + Document(xs, 0).value)
    ensures xs != [] && r.Failure? ==> r.error == Document(xs, 0).error
  {
    if xs == [] {
      return Success(None);
    }
    var body := Render(xs);
    if body.Failure? {
      return Failure(body.error);
    }
    return Success(Some(XmlDeclaration + body.value));
  }

  /** After `createMUnitTests` succeeds there is always something to write. */
  lemma GeneratedSuiteIsWritten(fileName: string, xs: TagList)
    ensures CreateTests(fileName, xs).Success? ==> CreateTests(fileName, xs).value != []
  {
    CreateTestsFrame(fileName, xs);
  }
}

=== FILE: strings.dfy ===
/** The handful of Python string operations the generator relies on,
    written out over `seq<char>`. */
module Strings {
  import opened Wrappers

  /** Python's `c.lower()` restricted to ASCII letters. */
  function LowerChar(c: char): char
  {
    if 'A' <= c <= 'Z' then (c as int - 'A' as int + 'a' as int) as char else c
  }

  /** Python's `s.lower()` for ASCII text. */
  function Lower(s: string): (r: string)
    ensures |r| == |s|
    ensures forall i :: 0 <= i < |s| ==> r[i] == LowerChar(s[i])
  {
    if s == [] then [] else [LowerChar(s[0])] + Lower(s[1..])
  }

  /** No upper-case ASCII letter occurs in `s`. */
  predicate IsLower(s: string)
  {
    forall i :: 0 <= i < |s| ==> !('A' <= s[i] <= 'Z')
  }

  lemma LowerIsLower(s: string)
    ensures IsLower(Lower(s))
  {
  }

  /** Python's `sub in s` on strings: `sub` is a prefix of some suffix of `s`. */
  predicate HasSubstring(s: string, sub: string)
    decreases |s|
  {
    sub <= s || (s != [] && HasSubstring(s[1..], sub))
  }

  /** A substring is never longer than the string holding it. */
  lemma {:induction false} SubstringFits(s: string, sub: string)
    ensures HasSubstring(s, sub) ==> |sub| <= |s|
    decreases |s|
  {
    if s != [] {
      SubstringFits(s[1..], sub);
    }
  }

  /** `sub` cannot occur where no character of `s` matches its first one. */
  lemma {:induction false} NotSubstringFirstChar(s: string, sub: string)
    requires sub != []
    requires forall i :: 0 <= i < |s| && i + |sub| <= |s| ==> s[i] != sub[0]
    ensures !HasSubstring(s, sub)
    decreases |s|
  {
    if s != [] {
      assert !(sub <= s) by {
        if |sub| <= |s| { assert s[0] != sub[0]; }
      }
      assert forall i :: 0 <= i < |s[1..]| && i + |sub| <= |s[1..]| ==> s[1..][i] == s[i + 1];
      NotSubstringFirstChar(s[1..], sub);
    }
  }

  /** Python's `s.endswith(suffix)`, which the code writes as `s[-n:] == suffix`. */
  predicate EndsWith(s: string, suffix: string)
  {
    |suffix| <= |s| && s[|s| - |suffix|..] == suffix
  }

  /** How many `c`s `s` starts with. */
  function LeadingCount(s: string, c: char): (n: nat)
    ensures n <= |s|
    ensures forall i :: 0 <= i < n ==> s[i] == c
    ensures n < |s| ==> s[n] != c
    decreases |s|
  {
    if s != [] && s[0] == c then 1 + LeadingCount(s[1..], c) else 0
  }

  /** How many `c`s `s` ends with. */
  function TrailingCount(s: string, c: char): (n: nat)
    ensures n <= |s|
    ensures forall i :: |s| - n <= i < |s| ==> s[i] == c
    ensures n < |s| ==> s[|s| - n - 1] != c
    decreases |s|
  {
    if s != [] && s[|s| - 1] == c then 1 + TrailingCount(s[..|s| - 1], c) else 0
  }

  /** Python's `s.lstrip(c)` for a single character. */
  function StripLeft(s: string, c: char): (r: string)
    ensures |r| <= |s|
    ensures r == s[|s| - |r|..]
    ensures r != [] ==> r[0] != c
    ensures forall i :: 0 <= i < |s| - |r| ==> s[i] == c
  {
    s[LeadingCount(s, c)..]
  }

  /** Python's `s.rstrip(c)` for a single character. */
  function StripRight(s: string, c: char): (r: string)
    ensures |r| <= |s|
    ensures r == s[..|r|]
    ensures r != [] ==> r[|r| - 1] != c
    ensures forall i :: |r| <= i < |s| ==> s[i] == c
  {
    s[..|s| - TrailingCount(s, c)]
  }

  /** `r` is the slice of `s` starting at `i` that `strip(c)` keeps: every
      character of `s` outside it is `c`, and it neither starts nor ends with `c`. */
  predicate StripsAt(s: string, c: char, i: nat, r: string)
  {
    && i + |r| <= |s|
    && (forall k :: 0 <= k < |r| ==> r[k] == s[i + k])
    && (forall k :: 0 <= k < i ==> s[k] == c)
    && (forall k :: i + |r| <= k < |s| ==> s[k] == c)
    && (r != [] ==> r[0] != c && r[|r| - 1] != c)
  }

  /** `r` is `s` with every `c` at either end removed. */
  ghost predicate IsStripOf(s: string, c: char, r: string)
  {
    exists i: nat :: StripsAt(s, c, i, r)
  }

  /** Python's `s.strip(c)`: the slice of `s` left once every `c` at either end
      is removed. */
  function Strip(s: string, c: char): (r: string)
    ensures IsStripOf(s, c, r)
    ensures r != [] ==> r[0] != c && r[|r| - 1] != c
  {
    var i := LeadingCount(s, c);
    var l := s[i..];
    StripsAtCounts(s, c);
    l[..|l| - TrailingCount(l, c)]
  }

  lemma StripsAtCounts(s: string, c: char)
    ensures var i := LeadingCount(s, c);
      var l := s[i..];
      StripsAt(s, c, i, l[..|l| - TrailingCount(l, c)])
  {
    var i := LeadingCount(s, c);
    var l := s[i..];
    var n := TrailingCount(l, c);
    var r := l[..|l| - n];
    assert |r| == |s| - i - n;
    forall k | 0 <= k < |r| ensures r[k] == s[i + k] {
      assert r[k] == l[k];
    }
    forall k | i + |r| <= k < |s| ensures s[k] == c {
      assert s[k] == l[k - i];
    }
    if r != [] {
      assert r[0] == s[i];
      assert r[|r| - 1] == l[|l| - n - 1];
    }
  }

  /** At most one string is `s` stripped of `c`, so `IsStripOf` pins `strip` down. */
  lemma StripOfUnique(s: string, c: char, r1: string, r2: string)
    requires IsStripOf(s, c, r1) && IsStripOf(s, c, r2)
    ensures r1 == r2
  {
    var i1: nat :| StripsAt(s, c, i1, r1);
    var i2: nat :| StripsAt(s, c, i2, r2);
    if r1 != [] && r2 != [] {
      assert s[i1] == r1[0] && s[i2] == r2[0];
      assert i1 == i2;
      assert s[i1 + |r1| - 1] == r1[|r1| - 1] && s[i2 + |r2| - 1] == r2[|r2| - 1];
      assert |r1| == |r2|;
    }
  }

  /** Index of the first `c` in `s`, if any. */
  function IndexOfChar(s: string, c: char): (r: Option<nat>)
    ensures r.Some? ==> r.value < |s| && s[r.value] == c && c !in s[..r.value]
    ensures r.None? ==> c !in s
  {
    if s == [] then None
    else if s[0] == c then Some(0)
    else
      var rest := IndexOfChar(s[1..], c);
      if rest.None? then None else Some(rest.value + 1)
  }

  /** Python's `s.split(c)` for a one-character separator. */
  function Split(s: string, c: char): (r: seq<string>)
    ensures |r| >= 1
    ensures forall i :: 0 <= i < |r| ==> c !in r[i]
    decreases |s|
  {
    match IndexOfChar(s, c)
    case None => [s]
    case Some(i) => [s[..i]] + Split(s[i + 1..], c)
  }

  /** The inverse of `Split`: the pieces joined with the separator. */
  function Join(pieces: seq<string>, c: char): string
    requires |pieces| >= 1
  {
    if |pieces| == 1 then pieces[0] else pieces[0] + [c] + Join(pieces[1..], c)
  }

  lemma {:induction false} SplitJoin(s: string, c: char)
    ensures Join(Split(s, c), c) == s
    decreases |s|
  {
    var found := IndexOfChar(s, c);
    if found.Some? {
      var i := found.value;
      SplitJoin(s[i + 1..], c);
      SplitAt(s, c, i);
      AroundChar(s, i);
    }
  }

  /** Splitting at the first separator: the text before it, then the rest's pieces,
      joined back with the separator. */
  lemma SplitAt(s: string, c: char, i: nat)
    requires IndexOfChar(s, c) == Some(i)
    ensures Join(Split(s, c), c) == s[..i] + [c] + Join(Split(s[i + 1..], c), c)
  {
    var rest := Split(s[i + 1..], c);
    var pieces := [s[..i]] + rest;
    assert Split(s, c) == pieces;
    assert pieces[0] == s[..i] && pieces[1..] == rest;
  }

  lemma AroundChar(s: string, i: nat)
    requires i < |s|
    ensures s[..i] + [s[i]] + s[i + 1..] == s
  {
    assert s[i..] == [s[i]] + s[i + 1..];
    assert s[..i] + s[i..] == s;
  }

  /** `n` copies of the tab character; Python's `'\t' * n`, empty for `n <= 0`. */
  function Tabs(n: int): (r: string)
    ensures |r| == if n <= 0 then 0 else n
    ensures forall i :: 0 <= i < |r| ==> r[i] == '\t'
    decreases if n <= 0 then 0 else n
  {
    if n <= 0 then "" else "\t" + Tabs(n - 1)
  }

  function DigitChar(d: nat): char
    requires d < 10
  {
    ('0' as int + d) as char
  }

  /** Python's `str(n)` for a natural number. */
  function NatToString(n: nat): (r: string)
    ensures |r| >= 1
    ensures forall i :: 0 <= i < |r| ==> '0' <= r[i] <= '9'
    ensures n == 0 ==> r == "0"
    ensures n > 0 ==> r[0] != '0'
    ensures |r| > 1 ==> r[0] != '0'
  {
    if n < 10 then [DigitChar(n)] else NatToString(n / 10) + [DigitChar(n % 10)]
  }

  /** The decimal value of a string of digits. */
  function DigitsValue(s: string): nat
    requires forall i :: 0 <= i < |s| ==> '0' <= s[i] <= '9'
  {
    if s == [] then 0 else 10 * DigitsValue(s[..|s| - 1]) + (s[|s| - 1] as int - '0' as int)
  }

  lemma {:induction false} NatToStringValue(n: nat)
    ensures DigitsValue(NatToString(n)) == n
  {
    if n >= 10 {
      NatToStringValue(n / 10);
      var r := NatToString(n);
      assert r[..|r| - 1] == NatToString(n / 10);
      assert r[|r| - 1] as int - '0' as int == n % 10;
      assert n == 10 * (n / 10) + n % 10;
    }
  }
}

=== FILE: tag_lists.dfy ===
/** `TagList`: an ordered list of tag pairs, compared and searched with the
    structural equality of `TagPair.__eq__`. Value semantics: every operation
    returns a new list. */
module TagLists {
  import opened Wrappers
  import opened Attributes
  import opened TagPairs

  type TagList = seq<TagPair>

  /** `contains` / Python's `target in list`. */
  predicate Contains(xs: TagList, t: TagPair)
  {
    exists i :: 0 <= i < |xs| && Equal(xs[i], t)
  }

  /** `append`: the pair goes at the end; the others are unchanged. */
  function Append(xs: TagList, p: TagPair): (r: TagList)
    ensures |r| == |xs| + 1
    ensures r[..|xs|] == xs && r[|xs|] == p
  {
    xs + [p]
  }

  lemma AppendContains(xs: TagList, p: TagPair, t: TagPair)
    ensures Contains(Append(xs, p), t) <==> Contains(xs, t) || Equal(p, t)
  {
    var r := Append(xs, p);
    if Contains(r, t) && !Equal(p, t) {
      var i :| 0 <= i < |r| && Equal(r[i], t);
      assert i < |xs| && xs[i] == r[i];
    }
    if Contains(xs, t) {
      var i :| 0 <= i < |xs| && Equal(xs[i], t);
      assert r[i] == xs[i];
    }
    if Equal(p, t) {
      assert r[|xs|] == p;
    }
  }

  /** `index`: the first position holding a pair equal to `t`, or `None`. */
  function Index(xs: TagList, t: TagPair): (r: Option<nat>)
    ensures r.Some? ==> r.value < |xs| && Equal(xs[r.value], t)
    ensures r.Some? ==> forall j :: 0 <= j < r.value ==> !Equal(xs[j], t)
    ensures r.None? <==> !Contains(xs, t)
  {
    if xs == [] then None
    else if Equal(xs[0], t) then Some(0)
    else
      var rest := Index(xs[1..], t);
      assert Contains(xs, t) ==> Contains(xs[1..], t) by {
        if Contains(xs, t) {
          var i :| 0 <= i < |xs| && Equal(xs[i], t);
          assert xs[1..][i - 1] == xs[i];
        }
      }
      if rest.None? then None else Some(rest.value + 1)
  }

  /** `remove`: Python's `list.remove` after the `in` guard, scanning for the
      first pair equal to `t`. */
  function Remove(xs: TagList, t: TagPair): (r: TagList)
    ensures !Contains(xs, t) ==> r == xs
    ensures Contains(xs, t) ==> |r| == |xs| - 1
  {
    if xs == [] then []
    else if Equal(xs[0], t) then xs[1..]
    else
      assert Contains(xs, t) <==> Contains(xs[1..], t) by {
        if Contains(xs, t) {
          var i :| 0 <= i < |xs| && Equal(xs[i], t);
          assert xs[1..][i - 1] == xs[i];
        }
        if Contains(xs[1..], t) {
          var i :| 0 <= i < |xs[1..]| && Equal(xs[1..][i], t);
          assert xs[i + 1] == xs[1..][i];
        }
      }
      [xs[0]] + Remove(xs[1..], t)
  }

  /** `remove` deletes exactly the element that `index` finds, and nothing else. */
  lemma {:induction false} RemoveDeletesFirstMatch(xs: TagList, t: TagPair)
    ensures Index(xs, t).Some? ==>
      var i := Index(xs, t).value; Remove(xs, t) == xs[..i] + xs[i + 1..]
  {
    if xs != [] && !Equal(xs[0], t) {
      RemoveDeletesFirstMatch(xs[1..], t);
      if Index(xs, t).Some? {
        var i := Index(xs, t).value;
        assert Index(xs[1..], t) == Some(i - 1);
        assert xs[1..][..i - 1] == xs[1..i];
        assert xs[1..][i..] == xs[i + 1..];
        assert [xs[0]] + xs[1..i] == xs[..i];
      }
    }
  }

  /** The list with every pair equal to `t` dropped, the rest in order. */
  function Without(xs: TagList, t: TagPair): (r: TagList)
    ensures !Contains(r, t)
    ensures |r| <= |xs|
    ensures forall i :: 0 <= i < |r| ==> r[i] in xs
  {
    if xs == [] then []
    else
      var rest := Without(xs[1..], t);
      if Equal(xs[0], t) then rest
      else
        var r := [xs[0]] + rest;
        assert forall i :: 1 <= i < |r| ==> r[i] == rest[i - 1];
        assert forall i :: 0 <= i < |rest| ==> rest[i] in xs by {
          forall i | 0 <= i < |rest| ensures rest[i] in xs {
            assert rest[i] in xs[1..];
          }
        }
        r
  }

  lemma {:induction false} WithoutAppend(xs: TagList, ys: TagList, t: TagPair)
    ensures Without(xs + ys, t) == Without(xs, t) + Without(ys, t)
  {
    if xs != [] {
      assert (xs + ys)[1..] == xs[1..] + ys;
      WithoutAppend(xs[1..], ys, t);
    } else {
      assert xs + ys == ys;
    }
  }

  lemma {:induction false} WithoutRemove(xs: TagList, t: TagPair)
    ensures Without(Remove(xs, t), t) == Without(xs, t)
  {
    if xs != [] && !Equal(xs[0], t) {
      WithoutRemove(xs[1..], t);
      assert ([xs[0]] + Remove(xs[1..], t))[1..] == Remove(xs[1..], t);
    }
  }

  lemma {:induction false} WithoutAbsent(xs: TagList, t: TagPair)
    requires !Contains(xs, t)
    ensures Without(xs, t) == xs
  {
    if xs != [] {
      assert !Equal(xs[0], t);
      assert !Contains(xs[1..], t) by {
        forall i | 0 <= i < |xs[1..]| ensures !Equal(xs[1..][i], t) {
          assert xs[1..][i] == xs[i + 1];
        }
      }
      WithoutAbsent(xs[1..], t);
    }
  }

  /** `removeAll`: repeat `remove` while an equal pair is left. Afterwards no pair
      equals `t` and the others keep their relative order. */
  method RemoveAll(xs: TagList, t: TagPair) returns (r: TagList)
    ensures !Contains(r, t)
    ensures r == Without(xs, t)
  {
    r := xs;
    while Contains(r, t)
      invariant Without(r, t) == Without(xs, t)
      decreases |r|
    {
      WithoutRemove(r, t);
      r := Remove(r, t);
    }
    WithoutAbsent(r, t);
  }

  /** Position `i` holds the first pair carrying `tag`. */
  predicate FirstWithTag(xs: TagList, tag: string, i: nat)
    requires i < |xs|
  {
    xs[i].tag == tag && forall j :: 0 <= j < i ==> xs[j].tag != tag
  }

  /** `getPair`: the first pair carrying `tag`, or `None`. */
  function GetPair(xs: TagList, tag: string): (r: Option<TagPair>)
    ensures r.None? <==> forall i :: 0 <= i < |xs| ==> xs[i].tag != tag
    ensures r.Some? ==> exists i :: 0 <= i < |xs| && xs[i] == r.value && FirstWithTag(xs, tag, i)
  {
    if xs == [] then None
    else if xs[0].tag == tag then Some(xs[0])
    else
      var r := GetPair(xs[1..], tag);
      assert forall i :: 1 <= i < |xs| ==> xs[i] == xs[1..][i - 1];
      assert r.Some? ==> exists i :: 0 <= i < |xs| && xs[i] == r.value && FirstWithTag(xs, tag, i) by {
        if r.Some? {
          var i :| 0 <= i < |xs[1..]| && xs[1..][i] == r.value && FirstWithTag(xs[1..], tag, i);
          assert xs[i + 1] == r.value;
          assert FirstWithTag(xs, tag, i + 1) by {
            forall j | 0 <= j < i + 1 ensures xs[j].tag != tag {
              if j > 0 { assert xs[j] == xs[1..][j - 1]; }
            }
          }
        }
      }
      r
  }

  /** `containsTag`: the scan that stops at the first pair carrying `tag`. */
  predicate ContainsTag(xs: TagList, tag: string)
  {
    xs != [] && (xs[0].tag == tag || ContainsTag(xs[1..], tag))
  }

  /** `containsTag(t)` holds exactly when `getPair(t)` finds a pair. */
  lemma {:induction false} ContainsTagIffGetPair(xs: TagList, tag: string)
    ensures ContainsTag(xs, tag) <==> GetPair(xs, tag).Some?
  {
    if xs != [] && xs[0].tag != tag {
      ContainsTagIffGetPair(xs[1..], tag);
    }
  }

  /** `containsTag` holds exactly when some pair carries the tag. */
  lemma ContainsTagIffSome(xs: TagList, tag: string)
    ensures ContainsTag(xs, tag) <==> exists i :: 0 <= i < |xs| && xs[i].tag == tag
  {
    ContainsTagIffGetPair(xs, tag);
  }

  /** The position `list.insert(index, v)` uses: negative indexes count from the
      end, and the result is clamped to `[0, n]`. */
  function InsertPosition(index: int, n: nat): (k: nat)
    ensures k <= n
    ensures 0 <= index <= n ==> k == index
    ensures index > n ==> k == n
    ensures index < 0 && index + n >= 0 ==> k == index + n
    ensures index + n < 0 ==> k == 0
  {
    if index < 0 then (if index + n < 0 then 0 else index + n)
    else if index > n then n
    else index
  }

  /** `insertAtIndex`: the list grows by one and `v` lands at the clamped position. */
  function InsertAt(xs: TagList, index: int, v: TagPair): (r: TagList)
    ensures |r| == |xs| + 1
    ensures var k := InsertPosition(index, |xs|);
      r[k] == v && r[..k] == xs[..k] && r[k + 1..] == xs[k..]
  {
    var k := InsertPosition(index, |xs|);
    xs[..k] + [v] + xs[k..]
  }

  /** `TagList.__eq__`: same length and pairwise equal elements. */
  predicate ListEqual(xs: TagList, ys: TagList)
  {
    |xs| == |ys| && forall i :: 0 <= i < |xs| ==> Equal(xs[i], ys[i])
  }

  /** `copy`: append every pair of the list to a fresh list. */
  method Copy(xs: TagList) returns (r: TagList)
    ensures ListEqual(r, xs)
    ensures r == xs
  {
    r := [];
    var i := 0;
    while i < |xs|
      invariant 0 <= i <= |xs|
      invariant r == xs[..i]
    {
      r := Append(r, xs[i]);
      i := i + 1;
    }
    forall j | 0 <= j < |r| ensures Equal(r[j], xs[j]) {
      EqualReflexive(xs[j]);
    }
  }

  lemma ListEqualSymmetric(xs: TagList, ys: TagList)
    ensures ListEqual(xs, ys) ==> ListEqual(ys, xs)
  {
    forall i | 0 <= i < |xs| && i < |ys| ensures Equal(xs[i], ys[i]) ==> Equal(ys[i], xs[i]) {
      EqualSymmetric(xs[i], ys[i]);
    }
  }

  lemma ListEqualTransitive(xs: TagList, ys: TagList, zs: TagList)
    ensures ListEqual(xs, ys) && ListEqual(ys, zs) ==> ListEqual(xs, zs)
  {
    forall i | 0 <= i < |xs| && i < |ys| && i < |zs|
      ensures Equal(xs[i], ys[i]) && Equal(ys[i], zs[i]) ==> Equal(xs[i], zs[i])
    {
      EqualTransitive(xs[i], ys[i], zs[i]);
    }
  }
}

=== FILE: tag_pairs.dfy ===
/** A parsed or generated tag: its name and its ordered attribute dictionary. */
module TagPairs {
  import opened Wrappers
  import opened Attributes

  datatype TagPair = TagPair(tag: string, attrs: Attrs)

  /** `TagPair.__eq__`: same tag, and the attribute comparison loop succeeds. */
  predicate Equal(a: TagPair, b: TagPair)
  {
    a.tag == b.tag && SameAs(a.attrs, b.attrs)
  }

  /** Two pairs are equal exactly when their tags match and their dictionaries hold
      the same keys with the same values, whatever the insertion order. */
  lemma EqualIsStructural(a: TagPair, b: TagPair)
    ensures Equal(a, b) <==> a.tag == b.tag && ToMap(a.attrs) == ToMap(b.attrs)
  {
    SameAsIffSameMap(a.attrs, b.attrs);
  }

  lemma EqualReflexive(a: TagPair)
    ensures Equal(a, a)
  {
    EqualIsStructural(a, a);
  }

  lemma EqualSymmetric(a: TagPair, b: TagPair)
    ensures Equal(a, b) ==> Equal(b, a)
  {
    EqualIsStructural(a, b);
    EqualIsStructural(b, a);
  }

  lemma EqualTransitive(a: TagPair, b: TagPair, c: TagPair)
    ensures Equal(a, b) && Equal(b, c) ==> Equal(a, c)
  {
    EqualIsStructural(a, b);
    EqualIsStructural(b, c);
    EqualIsStructural(a, c);
  }

  /** `getAttribute`: the stored value, or `None` when the key is absent. */
  function GetAttribute(p: TagPair, name: string): (r: Option<Value>)
    ensures forall v :: r == Some(v) <==> (name, v) in p.attrs
  {
    var r := Get(p.attrs, name);
    assert forall v :: (name, v) in p.attrs ==> r == Some(v) by {
      forall v | (name, v) in p.attrs ensures r == Some(v) {
        var i :| 0 <= i < |p.attrs| && p.attrs[i] == (name, v);
      }
    }
    assert r.Some? ==> (name, r.value) in p.attrs by {
      if r.Some? {
        var i := Find(p.attrs, name).value;
        assert p.attrs[i] == (name, r.value);
      }
    }
    r
  }

  /** `setAttribute`: overwrite the value of an existing key or add a new key;
      nothing else changes. */
  function SetAttribute(p: TagPair, name: string, value: string): (r: TagPair)
    ensures r.tag == p.tag
    ensures GetAttribute(r, name) == Some(Text(value))
    ensures forall k :: k != name ==> GetAttribute(r, k) == GetAttribute(p, k)
    ensures Keys(r.attrs) == AddKey(Keys(p.attrs), name)
  {
    PutKeys(p.attrs, name, Text(value));
    p.(attrs := Put(p.attrs, name, Text(value)))
  }

  /** `removeAttribute`: drop the key if present; nothing else changes. */
  function RemoveAttribute(p: TagPair, name: string): (r: TagPair)
    ensures r.tag == p.tag
    ensures GetAttribute(r, name) == None
    ensures forall k :: k != name ==> GetAttribute(r, k) == GetAttribute(p, k)
    ensures name !in KeySet(p.attrs) ==> r == p
    ensures name in KeySet(p.attrs) ==>
      exists i :: 0 <= i < |p.attrs| && p.attrs[i].0 == name && r.attrs == p.attrs[..i] + p.attrs[i + 1..]
  {
    p.(attrs := Delete(p.attrs, name))
  }

  /** `setTag`: rename the tag; the attributes are untouched. */
  function SetTag(p: TagPair, newTag: string): (r: TagPair)
    ensures r.tag == newTag
    ensures r.attrs == p.attrs
    ensures forall k :: GetAttribute(r, k) == GetAttribute(p, k)
  {
    p.(tag := newTag)
  }

  /** The result of `getAttribute` as a Python value: `None` when the key is absent. */
  function Stored(v: Option<Value>): Value
  {
    match v
    case None => Null
    case Some(x) => x
  }

  /** Python truthiness of an attribute lookup: `None`, `False` and `''` are false. */
  predicate Truthy(v: Option<Value>)
  {
    match v
    case None => false
    case Some(Text(s)) => s != ""
    case Some(Flag(b)) => b
    case Some(Null) => false
  }

  /** `pair.getAttribute('closeAtEnd')` read as a condition: the record is self-closing. */
  predicate SelfClosing(p: TagPair)
  {
    Truthy(GetAttribute(p, "closeAtEnd"))
  }

  /** A record whose tag begins with `/` closes a block. */
  predicate IsClose(p: TagPair)
  {
    p.tag != [] && p.tag[0] == '/'
  }
}

=== FILE: tokenizer.dfy ===
/** The line tokenizer of `parseMuleFileLines`: one trimmed line of the Mule XML
    file, already split into tokens by `shlex.split`, becomes at most one tag pair. */
module Tokenizer {
  import opened Wrappers
  import opened Strings
  import opened Attributes
  import opened TagPairs

  /** One line of the input file after trimming, with the tokens `shlex.split`
      makes of it (quotes removed, whitespace inside quotes kept). */
  datatype Line = Line(text: string, tokens: seq<string>)

  /** The Python `IndexError`s the tokenizer can raise. */
  datatype ParseError =
    | LineTooShort                  // `line[0]` or `line[1]` past the end of the line
    | NoTokens                      // `splitLine[0]` of an empty token list
    | MissingEquals(token: string)  // `attrAndValue[1]` of a token with no `=`

  /** The text of `token` from position `from` up to the next `=` or the end. */
  predicate RunToEquals(token: string, from: nat, v: string)
  {
    from + |v| <= |token| && token[from..from + |v|] == v && '=' !in v &&
    (from + |v| == |token| || token[from + |v|] == '=')
  }

  lemma SplitHead(s: string, c: char)
    ensures var p := Split(s, c)[0]; |p| <= |s| && s[..|p|] == p && c !in p && (|p| == |s| || s[|p|] == c)
  {
    match IndexOfChar(s, c)
    case None =>
    case Some(i) =>
  }

  /** `item.split('=')` read as `[0]` and `[1]`: the key is the text before the
      first `=`, the value the text between the first `=` and any second one.
      A token with no `=` raises. */
  function KeyAndValue(token: string): (r: Result<(string, string), ParseError>)
    ensures r.Failure? <==> '=' !in token
    ensures r.Failure? ==> r.error == MissingEquals(token)
    ensures r.Success? ==>
      RunToEquals(token, 0, r.value.0) && |r.value.0| < |token| && RunToEquals(token, |r.value.0| + 1, r.value.1)
  {
    var pieces := Split(token, '=');
    if |pieces| < 2 then
      assert IndexOfChar(token, '=').None?;
      Failure(MissingEquals(token))
    else
      var i := IndexOfChar(token, '=').value;
      assert pieces[0] == token[..i];
      assert pieces[1] == Split(token[i + 1..], '=')[0];
      SplitHead(token[i + 1..], '=');
      assert token[i + 1..][..|pieces[1]|] == token[i + 1..i + 1 + |pieces[1]|];
      Success((pieces[0], pieces[1]))
  }

  /** One attribute token added to the dictionary. A value ending in `/>` marks the
      tag self-closing and loses two characters; one ending in `>` marks it open and
      loses one; any other value is stored verbatim and sets no flag. */
  function AddToken(a: Attrs, token: string): (r: Result<Attrs, ParseError>)
    ensures r.Failure? <==> '=' !in token
  {
    var (k, v) :- KeyAndValue(token);
    if EndsWith(v, "/>") then
      Success(Put(Put(a, "closeAtEnd", Flag(true)), k, Text(v[..|v| - 2])))
    else if EndsWith(v, ">") then
      Success(Put(Put(a, "closeAtEnd", Flag(false)), k, Text(v[..|v| - 1])))
    else
      Success(Put(a, k, Text(v)))
  }

  /** What one attribute token does to the dictionary, seen through lookups. */
  lemma AddTokenEffect(a: Attrs, token: string)
    requires '=' in token
    ensures var r := AddToken(a, token).value;
      var (k, v) := KeyAndValue(token).value;
      && (EndsWith(v, "/>") ==>
            Get(r, k) == Some(Text(v[..|v| - 2])) &&
            (k != "closeAtEnd" ==> Get(r, "closeAtEnd") == Some(Flag(true))))
      && (!EndsWith(v, "/>") && EndsWith(v, ">") ==>
            Get(r, k) == Some(Text(v[..|v| - 1])) &&
            (k != "closeAtEnd" ==> Get(r, "closeAtEnd") == Some(Flag(false))))
      && (!EndsWith(v, ">") ==>
            Get(r, k) == Some(Text(v)) &&
            (k != "closeAtEnd" ==> Get(r, "closeAtEnd") == Get(a, "closeAtEnd")))
      && (forall k' :: k' != k && k' != "closeAtEnd" ==> Get(r, k') == Get(a, k'))
  {
  }

  /** The attribute tokens added left to right; the first malformed token aborts. */
  function AddTokens(a: Attrs, tokens: seq<string>): (r: Result<Attrs, ParseError>)
    ensures r.Success? <==> AllHaveEquals(tokens)
  {
    if tokens == [] then Success(a)
    else
      var last := tokens[|tokens| - 1];
      var front := tokens[..|tokens| - 1];
      assert AllHaveEquals(tokens) <==> AllHaveEquals(front) && '=' in last by {
        assert forall i :: 0 <= i < |front| ==> front[i] == tokens[i];
      }
      match AddTokens(a, front)
      case Failure(e) => Failure(e)
      case Success(a') => AddToken(a', last)
  }

  /** Every attribute token has the `=` that `split('=')[1]` needs. */
  predicate AllHaveEquals(tokens: seq<string>)
  {
    forall i :: 0 <= i < |tokens| ==> '=' in tokens[i]
  }

  // ---------------------------------------------------------------------------
  // The dictionary a line's tokens build, key by key.

  /** What `token` leaves under `key`, if it writes there: its own value, with a
      closing `/>` or `>` dropped, under its own key; its closing flag under
      `closeAtEnd`. The own key is written last, so it wins when it is `closeAtEnd`. */
  function Written(token: string, key: string): Option<Value>
    requires '=' in token
  {
    var (k, v) := KeyAndValue(token).value;
    if k == key then
      Some(Text(if EndsWith(v, "/>") then v[..|v| - 2] else if EndsWith(v, ">") then v[..|v| - 1] else v))
    else if key == "closeAtEnd" && EndsWith(v, "/>") then Some(Flag(true))
    else if key == "closeAtEnd" && EndsWith(v, ">") then Some(Flag(false))
    else None
  }

  /** The last write to `key` among the tokens, if any token writes there. */
  function LastWrite(tokens: seq<string>, key: string): Option<Value>
    requires AllHaveEquals(tokens)
  {
    if tokens == [] then None
    else
      var w := Written(tokens[|tokens| - 1], key);
      if w.Some? then w else LastWrite(tokens[..|tokens| - 1], key)
  }

  /** After the tokens, each key holds its last write, or what it held before when
      no token writes it. From the empty dictionary of a line: a key is present
      exactly when some token writes it, and `closeAtEnd` is absent unless some
      value ends in `>` or a token names it. */
  lemma {:induction false} AddTokensLookup(a: Attrs, tokens: seq<string>, key: string)
    requires AllHaveEquals(tokens)
    ensures Get(AddTokens(a, tokens).value, key) ==
      if LastWrite(tokens, key).Some? then LastWrite(tokens, key) else Get(a, key)
  {
    if tokens != [] {
      var front := tokens[..|tokens| - 1];
      var last := tokens[|tokens| - 1];
      AddTokensLookup(a, front, key);
      AddTokenEffect(AddTokens(a, front).value, last);
    }
  }

  /** The keys one token writes, in order: `closeAtEnd` first when its value ends
      in `>`, then its own key. */
  function KeysWritten(token: string): seq<string>
    requires '=' in token
  {
    var (k, v) := KeyAndValue(token).value;
    (if EndsWith(v, ">") then ["closeAtEnd"] else []) + [k]
  }

  /** The keys the tokens write, token after token. */
  function AllKeysWritten(tokens: seq<string>): seq<string>
    requires AllHaveEquals(tokens)
  {
    if tokens == [] then []
    else AllKeysWritten(tokens[..|tokens| - 1]) + KeysWritten(tokens[|tokens| - 1])
  }

  lemma AddTokenKeys(a: Attrs, token: string)
    requires '=' in token
    ensures Keys(AddToken(a, token).value) == AddKeys(Keys(a), KeysWritten(token))
  {
    var (k, v) := KeyAndValue(token).value;
    if EndsWith(v, ">") {
      AddTokenKeysClosing(a, token, k, v);
    } else {
      assert AddToken(a, token).value == Put(a, k, Text(v));
      PutKeys(a, k, Text(v));
      assert KeysWritten(token) == [k];
      AddKeysOne(Keys(a), k);
    }
  }

  /** A token whose value ends in `>` writes `closeAtEnd`, then its own key. */
  lemma AddTokenKeysClosing(a: Attrs, token: string, k: string, v: string)
    requires '=' in token && KeyAndValue(token).value == (k, v) && EndsWith(v, ">")
    ensures Keys(AddToken(a, token).value) == AddKeys(Keys(a), KeysWritten(token))
  {
    var flag := Flag(EndsWith(v, "/>"));
    var text := Text(if EndsWith(v, "/>") then v[..|v| - 2] else v[..|v| - 1]);
    var a' := Put(a, "closeAtEnd", flag);
    assert AddToken(a, token).value == Put(a', k, text);
    PutKeys(a, "closeAtEnd", flag);
    PutKeys(a', k, text);
    assert KeysWritten(token) == ["closeAtEnd", k];
    AddKeysTwo(Keys(a), "closeAtEnd", k);
  }


  /** The dictionary's key order: the keys it held, then each newly written key in
      the order of its first write. */
  lemma {:induction false} AddTokensKeys(a: Attrs, tokens: seq<string>)
    requires AllHaveEquals(tokens)
    ensures Keys(AddTokens(a, tokens).value) == AddKeys(Keys(a), AllKeysWritten(tokens))
  {
    if tokens != [] {
      var front := tokens[..|tokens| - 1];
      var last := tokens[|tokens| - 1];
      AddTokensKeys(a, front);
      AddTokenKeys(AddTokens(a, front).value, last);
      AddKeysAppend(Keys(a), AllKeysWritten(front), KeysWritten(last));
    }
  }

  /** The tag name of a line with attributes: lower-cased, `<` stripped from both ends. */
  function AttributeLineTag(first: string): (t: string)
    ensures IsLower(t)
    ensures IsStripOf(Lower(first), '<', t)
  {
    var t := Strip(Lower(first), '<');
    LowerIsLower(first);
    StripKeepsLower(Lower(first), '<');
    t
  }

  /** The tag name of a bare tag line: lower-cased, `<` and then `>` stripped. */
  function BareLineTag(first: string): (t: string)
    ensures IsLower(t)
    ensures IsStripOf(AttributeLineTag(first), '>', t)
  {
    var s := Strip(Lower(first), '<');
    LowerIsLower(first);
    StripKeepsLower(Lower(first), '<');
    StripKeepsLower(s, '>');
    Strip(s, '>')
  }

  lemma StripKeepsLower(s: string, c: char)
    requires IsLower(s)
    ensures IsLower(Strip(s, c))
  {
    var r := Strip(s, c);
    var i: nat :| StripsAt(s, c, i, r);
    forall k | 0 <= k < |r| ensures !('A' <= r[k] <= 'Z') {
      assert r[k] == s[i + k];
    }
  }

  /** One line of `parseMuleFileLines`: no record for a line that does not start
      with `<` or whose second character is `?` or `!`; otherwise one record. */
  function ParseLine(line: Line): (r: Result<Option<TagPair>, ParseError>)
    ensures |line.text| >= 2 && line.text[0] == '<' && (line.text[1] == '?' || line.text[1] == '!') ==>
      r == Success(None)
    ensures line.text != [] && line.text[0] != '<' ==> r == Success(None)
    ensures |line.text| < 2 && (line.text == [] || line.text[0] == '<') ==> r == Failure(LineTooShort)
    ensures r.Success? && r.value.Some? ==> IsLower(r.value.value.tag)
    ensures |line.text| >= 2 && line.text[0] == '<' && line.text[1] != '?' && line.text[1] != '!' ==>
      && (line.tokens == [] ==> r == Failure(NoTokens))
      && (|line.tokens| == 1 ==>
            && r.Success? && r.value.Some?
            && r.value.value.tag == BareLineTag(line.tokens[0])
            && (GetAttribute(r.value.value, "closeAtEnd") == Some(Flag(false)) <==> "</" <= line.tokens[0])
            && r.value.value.attrs == [("closeAtEnd", Flag(!("</" <= line.tokens[0])))])
      && (|line.tokens| > 1 ==>
            && (r.Success? <==> AllHaveEquals(line.tokens[1..]))
            && (r.Success? ==>
                  && r.value.Some?
                  && r.value.value.tag == AttributeLineTag(line.tokens[0])
                  && r.value.value.attrs == AddTokens([], line.tokens[1..]).value))
  {
    var text := line.text;
    var tokens := line.tokens;
    if text == [] then Failure(LineTooShort)
    else if text[0] != '<' then Success(None)
    else if |text| < 2 then Failure(LineTooShort)
    else if text[1] == '?' || text[1] == '!' then Success(None)
    else if |tokens| > 1 then
      var rest := tokens[1..];
      var attrs :- AddTokens([], rest);
      Success(Some(TagPair(AttributeLineTag(tokens[0]), attrs)))
    else if tokens == [] then Failure(NoTokens)
    else
      var closeAtEnd := !("</" <= tokens[0]);
      var p := TagPair(BareLineTag(tokens[0]), [("closeAtEnd", Flag(closeAtEnd))]);
      assert p.attrs[0] == ("closeAtEnd", Flag(closeAtEnd));
      Success(Some(p))
  }

  /** A bare tag line gives a self-closing record exactly when its token does not
      start with `</`: the writer closes it with `/>` and does not indent after it. */
  lemma BareLineSelfClosing(line: Line)
    requires |line.text| >= 2 && line.text[0] == '<' && line.text[1] != '?' && line.text[1] != '!'
    requires |line.tokens| == 1
    ensures ParseLine(line).Success? && ParseLine(line).value.Some?
    ensures SelfClosing(ParseLine(line).value.value) <==> !("</" <= line.tokens[0])
  {
    var p := ParseLine(line).value.value;
    var closeAtEnd := !("</" <= line.tokens[0]);
    assert p.attrs == [("closeAtEnd", Flag(closeAtEnd))];
    assert ("closeAtEnd", Flag(closeAtEnd)) in p.attrs;
    assert GetAttribute(p, "closeAtEnd") == Some(Flag(closeAtEnd));
  }

  /** The line parses without raising. */
  predicate LineParses(line: Line)
  {
    ParseLine(line).Success?
  }

  /** `parseMuleFileLines` over the whole file: the records of the lines in order;
      the first line that raises aborts the parse. */
  function ParseLines(lines: seq<Line>): (r: Result<seq<TagPair>, ParseError>)
    ensures r.Success? ==> |r.value| <= |lines|
    ensures r.Success? ==> forall i :: 0 <= i < |r.value| ==> IsLower(r.value[i].tag)
    ensures r.Success? <==> forall i :: 0 <= i < |lines| ==> LineParses(lines[i])
  {
    if lines == [] then Success([])
    else
      var front := lines[..|lines| - 1];
      var last := lines[|lines| - 1];
      assert (forall i :: 0 <= i < |lines| ==> LineParses(lines[i])) <==>
        (forall i :: 0 <= i < |front| ==> LineParses(front[i])) && LineParses(last) by {
        assert forall i :: 0 <= i < |front| ==> front[i] == lines[i];
      }
      match ParseLines(front)
      case Failure(e) => Failure(e)
      case Success(ps) =>
        match ParseLine(last)
        case Failure(e) => Failure(e)
        case Success(None) => Success(ps)
        case Success(Some(p)) => Success(ps + [p])
  }

  /** The records one line contributes: none, or its one record; its error if it raises. */
  function LineRecords(r: Result<Option<TagPair>, ParseError>): Result<seq<TagPair>, ParseError>
  {
    match r
    case Failure(e) => Failure(e)
    case Success(None) => Success([])
    case Success(Some(p)) => Success([p])
  }

  /** The records of two runs of lines, one after the other; the first error wins. */
  function JoinRecords(a: Result<seq<TagPair>, ParseError>, b: Result<seq<TagPair>, ParseError>): Result<seq<TagPair>, ParseError>
  {
    if a.Failure? then Failure(a.error)
    else if b.Failure? then Failure(b.error)
    else Success(a.value + b.value)
  }

  /** A file of one line gives that line's record, if it has one, or its error. */
  lemma ParseLinesOne(line: Line)
    ensures ParseLines([line]) == LineRecords(ParseLine(line))
  {
    assert [line][..0] == [];
    var r := ParseLine(line);
    if r.Success? && r.value.Some? {
      assert [] + [r.value.value] == [r.value.value];
    }
  }

  /** Parsing two runs of lines is parsing each and joining the records. With
      `ParseLinesOne`, a file's records are those of its record-giving lines, in
      file order, and its error is that of the first line that raises. */
  lemma {:induction false} ParseLinesAppend(xs: seq<Line>, ys: seq<Line>)
    ensures ParseLines(xs + ys) == JoinRecords(ParseLines(xs), ParseLines(ys))
    decreases |ys|
  {
    if ys == [] {
      assert xs + ys == xs;
      if ParseLines(xs).Success? {
        assert ParseLines(xs).value + [] == ParseLines(xs).value;
      }
    } else {
      var zs := xs + ys;
      var front := ys[..|ys| - 1];
      var last := ys[|ys| - 1];
      assert zs[..|zs| - 1] == xs + front;
      assert zs[|zs| - 1] == last;
      ParseLinesAppend(xs, front);
      ParseLinesSnoc(zs);
      ParseLinesSnoc(ys);
      JoinAssociative(ParseLines(xs), ParseLines(front), LineRecords(ParseLine(last)));
    }
  }

  /** The last line's records come after those of the lines before it. */
  lemma ParseLinesSnoc(lines: seq<Line>)
    requires lines != []
    ensures ParseLines(lines) ==
      JoinRecords(ParseLines(lines[..|lines| - 1]), LineRecords(ParseLine(lines[|lines| - 1])))
  {
    var pf := ParseLines(lines[..|lines| - 1]);
    var r := ParseLine(lines[|lines| - 1]);
    if pf.Success? && r == Success(None) {
      assert pf.value + [] == pf.value;
    }
  }

  lemma JoinAssociative(a: Result<seq<TagPair>, ParseError>, b: Result<seq<TagPair>, ParseError>, c: Result<seq<TagPair>, ParseError>)
    ensures JoinRecords(JoinRecords(a, b), c) == JoinRecords(a, JoinRecords(b, c))
  {
    if a.Success? && b.Success? && c.Success? {
      assert a.value + b.value + c.value == a.value + (b.value + c.value);
    }
  }
}

=== FILE: walks.dfy ===
/** A loop that visits positions `0` to `n - 1` in order, threads a state from
    one position to the next, emits one value at each, and stops at the first
    failure. The handler and the state update are parameters, so what is shown
    here holds of every such loop. */
module Walks {
  import opened Wrappers

  /** The loop from position `k` in state `st`. */
  function Run<S, E, X>(n: nat, k: nat, st: S, emit: (nat, S) -> Result<E, X>, step: (nat, S) -> S): Result<seq<E>, X>
    requires k <= n
    decreases n - k
  {
    if k == n then Success([])
    else
      var e :- emit(k, st);
      var rest :- Run(n, k + 1, step(k, st), emit, step);
      Success([e] + rest)
  }

  /** The state the loop is in on reaching position `k`. */
  function StateAfter<S>(step: (nat, S) -> S, st0: S, k: nat): S
  {
    if k == 0 then st0 else step(k - 1, StateAfter(step, st0, k - 1))
  }

  /** One turn of the loop from the state it reaches at `k`. */
  lemma RunNext<S, E, X>(n: nat, k: nat, st0: S, emit: (nat, S) -> Result<E, X>, step: (nat, S) -> S)
    requires k < n
    ensures var st := StateAfter(step, st0, k);
      var r := Run(n, k, st, emit, step);
      var rest := Run(n, k + 1, StateAfter(step, st0, k + 1), emit, step);
      && (r.Success? <==> emit(k, st).Success? && rest.Success?)
      && (r.Success? ==> |r.value| == 1 + |rest.value| && r.value[0] == emit(k, st).value)
      && (r.Success? ==> forall i :: 0 < i < |r.value| ==> r.value[i] == rest.value[i - 1])
  {
  }

  /** The loop succeeds from `k` when every handler from `k` on does. */
  lemma {:induction false} RunSucceeds<S, E, X>(n: nat, k: nat, st0: S, emit: (nat, S) -> Result<E, X>, step: (nat, S) -> S)
    requires k <= n
    requires forall j :: k <= j < n ==> emit(j, StateAfter(step, st0, j)).Success?
    ensures var r := Run(n, k, StateAfter(step, st0, k), emit, step);
      r.Success? && |r.value| == n - k
    decreases n - k
  {
    if k < n {
      RunSucceeds(n, k + 1, st0, emit, step);
      RunNext(n, k, st0, emit, step);
    }
  }

  /** A successful loop holds the handlers' values in order, and each of them succeeded. */
  lemma {:induction false} RunEmits<S, E, X>(n: nat, k: nat, st0: S, emit: (nat, S) -> Result<E, X>, step: (nat, S) -> S, j: nat)
    requires k <= j < n
    ensures var r := Run(n, k, StateAfter(step, st0, k), emit, step);
      r.Success? ==> j - k < |r.value| && emit(j, StateAfter(step, st0, j)) == Success(r.value[j - k])
    decreases j - k
  {
    RunNext(n, k, st0, emit, step);
    if j > k {
      RunEmits(n, k + 1, st0, emit, step, j);
    }
  }

  /** The loop succeeds exactly when the handler succeeds at every position in
      the state the loop reaches it in, and then holds one value per position:
      that handler's. */
  lemma RunByPosition<S, E, X>(n: nat, st0: S, emit: (nat, S) -> Result<E, X>, step: (nat, S) -> S)
    ensures var r := Run(n, 0, st0, emit, step);
      && (r.Success? ==> forall j: nat :: j < n ==> emit(j, StateAfter(step, st0, j)).Success?)
      && ((forall j: nat :: j < n ==> emit(j, StateAfter(step, st0, j)).Success?) ==> r.Success?)
      && (r.Success? ==> |r.value| == n)
      && (r.Success? ==> forall j: nat :: j < n ==> emit(j, StateAfter(step, st0, j)) == Success(r.value[j]))
  {
    var r := Run(n, 0, st0, emit, step);
    assert StateAfter(step, st0, 0) == st0;
    assert Run(n, 0, StateAfter(step, st0, 0), emit, step) == r;
    forall j: nat | j < n
      ensures r.Success? ==> j < |r.value| && emit(j, StateAfter(step, st0, j)) == Success(r.value[j])
    {
      RunEmits(n, 0, st0, emit, step, j);
    }
    if forall j: nat :: j < n ==> emit(j, StateAfter(step, st0, j)).Success? {
      RunSucceeds(n, 0, st0, emit, step);
    }
    if r.Success? {
      forall j: nat | j < n
        ensures emit(j, StateAfter(step, st0, j)).Success?
      {
        RunEmits(n, 0, st0, emit, step, j);
      }
      RunSucceeds(n, 0, st0, emit, step);
    }
  }
}

=== FILE: wrappers.dfy ===
/** Failure-compatible wrappers: an optional value (Python's `None` or a value) and
    a result that is either a value or the error the Python code would raise. */
module Wrappers {

  datatype Option<+T> = None | Some(value: T)

  datatype Result<+T, +E> = Success(value: T) | Failure(error: E) {

    predicate IsFailure() {
      Failure?
    }

    function PropagateFailure<U>(): Result<U, E>
      requires Failure?
    {
      Failure(error)
    }

    function Extract(): T
      requires Success?
    {
      value
    }
  }
}
